=== FILE: README.md ===
# Smart TV hub: a Dafny model of its core logic

This project models the decision logic of a Raspberry-Pi smart-TV system. It has three parts:

- **The Flask backend.** This covers the video-call registry and presence, users and their sessions, friends and contacts, update versions, background sweeps, and the local shutdown/reboot endpoint.
- **The Electron TV interface.** This covers remote-key navigation, the on-screen keyboard, the trivia client, and the device and user ids.
- **Two React-Native remote apps.** This covers their connection/reconnect machines and the Wi-Fi QR payload.

Database tables are finite maps keyed by their natural key (call id, username, user pair, version). HTTP handlers become functions from optional request fields to an outcome datatype plus the new store. Browser and socket callbacks become events on immutable state records.

The model does not perform clocks, randomness or I/O. Each one arrives as a parameter:

- `now` is an abstract integer clock in seconds.
- `picks` are random draws.
- `uuid` and `freshId` are generated identifiers.
- `existing` is the row a single-row SQL lookup returned.
- `opens` says whether a socket opened.
- `mkdirFails` and `removalFails` say whether a filesystem call failed.

Each operation comes with a partner it is checked against: an invariant it keeps, an inverse, or a reference property. Examples:

- At most one live call per pair of users, kept by every call transition.
- Friendship rows stay symmetric.
- `Split(Join(parts))` returns the parts.
- Insert-then-backspace restores the text field.
- Left-then-right restores the focus.
- Generated ids pass the validators, including the server's username rule.
- The exponential backoff is bounded and monotone.

Several behaviours of the code are modelled as written and exhibited by lemmas. They are not corrected:

- The keyboard's `||` fallback treats a selection bound of 0 as the end of the text (`Keyboard.SelectionFromStartDuplicates`).
- `end_call` does not check who ends the call (`CallService.EndIgnoresActor`).
- Accepting a friend request overrides a block (`UserService.AcceptOverridesBlock`).
- An explicit disconnect of the older remote still schedules a reconnect (`RemoteControl.DisconnectStillRetries`).
- A `;` in a Wi-Fi field breaks the QR payload (`WifiQr.SemicolonBreaksPayload`).

## Model

| member | source | states |
|---|---|---|
| Common.TrimSpec | server_side/api/user_routes.py:648 | for any whitespace class, including the one Python's `str.strip()` removes (ASCII whitespace and the separators U+001C to U+001F), stripping gives the empty string exactly for text made only of that class, never lengthens it, and leaves none of it at either end |
| Common.Split | server_side/api/update_routes.py:45 | splitting gives at least one part, no part contains the separator, and joining the parts with it gives the text back |
| Common.SplitJoin | server_side/api/update_routes.py:45 | splitting the join of separator-free parts gives the parts back |
| Common.NatToString | system_manager/local_system_server.py:62 | a natural prints as a non-empty string of digits |
| Common.ParseNatToString | system_manager/local_system_server.py:62 | reading back a printed natural gives the natural |
| CallService.RoomName | server_side/services/call_service.py:185 | the room is "call_" followed by the first eight characters of the call id (all of a shorter id) |
| CallService.InitiateCall | server_side/services/call_service.py:100-148 | an unknown caller or callee changes nothing and yields no call; otherwise the live call found between the pair (either direction) is cancelled with an end time, a new pending call with the fresh id is inserted, and every other call is untouched |
| CallService.AnswerCall | server_side/services/call_service.py:168-203 | succeeds exactly when the call exists, the user is its callee and it is pending or ringing; then only that call changes, becoming accepted with the answer time and room name, and the answer reports caller, callee and room |
| CallService.CloseRinging | server_side/services/call_service.py:213-240 | the guard of decline and cancel holds exactly for an existing pending/ringing call whose actor matches; then only that call moves to the target status with an end time, otherwise nothing changes |
| CallService.DeclineCall | server_side/services/call_service.py:213-225 | only the callee of a pending or ringing call declines it; the call becomes declined with an end time; a failed guard changes nothing |
| CallService.CancelCall | server_side/services/call_service.py:234-246 | only the caller of a pending or ringing call cancels it; the call becomes cancelled with an end time; a failed guard changes nothing |
| CallService.EndCall | server_side/services/call_service.py:256-279 | succeeds exactly for an existing accepted call, whoever asks; the call becomes ended with an end time and a duration of now minus the answer time (0 without one), keeping parties, answer time and room |
| CallService.GetCallStatus | server_side/services/call_service.py:288-300 | the stored record when the id exists, nothing otherwise |
| CallService.PendingCallsFor | server_side/services/call_service.py:309-322 | exactly the calls whose callee is the user and whose status is pending or ringing |
| CallService.UpdatePresence | server_side/services/call_service.py:331-351 | succeeds exactly for a known user, upserting that user's presence row (status, socket id, time) and leaving every other row alone |
| CallService.CleanupOldCalls | server_side/services/call_service.py:360-370 | keeps exactly the calls that are live or created at or after the cutoff, unchanged, and reports how many were removed |
| CallService.PreservedByLocalChange | server_side/services/call_service.py:114-148 | a change to one call that keeps its parties and never makes a non-live call live keeps at most one live call per pair |
| CallService.InitiateKeepsOneLivePerPair | server_side/services/call_service.py:114-148 | with at most one live call per pair before, the same holds after an initiation, and the new pending call is the pair's only live call |
| CallService.InitiateNeedsInvariant | server_side/services/call_service.py:114-136 | without that precondition the single-row lookup can leave a second live call standing beside the new one |
| CallService.TransitionsKeepOneLivePerPair | server_side/services/call_service.py:164-279 | answer, decline, cancel and end keep at most one live call per pair |
| CallService.TerminalIsFinal | server_side/services/call_service.py:164-279 | on a declined, cancelled, ended or missed call every transition changes nothing |
| CallService.AnswerTwiceFails | server_side/services/call_service.py:175 | once answered, a second answer fails and changes nothing |
| CallService.EndDurationNonNegative | server_side/services/call_service.py:263-266 | when no stored time lies after now, the recorded duration is non-negative |
| CallService.EndIgnoresActor | server_side/services/call_service.py:252-274 | the outcome of end does not depend on the username given |
| CallService.InitiateAnswerEnd | server_side/services/call_service.py:80-279 | a call initiated, answered by its callee and ended by its caller ends with duration t2 - t1 |
| CallService.DeclineByStrangerFails | server_side/services/call_service.py:216-218 | a user other than the callee cannot decline, and nothing changes |
| CallService.InitiatedCallIsPendingForCallee | server_side/services/call_service.py:144-148 | the newly initiated call appears among the callee's pending calls |
| CallService.PresenceUpsert | server_side/services/call_service.py:341-349 | an update with an unchanged status still refreshes the row's timestamp and socket id |
| CallService.CleanupKeepsLive | server_side/services/call_service.py:363-365 | the retention sweep never deletes a pending, ringing or accepted call |
| CallService.CleanupIdempotent | server_side/services/call_service.py:362-366 | a second sweep at the same time removes nothing |
| CallService.CleanupKeepsOneLivePerPair | server_side/services/call_service.py:362-366 | the sweep keeps at most one live call per pair |
| CallRoutes.Invite | server_side/api/call_routes.py:60-93 | a missing caller or callee, or a self-call, is a bad request; an unknown caller (checked first) or callee is not found; success exactly when both are present, distinct and known, and then the store is the service's initiation with the fresh call id; every refusal leaves the store unchanged |
| CallRoutes.Answer | server_side/api/call_routes.py:119-136 | a missing call id or callee is a bad request with no change; otherwise the route reports the service's answer or a refusal |
| CallRoutes.Decline | server_side/api/call_routes.py:162-171 | a missing call id or callee is a bad request with no change; otherwise the service's guarded decline decides success |
| CallRoutes.Cancel | server_side/api/call_routes.py:205-214 | a missing call id or caller is a bad request with no change; otherwise the service's guarded cancel decides success |
| CallRoutes.End | server_side/api/call_routes.py:245-254 | a missing call id or username is a bad request with no change; otherwise the service's end decides success |
| CallRoutes.UpdatePresenceRoute | server_side/api/call_routes.py:327-338 | a missing username is a bad request; otherwise success exactly for a known user, with the status defaulting to 'online' |
| CallRoutes.Cleanup | server_side/api/call_routes.py:358-360 | the sweep runs with 24 hours unless the request names the hours |
| CallRoutes.RejectedRequestsChangeNothing | server_side/api/call_routes.py:119-254 | a request missing its call id or user changes no call |
| CallRoutes.NoSelfCall | server_side/api/call_routes.py:66-67 | calling oneself is refused before any lookup, even for a known user |
| CallRoutes.RoutesKeepOneLivePerPair | server_side/api/call_routes.py:44-254 | the invite, answer, decline, cancel and end routes keep at most one live call per pair |
| Background.Start | server_side/services/background_service.py:20-48 | a running service is left alone; otherwise the service runs with both sweeps registered (30 s and 300 s), replacing jobs with the same ids and keeping the others |
| Background.Stop | server_side/services/background_service.py:58-65 | afterwards the service is not running; a stopped service is left alone; the registered jobs are kept |
| Background.GetStatus | server_side/services/background_service.py:129-142 | reports whether the service runs, and its jobs only while it runs |
| Background.CleanupInactiveUsers | server_side/services/background_service.py:73-90 | exactly the online rows older than one minute become offline, stamped with the sweep time; every other row is unchanged; the count is the number of such rows |
| Background.CleanupOldCallsHourly | server_side/services/background_service.py:102-120 | removes exactly the finished calls created more than an hour ago, never a live one, and keeps the rest unchanged |
| Background.StartIdempotent | server_side/services/background_service.py:22-24 | starting twice equals starting once |
| Background.StopIdempotent | server_side/services/background_service.py:58-65 | stopping twice equals stopping once, and a stopped service reports no jobs |
| Background.StartStopStart | server_side/services/background_service.py:20-65 | start, stop, start lists exactly the two sweeps |
| Background.CleanupInactiveUsersIdempotent | server_side/services/background_service.py:83-90 | a second presence sweep at the same time changes nothing and counts zero |
| Background.CleanupInactiveUsersOnlyDemotes | server_side/services/background_service.py:86-88 | the sweep never makes a row online and never touches a row that is not online |
| UserService.RegisterOrUpdate | server_side/services/user_service.py:15-54 | the username ends up registered and no other user changes; an existing user keeps its userid, device type and metadata, gets the new last-seen time and takes a supplied non-empty display name; a new user gets the supplied userid and device type, the display name or else the username, and the metadata or else an empty map; is_new_user holds exactly for a new username |
| UserService.SessionToken | server_side/services/user_service.py:168 | the token is the username, an underscore, then the decimal digits of the timestamp, which parse back to it |
| UserService.DeactivateSessions | server_side/services/user_service.py:171-176 | exactly the active sessions of the userid are ended with the end time; every other session is unchanged |
| UserService.CreateSession | server_side/services/user_service.py:144-186 | an unknown username is first registered with a 17-character generated userid and its username as display name; exactly the user's earlier active sessions are ended and stamped with the time, the user's already-ended sessions and other users' sessions are unchanged, one active session with the returned token is appended |
| UserService.SendFriendRequest | server_side/services/user_service.py:285-326 | succeeds exactly for two known, distinct users with no sender-to-receiver friendship row of any status and no accepted receiver-to-sender row; it then upserts a pending request with the message and time, leaving everything else unchanged |
| UserService.AcceptFriendRequest | server_side/services/user_service.py:332-357 | succeeds exactly for two known users; a pending request becomes accepted with the response time, and both friendship rows become accepted whether or not a request existed; other rows are unchanged |
| UserService.DeclineFriendRequest | server_side/services/user_service.py:366-387 | succeeds exactly when a pending request from sender to receiver exists; it becomes declined with the response time; nothing else changes |
| UserService.DeletePair | server_side/services/user_service.py:403-407 | removes exactly the friendship rows between the two userids in both directions |
| UserService.RemoveFriend | server_side/services/user_service.py:393-411 | for two known users, no friendship row remains between them in either direction (blocks included) and nothing else changes |
| UserService.BlockUser | server_side/services/user_service.py:417-440 | for two known users, the rows between them are replaced by a single user-to-blocked blocking row; nothing else changes |
| UserService.UnblockUser | server_side/services/user_service.py:446-466 | succeeds exactly when the user-to-blocked row is a block, and then deletes only that row |
| UserService.FriendOpsKeepSymmetry | server_side/services/user_service.py:285-466 | every friendship operation keeps accepted rows in symmetric pairs |
| UserService.ReRegisterKeepsUserid | server_side/services/user_service.py:22-36 | re-registering an existing username reports its stored userid whatever userid is supplied |
| UserService.CreateSessionKeepsOneActive | server_side/services/user_service.py:171-183 | creating a session keeps at most one active session per userid |
| UserService.BlockerCannotRequest | server_side/services/user_service.py:300-311 | a user with any row towards the receiver (such as a block) cannot send them a request, and nothing changes |
| UserService.BlockedCanRequest | server_side/services/user_service.py:300-311 | a user blocked by the receiver can still send a request, because the reverse row counts only when accepted |
| UserService.AcceptOverridesBlock | server_side/services/user_service.py:350-357 | after an accept both directions are accepted friendships, even over an existing block |
| UserService.BlockThenUnblock | server_side/services/user_service.py:417-466 | block then unblock succeeds and leaves no friendship row between the two users |
| UserService.ResendResetsRequest | server_side/services/user_service.py:314-320 | re-sending a declined request resets it to pending with the new message and time and no response time |
| UserRoutes.CheckRegistration | server_side/api/user_routes.py:36-52 | the request is valid exactly when a userid of at least five characters and a username of exactly five ASCII letters or digits are present; a missing userid is reported first, then a missing username |
| UserRoutes.Register | server_side/api/user_routes.py:33-65 | an invalid request is refused with no change; a valid one registers or updates the user with device type defaulting to 'smarttv' and metadata to an empty map, and the stored username satisfies the username rule |
| UserRoutes.StartSession | server_side/api/user_routes.py:169-181 | a missing username is refused with no change; otherwise the returned token is the session token and one active session with the given type, or 'video_call', is appended |
| UserRoutes.SendFriendRequestRoute | server_side/api/user_routes.py:336-346 | missing names or a request to oneself are refused with no change; otherwise the service decides |
| UserRoutes.BlockRoute | server_side/api/user_routes.py:503-513 | missing names or blocking oneself are refused with no change; otherwise the service blocks |
| UserRoutes.SearchQuery | server_side/api/user_routes.py:648-659 | the service sees the stripped query exactly when it has at least two characters |
| UserRoutes.SearchSkipsBlank | server_side/api/user_routes.py:648-653 | a query that Python's `strip()` empties, separators U+001C to U+001F included, never reaches the service, and one that does has no such whitespace at either end |
| UserRoutes.SeparatorsAreStripped | server_side/api/user_routes.py:648-653 | a query of separators U+001C to U+001F alone is dropped, and separators around a two-letter query are stripped before it reaches the service |
| UserRoutes.SelfRequestsRejected | server_side/api/user_routes.py:343-344 | a friend request to oneself and blocking oneself are refused with no change |
| UserRoutes.RegisterKeepsValidUsernames | server_side/api/user_routes.py:49-52 | if every stored username satisfies the rule, so does every username after a registration |
| UserRoutes.RegistrationExamples | server_side/api/user_routes.py:43-52 | a four-character userid, a six-character username and a username with a hyphen are refused; "AB12C" with a five-character userid is accepted |
| Contacts.AddContact | server_side/services/contact_service.py:15-72 | an unknown owner or contact gives user-not-found, an existing pair gives already-exists, both with no change; a contact is added exactly when both users exist and the pair is new, and then only that pair is inserted, non-favourite with the current time, and the contact's display name is reported |
| Contacts.AddContactRoute | server_side/api/contact_routes.py:13-58 | a missing name or a self-add is a bad request; otherwise the owner is checked before the contact, and only when both exist does the service add run; a self-add can never succeed |
| Contacts.RemoveContact | server_side/services/contact_service.py:74-112 | success exactly when both users exist and the pair is absent afterwards; on success only that pair is gone, on failure nothing changes |
| Contacts.IsContact | server_side/services/contact_service.py:305-332 | true exactly when both users exist and the owner has the contact |
| Contacts.SetFavorite | server_side/services/contact_service.py:272-303 | succeeds exactly for an existing pair of existing users; then only that pair's favourite flag changes, otherwise nothing does |
| Contacts.StrLeTotal | server_side/services/contact_service.py:147 | the name order compares any two display names |
| Contacts.StrLeTrans | server_side/services/contact_service.py:147 | the name order is transitive |
| Contacts.LeTotal | server_side/services/contact_service.py:144-147 | the list order (online, then favourite, then name) compares any two entries |
| Contacts.LeTrans | server_side/services/contact_service.py:144-147 | the list order is transitive |
| Contacts.Insert | server_side/services/contact_service.py:144-147 | inserting into a sorted list gives a sorted list holding exactly the old entries plus the new one |
| Contacts.Sort | server_side/services/contact_service.py:144-147 | the result is sorted by the list order and is a permutation of the input |
| Contacts.PresenceStatus | server_side/services/contact_service.py:134 | a user without a presence row is 'offline'; the status is 'online' exactly when the presence store says the user is online |
| Contacts.Entries | server_side/services/contact_service.py:152-163 | one entry per returned row, in row order, each built from the contact's name, favourite flag and presence |
| Contacts.ContactList | server_side/services/contact_service.py:114-169 | empty for an unknown owner; otherwise sorted by the list order, one entry per contact, every entry belongs to one of the owner's contacts with its online flag matching presence, and every contact appears |
| Contacts.EntriesCoverContacts | server_side/services/contact_service.py:140-163 | the entries of the joined rows are exactly the entries of the owner's contacts |
| Contacts.MutualContacts | server_side/services/contact_service.py:171-215 | empty for an unknown user; otherwise exactly the existing users who have the user in their own list |
| Contacts.OwnedBy | server_side/services/contact_service.py:348-351 | exactly the contacts in the owner's rows |
| Contacts.ContactStats | server_side/services/contact_service.py:334-382 | nothing exactly for an unknown user; otherwise the total, favourite, online and reverse counts are the sizes of the matching row sets, with favourite and online no larger than the total |
| Contacts.ListLengthMatchesStats | server_side/services/contact_service.py:114-169 | when rows refer to existing users, the list has as many entries as the stats' total |
| Contacts.OnlineThenFavouritesFirst | server_side/services/contact_service.py:144-146 | in a sorted list no offline contact precedes an online one, and among equal presence no non-favourite precedes a favourite |
| Contacts.MutualIgnoresOwnList | server_side/services/contact_service.py:171-215 | adding or removing contacts in a user's own list leaves the users who list that user unchanged |
| Contacts.AddIsDirectional | server_side/services/contact_service.py:51-54 | after A adds B, B is A's contact, A is not B's, and A is among B's mutual contacts |
| Contacts.AddThenRemove | server_side/services/contact_service.py:74-112 | removing a freshly added pair restores the store and reports success; removing an absent pair reports success without change |
| Contacts.AddTwiceFails | server_side/services/contact_service.py:38-44 | a second add of the same pair fails as already-exists and changes nothing |
| Updates.RemoveUnderscores | server_side/api/update_routes.py:45 | never lengthens the text, leaves a digit string unchanged, and turns digits with underscores into digits only |
| Updates.ParseInt | server_side/api/update_routes.py:45 | a non-empty digit string parses to its decimal value; a blank string, or one holding any character other than a digit, whitespace, a sign or an underscore, fails |
| Updates.ForeignCharsSurviveTrim | server_side/api/update_routes.py:45 | stripping removes only whitespace, so every other character of the text is still there |
| Updates.ForeignCharFails | server_side/api/update_routes.py:45 | a character `int()` never accepts survives the strip and breaks the digit groups |
| Updates.LowerIsTrue | server_side/api/update_routes.py:118-119 | lower-casing gives 'true' exactly for the sixteen upper/lower-case spellings of it |
| Updates.TrimOfDigits | server_side/api/update_routes.py:45 | a digit string has no whitespace to strip |
| Updates.ParseAll | server_side/api/update_routes.py:45 | succeeds exactly when every part parses, and then yields each part's value in order |
| Updates.VersionKey | server_side/api/update_routes.py:43-47 | the key is the parsed dotted parts when every part parses, and (0, 0, 0) otherwise |
| Updates.Rendered | server_side/api/update_routes.py:45 | renders each number of a tuple as its decimal text, position by position |
| Updates.VersionKeyOfFormat | server_side/api/update_routes.py:43-47 | a tuple of naturals written with dots parses back to the same tuple |
| Updates.TupleLessIrreflexive | server_side/api/update_routes.py:53 | no key is newer than itself |
| Updates.TupleLessTrans | server_side/api/update_routes.py:53 | the tuple comparison is transitive |
| Updates.TupleLessTotal | server_side/api/update_routes.py:53 | any two distinct keys are ordered one way or the other |
| Updates.ShorterVersionIsOlder | server_side/api/update_routes.py:53 | "1.0" compares older than "1.0.0" |
| Updates.Keys | server_side/api/update_routes.py:49 | the key of every stored version, in list order |
| Updates.LatestIndex | server_side/api/update_routes.py:49 | picks a key that no other key exceeds, and it is the first such key, as Python's max does |
| Updates.NewMaximum | server_side/api/update_routes.py:49 | a key strictly above the running maximum is above every earlier key and below none |
| Updates.CheckForUpdates | server_side/api/update_routes.py:26-65 | a missing version is an error and an empty catalogue says so; otherwise an update is reported exactly when some stored version is newer than the client's, and then the answer names the first maximal version, as `max` picks it, with its download path, size, release notes, release date and both flags; with no update the answer repeats the client's version with empty details |
| Updates.NothingNewer | server_side/api/update_routes.py:49-53 | if the maximum is not newer than the client's version, no stored version is |
| Updates.ToLower | server_side/api/update_routes.py:118-119 | same length, ASCII capitals lowered, every other character kept |
| Updates.FormFlag | server_side/api/update_routes.py:118-119 | a flag is true exactly when it is present and spells 'true' in any mix of cases; an absent flag, 'false', '1' and 'yes' are false |
| Updates.FindVersion | server_side/api/update_routes.py:133-137 | nothing exactly when no entry has the version; otherwise the first entry that has it |
| Updates.UploadUpdate | server_side/api/update_routes.py:103-161 | a missing, unnamed or non-.deb file or a missing version is refused without change; otherwise the entry records the version, stored name, size, notes and release date, records both form flags as `FormFlag` reads them, and replaces the first entry of that version or is appended |
| Updates.DeleteUpdate | server_side/api/update_routes.py:163-203 | an empty or unknown version is refused without change; a failing file removal is reported exactly when the entry has a file and removing it fails, with no change; otherwise exactly the first matching entry is removed and returned |
| Updates.UploadKeepsDistinct | server_side/api/update_routes.py:132-152 | on a catalogue without repeated versions an upload keeps versions distinct and grows the list by one exactly when the version was new |
| Updates.ReplaceKeepsDistinct | server_side/api/update_routes.py:149-150 | replacing an entry with one of the same version keeps versions distinct |
| Updates.AppendKeepsDistinct | server_side/api/update_routes.py:151-152 | appending an entry whose version is absent keeps versions distinct |
| Updates.DeleteRemovesVersion | server_side/api/update_routes.py:172-197 | on distinct versions a delete shortens the list by one, the version is gone and the rest stay distinct |
| Updates.UploadThenDelete | server_side/api/update_routes.py:103-203 | uploading a new version and then deleting it restores the catalogue |
| Updates.NonNumericFallsBack | server_side/api/update_routes.py:46-47 | a version with a non-numeric part has the key (0, 0, 0) |
| SystemCommands.DelayMinutes | system_manager/local_system_server.py:61-62 | at least one minute; a delay of a minute or more gives its whole minutes (rounded down), a shorter one gives one |
| SystemCommands.WhenArg | system_manager/local_system_server.py:62 | the argument is '+' followed by the decimal digits of the minute count |
| SystemCommands.Shutdown | system_manager/local_system_server.py:36-64 | refused exactly when unconfirmed; otherwise `sudo shutdown -h` with 'now' for an absent or non-positive delay and '+minutes' for a positive one |
| SystemCommands.Reboot | system_manager/local_system_server.py:101-131 | refused exactly when unconfirmed; otherwise `sudo reboot` for an absent or non-positive delay and `sudo shutdown -r +minutes` for a positive one |
| SystemCommands.ScheduledTimeBounds | system_manager/local_system_server.py:61-62 | from one minute up the scheduled time is never later than requested; below a minute it is later |
| SystemCommands.DelayExamples | system_manager/local_system_server.py:58-64 | delays of 0 and -5 shut down now, 30 and 119 seconds give one minute and 150 gives two, and an unconfirmed reboot is refused |
| TvRemote.Resolve | Electron_App/SmartTV-UI/tv-remote.js:133-150 | a mapped key name decides the action; otherwise the key code's action; nothing exactly when neither table maps the key |
| TvRemote.SetFocus | Electron_App/SmartTV-UI/tv-remote.js:235-236 | the focus moves to an index naming an element, and any other index leaves the controller unchanged |
| TvRemote.NavigateUp | Electron_App/SmartTV-UI/tv-remote.js:285-296 | below the top row the focus moves one row up; from the top row it wraps to the bottom row, to the same column when the bottom row has it and to the last element when that row is short; from an element it never leaves the element range |
| TvRemote.NavigateDown | Electron_App/SmartTV-UI/tv-remote.js:298-307 | above the last row the focus moves one row down; otherwise it wraps to the same column of the top row, staying in range |
| TvRemote.NavigateLeft | Electron_App/SmartTV-UI/tv-remote.js:309-316 | moves one element back, and from the first element wraps to the last, staying in range |
| TvRemote.NavigateRight | Electron_App/SmartTV-UI/tv-remote.js:318-325 | moves one element on, and from the last element wraps to the first, staying in range |
| TvRemote.SelectByNumber | Electron_App/SmartTV-UI/tv-remote.js:386-393 | a number naming an element focuses element number-1 and asks for a delayed activation; any other number does nothing |
| TvRemote.HandleAction | Electron_App/SmartTV-UI/tv-remote.js:254-283 | the four arrows perform the matching navigation with no other effect; only the digits one to six select by number; menu, home and info do nothing; select activates and back goes back; the element count, columns and enabled flag never change |
| TvRemote.HandleKey | Electron_App/SmartTV-UI/tv-remote.js:127-154 | nothing happens while disabled or for a key neither table maps; otherwise the resolved action is handled |
| TvRemote.Refresh | Electron_App/SmartTV-UI/tv-remote.js:406-410 | after a rescan the first element is focused when there is one; with no elements the index is kept |
| TvRemote.KeysKeepFocusInRange | Electron_App/SmartTV-UI/tv-remote.js:127-154 | whatever key arrives, a focus inside the element list stays inside it |
| TvRemote.LeftRightInverse | Electron_App/SmartTV-UI/tv-remote.js:309-325 | Left undoes Right and Right undoes Left, across the wrap-around too |
| TvRemote.UpDownInverse | Electron_App/SmartTV-UI/tv-remote.js:285-307 | away from the edges Up undoes Down and Down undoes Up |
| TvRemote.DownKeepsColumn | Electron_App/SmartTV-UI/tv-remote.js:298-307 | Down never changes the column, even when it wraps to the top |
| TvRemote.DownUndoesUpWrap | Electron_App/SmartTV-UI/tv-remote.js:285-307 | from a top-row column that the bottom row also has, Up wraps to the bottom row and Down wraps back to the start |
| TvRemote.UpUndoesDownWrap | Electron_App/SmartTV-UI/tv-remote.js:285-307 | from the bottom row, Down wraps to the top row and Up wraps back to the start |
| TvRemote.RightTimesIndex | Electron_App/SmartTV-UI/tv-remote.js:318-325 | after k presses of Right the focus is k places on, modulo the element count |
| TvRemote.RightCycles | Electron_App/SmartTV-UI/tv-remote.js:318-325 | one Right per element returns the focus to where it started |
| TvRemote.KeyNameWins | Electron_App/SmartTV-UI/tv-remote.js:133-150 | "ArrowUp" with the Enter key code moves up; an unidentified key falls back to its code; an unmapped key and code give nothing |
| TvRemote.TablesAgree | Electron_App/SmartTV-UI/tv-remote.js:14-113 | the key-code table and the key-name table give the same action for the arrows, Enter, Escape, space, Backspace, F1 to F4 and the ten digits |
| TvRemote.HighDigitsDoNothing | Electron_App/SmartTV-UI/tv-remote.js:274-281 | the keys 7 and Numpad8 are mapped but change nothing |
| UniversalNav.SetFocus | Electron_App/SmartTV-UI/universal-navigation.js:217-218 | the focus moves only to an index naming an element; any other index changes nothing |
| UniversalNav.UpdateElements | Electron_App/SmartTV-UI/universal-navigation.js:98-101 | an index still in range is kept; one past the end is pulled back to the last element, or 0 when there is none |
| UniversalNav.NextIndex | Electron_App/SmartTV-UI/universal-navigation.js:172 | stepping forward modulo the count moves one on, and from the last element to 0 |
| UniversalNav.PreviousIndex | Electron_App/SmartTV-UI/universal-navigation.js:179 | stepping back modulo the count moves one back, and from 0 to the last element |
| UniversalNav.NavigateNext | Electron_App/SmartTV-UI/universal-navigation.js:169-174 | nothing without elements; otherwise one element on, wrapping from the last to the first, always in range |
| UniversalNav.NavigatePrevious | Electron_App/SmartTV-UI/universal-navigation.js:176-181 | nothing without elements; otherwise one element back, wrapping from the first to the last, always in range |
| UniversalNav.NavigateDown | Electron_App/SmartTV-UI/universal-navigation.js:183-198 | jumps three on when that element exists, and otherwise behaves as Next |
| UniversalNav.NavigateUp | Electron_App/SmartTV-UI/universal-navigation.js:200-215 | jumps three back when that is not below 0, and otherwise behaves as Previous; an index in range stays in range |
| UniversalNav.HandleKey | Electron_App/SmartTV-UI/universal-navigation.js:106-152 | passive mode and typing targets leave everything unchanged; otherwise ArrowRight, ArrowLeft, ArrowDown and ArrowUp perform Next, Previous, Down and Up, Enter and space activate, and Escape escapes; any other key changes nothing; the element count never changes |
| UniversalNav.Refresh | Electron_App/SmartTV-UI/universal-navigation.js:296-301 | the same clamped index as an element update, which names an element when there is one |
| UniversalNav.NextPreviousInverse | Electron_App/SmartTV-UI/universal-navigation.js:169-181 | Previous undoes Next and Next undoes Previous |
| UniversalNav.DownUpInverse | Electron_App/SmartTV-UI/universal-navigation.js:183-215 | away from the ends Up undoes Down and Down undoes Up |
| UniversalNav.KeysKeepFocusInRange | Electron_App/SmartTV-UI/universal-navigation.js:106-152 | every key keeps an index that names an element naming one |
| UniversalNav.UpdateRestoresRange | Electron_App/SmartTV-UI/universal-navigation.js:98-101 | after any change of the element list, the next key leaves the index naming an element |
| Keyboard.EffectiveStart | Electron_App/SmartTV-UI/onscreen-keyboard.js:361 | a non-zero selection start is used as it is, and a start of 0 reads as the end of the text |
| Keyboard.EffectiveEnd | Electron_App/SmartTV-UI/onscreen-keyboard.js:362 | a non-zero selection end is used as it is, and an end of 0 reads as the end of the text |
| Keyboard.InsertText | Electron_App/SmartTV-UI/onscreen-keyboard.js:357-376 | the text before the effective start is kept, the inserted text follows, then the text from the effective end; the caret sits just after the insertion and the selection stays valid |
| Keyboard.Backspace | Electron_App/SmartTV-UI/onscreen-keyboard.js:378-401 | a non-empty effective selection is deleted with the caret at its start; otherwise the character before a caret after the start is deleted; a caret at 0 of an empty field changes nothing |
| Keyboard.SwitchLayout | Electron_App/SmartTV-UI/onscreen-keyboard.js:342-355 | the requested layout is shown; the letter layouts set shift to match and symbols keeps it, so shift and layout always agree afterwards |
| Keyboard.ToggleShift | Electron_App/SmartTV-UI/onscreen-keyboard.js:330-340 | shift flips; among the letter layouts the case swaps, on symbols only shift changes; agreement of shift and layout is kept |
| Keyboard.HandleKeyPress | Electron_App/SmartTV-UI/onscreen-keyboard.js:286-328 | without a target nothing changes; 'shift' toggles shift, 'backspace' and 'space' edit the target by a backspace and by inserting one space, 'letters' shows the case shift calls for and 'symbols' keeps shift, both keeping the target and visibility, 'done' hides and detaches keeping layout and shift, and any other key types its label into the target; the target stays valid and shift/layout agreement is kept |
| Keyboard.Show | Electron_App/SmartTV-UI/onscreen-keyboard.js:419-441 | the keyboard becomes visible on the field in lowercase with shift off |
| Keyboard.Hide | Electron_App/SmartTV-UI/onscreen-keyboard.js:443-457 | the keyboard is hidden with no target, keeping layout and shift |
| Keyboard.Press | Electron_App/SmartTV-UI/onscreen-keyboard.js:286-328 | any sequence of key presses keeps the target's selection valid |
| Keyboard.TypingReleasesShift | Electron_App/SmartTV-UI/onscreen-keyboard.js:313-319 | a typed key is inserted as it is; in uppercase the keyboard then drops back to lowercase with shift off, while on symbols shift survives |
| Keyboard.InsertThenBackspace | Electron_App/SmartTV-UI/onscreen-keyboard.js:357-401 | typing one character at a caret after the start and then pressing backspace restores the field |
| Keyboard.CaretAtStartActsAtEnd | Electron_App/SmartTV-UI/onscreen-keyboard.js:361-383 | with the caret at position 0, typing appends at the end and backspace deletes the last character |
| Keyboard.SelectionFromStartDuplicates | Electron_App/SmartTV-UI/onscreen-keyboard.js:361-390 | selecting "ab" in "abc" and typing X gives "abcXc", and backspace gives "abcc" |
| Keyboard.ShiftInvariantHolds | Electron_App/SmartTV-UI/onscreen-keyboard.js:286-441 | after show and any key sequence, the uppercase layout is shown exactly while shift is on among the letter layouts |
| Keyboard.PressKeepsInvariant | Electron_App/SmartTV-UI/onscreen-keyboard.js:286-355 | key presses keep shift and layout in agreement |
| Trivia.PlayersFrom | Electron_App/SmartTV-UI/trivia-game.js:194-197 | the map holds exactly the ids of the received list, each player under its own id, and the last entry of the list wins its id |
| Trivia.SetAnswered | Electron_App/SmartTV-UI/trivia-game.js:207-212 | only a known player's answer flag changes; an unknown id changes nothing |
| Trivia.ApplyResult | Electron_App/SmartTV-UI/trivia-game.js:215-221 | one result changes at most the player it names, and never the set of players |
| Trivia.ApplyResults | Electron_App/SmartTV-UI/trivia-game.js:214-223 | applying the results never adds or removes a player |
| Trivia.LastResultFor | Electron_App/SmartTV-UI/trivia-game.js:215-221 | the result found names the player and is one of the results; none is found exactly when no result names the player |
| Trivia.QuestionTime | Electron_App/SmartTV-UI/trivia-game.js:108 | a missing or zero time limit gives thirty seconds, any other limit is used as it is |
| Trivia.Handle | Electron_App/SmartTV-UI/trivia-game.js:70-138 | field by field: the player id comes only from `player_id`; the room from creation or a join, creation making the client host and a join taking the host flag; the game state from start and end; the player map from a join (the received list), joins and leaves (one player), `player_answered` (one flag) and results (scores); the question and its time from `question`, which starts the timer, while results and the end stop it; every other message leaves each field as it was, and errors and unknown messages change nothing |
| Trivia.Tick | Electron_App/SmartTV-UI/trivia-game.js:226-241 | a stopped timer changes nothing; a running one counts down one second and keeps running exactly while time remains |
| Trivia.SendMessage | Electron_App/SmartTV-UI/trivia-game.js:141-147 | a message is sent, unchanged, exactly when the socket is open |
| Trivia.StartGame | Electron_App/SmartTV-UI/trivia-game.js:166-170 | the start request is sent exactly when the client is host and the socket is open |
| Trivia.Disconnect | Electron_App/SmartTV-UI/trivia-game.js:244-252 | the socket is closed, the timer stopped, the players forgotten and the game back to waiting, while the room, host flag and player id are kept |
| Trivia.HandleKeepsKeysMatchIds | Electron_App/SmartTV-UI/trivia-game.js:70-138 | every message keeps each player stored under its own id |
| Trivia.ApplyResultsKeepsIds | Electron_App/SmartTV-UI/trivia-game.js:214-223 | applying results keeps each player stored under its own id |
| Trivia.ResultsRecorded | Electron_App/SmartTV-UI/trivia-game.js:214-223 | each known player ends with the score and correctness of the last result naming it and its answer flag reset; a player no result names is untouched |
| Trivia.LastResultSplit | Electron_App/SmartTV-UI/trivia-game.js:215 | the last result naming a player is in the tail unless only the head names it |
| Trivia.ResultsReopenAnswers | Electron_App/SmartTV-UI/trivia-game.js:214-223 | once results arrive for another player, not everyone has answered the next question |
| Trivia.AnswersCompleteRound | Electron_App/SmartTV-UI/trivia-game.js:265-269 | answers from every other player complete the round |
| Trivia.AnswerAll | Electron_App/SmartTV-UI/trivia-game.js:113-116 | a run of answer messages never changes the set of players or the client's own id |
| Trivia.AnswerAllMarks | Electron_App/SmartTV-UI/trivia-game.js:207-212 | after the answer messages, a player has answered exactly when it was named or had already answered |
| Trivia.TimerRunsOut | Electron_App/SmartTV-UI/trivia-game.js:226-234 | a timer started with k seconds runs through k-1 ticks and stops at zero on the k-th |
| Trivia.TicksCount | Electron_App/SmartTV-UI/trivia-game.js:228-233 | after k ticks within the time limit, k seconds are gone and the timer runs exactly while time remains |
| Trivia.DisconnectSilences | Electron_App/SmartTV-UI/trivia-game.js:244-269 | after a disconnect nothing is sent, not even a start request, and the empty player list counts as everyone having answered |
| DeviceIds.GenerateUserId | Electron_App/SmartTV-UI/device-id-manager.js:26-33 | five characters, each the alphabet character of its draw |
| DeviceIds.ReadId | Electron_App/SmartTV-UI/device-id-manager.js:159-192 | nothing exactly when the file is missing; otherwise its contents without surrounding whitespace |
| DeviceIds.CreateIds | Electron_App/SmartTV-UI/device-id-manager.js:101-154 | a failing directory creation fails with no file written; otherwise the given UUID and a generated user id are returned and written to both id files and the info file |
| DeviceIds.EnsureIds | Electron_App/SmartTV-UI/device-id-manager.js:197-207 | when both files read back non-empty their ids are returned and nothing is written; otherwise both ids are created afresh |
| DeviceIds.GetDeviceInfo | Electron_App/SmartTV-UI/device-id-manager.js:212-230 | a parsable info file is returned as it is and a corrupt one gives nothing; without it, the two read-back ids are returned exactly when at least one is non-empty |
| DeviceIds.GeneratedUserIdValid | Electron_App/SmartTV-UI/device-id-manager.js:26-33 | every generated user id passes the user-id validator and contains neither the letter O nor the digit 0 |
| DeviceIds.AlphabetChar | Electron_App/SmartTV-UI/device-id-manager.js:27 | every alphabet character is a capital or a digit, and none is O or 0 |
| DeviceIds.GenerateUserIdInjective | Electron_App/SmartTV-UI/device-id-manager.js:26-33 | distinct draws give distinct user ids |
| DeviceIds.AlphabetCodes | Electron_App/SmartTV-UI/device-id-manager.js:27 | the alphabet is A to N, P to Z, then 1 to 9, position by position |
| DeviceIds.AlphabetDistinct | Electron_App/SmartTV-UI/device-id-manager.js:27 | no character appears twice in the alphabet |
| DeviceIds.GroupsFormDeviceId | Electron_App/SmartTV-UI/device-id-manager.js:235-237 | five hexadecimal groups of 8, 4, 4, 4 and 12 digits joined by hyphens pass the device-id validator |
| DeviceIds.DeviceIdSplitsIntoGroups | Electron_App/SmartTV-UI/device-id-manager.js:235-237 | every valid device id is such a join of five hexadecimal groups |
| DeviceIds.EnsureIsStable | Electron_App/SmartTV-UI/device-id-manager.js:197-207 | once ids are ensured, ensuring again returns the same pair and writes nothing, whatever the new draws |
| DeviceIds.StoredIdsKept | Electron_App/SmartTV-UI/device-id-manager.js:197-202 | a valid stored device id and user id are returned as they are |
| DeviceIds.ReadBackUnchanged | Electron_App/SmartTV-UI/device-id-manager.js:162 | a valid id reads back exactly as written, and is non-empty |
| DeviceIds.NothingStoredNoInfo | Electron_App/SmartTV-UI/device-id-manager.js:218-224 | with no info file and no id file, or only a blank one, there is no device information |
| UserUtils.GenerateUsername | Electron_App/SmartTV-UI/user-utils.js:55-62 | five characters, each the alphabet character of its draw |
| UserUtils.GetOrCreate | Electron_App/SmartTV-UI/user-utils.js:65-86 | a non-empty stored name is returned with nothing changed; otherwise a generated name is returned and stored; without storage the session name is used, generated once |
| UserUtils.Create | Electron_App/SmartTV-UI/user-utils.js:7-9 | the username is the one the get-or-create step yields on the given storage |
| UserUtils.Reset | Electron_App/SmartTV-UI/user-utils.js:94-103 | without storage the current name is returned unchanged; otherwise a freshly generated name becomes the stored and current name |
| UserUtils.RemoveThenSet | Electron_App/SmartTV-UI/user-utils.js:96-97 | removing a key and then setting it is the same as setting it |
| UserUtils.GeneratedNamePassesServerCheck | server_side/api/user_routes.py:49-52 | every generated name passes the server's username rule at registration |
| UserUtils.AlphabetAlnum | Electron_App/SmartTV-UI/user-utils.js:56 | every alphabet character is a capital or a digit |
| UserUtils.GetOrCreateIsStable | Electron_App/SmartTV-UI/user-utils.js:65-86 | a second call returns the name of the first and changes nothing, whatever its draws |
| UserUtils.ResetIsFreshStart | Electron_App/SmartTV-UI/user-utils.js:94-97 | a reset yields the name a first call would yield on storage without the key, a freshly generated one |
| SmartTvService.Pow2 | mobile_remote_app/src/services/SmartTVService.js:356 | every power of two is at least 1 |
| SmartTvService.ReconnectDelay | mobile_remote_app/src/services/SmartTVService.js:356 | the delay is positive, at most thirty seconds, and either the cap or one second doubled once per attempt so far |
| SmartTvService.ReadyStateText | mobile_remote_app/src/services/SmartTVService.js:140-148 | the four socket states 0 to 3 read CONNECTING, OPEN, CLOSING and CLOSED, and any other value UNKNOWN |
| SmartTvService.ScheduleReconnect | mobile_remote_app/src/services/SmartTVService.js:352-363 | nothing happens while a reconnect is under way or reconnecting is off; otherwise one timer is armed with the backoff delay for the attempts so far |
| SmartTvService.AttemptReconnect | mobile_remote_app/src/services/SmartTVService.js:366-395 | with reconnecting off only the reconnecting flag clears; an attempt past the tenth gives up; a success resets the count and can only happen within the cap and when the socket opens; a failure counts one more attempt, and within the cap re-arms one timer with the backoff delay for the new count, marking a reconnect under way; at most one more timer is armed |
| SmartTvService.OnClose | mobile_remote_app/src/services/SmartTVService.js:88-102 | the service is disconnected; a reconnect is scheduled exactly when reconnecting is on and none is under way, with the backoff delay |
| SmartTvService.Step | mobile_remote_app/src/services/SmartTVService.js:20-186 | a connect records the TV, turns reconnecting on, resets the count, is connected exactly when the socket opens and reports which; a disconnect turns reconnecting off, disconnects, resets the count and forgets the TV (an armed timer is only disarmed when a reconnect was under way); a close is the `onclose` handler; an expiry with no timer armed changes nothing and otherwise disarms one timer and attempts a reconnect; a forced retry closes an open connection and otherwise attempts a reconnect |
| SmartTvService.SocketTracksConnected | mobile_remote_app/src/services/SmartTVService.js:20-186 | every step keeps the socket open exactly while the service is connected |
| SmartTvService.SendCommand | mobile_remote_app/src/services/SmartTVService.js:189-193 | a command is sent exactly when connected over an open socket |
| SmartTvService.DelayMonotone | mobile_remote_app/src/services/SmartTVService.js:356 | the backoff never shrinks as attempts grow and never passes thirty seconds |
| SmartTvService.DelayValues | mobile_remote_app/src/services/SmartTVService.js:356 | the delays start at 1, 2 and, at the fifth attempt, 16 seconds, and from the sixth attempt on are thirty seconds |
| SmartTvService.Pow2AtLeast | mobile_remote_app/src/services/SmartTVService.js:356 | from the fifth power on, powers of two are at least 32 |
| SmartTvService.DisconnectIsFinal | mobile_remote_app/src/services/SmartTVService.js:171-186 | after a disconnect no sequence of events other than a new connect reconnects, schedules a reconnect or arms a new timer |
| SmartTvService.AttemptsAreCapped | mobile_remote_app/src/services/SmartTVService.js:366-395 | from a freshly scheduled reconnect each failed expiry counts one attempt and re-arms one timer, until the eleventh gives up with no timer armed |
| SmartTvService.FailedTimer | mobile_remote_app/src/services/SmartTVService.js:372-393 | one failed expiry of the only armed timer counts one more attempt, and re-arms unless over the cap |
| SmartTvService.SuccessResets | mobile_remote_app/src/services/SmartTVService.js:383-389 | a successful reconnect within the cap reconnects and resets the count |
| SmartTvService.GivingUpIsSticky | mobile_remote_app/src/services/SmartTVService.js:428-434 | past the cap a manual retry gives up at once |
| SmartTvService.NoCommandsWhenClosed | mobile_remote_app/src/services/SmartTVService.js:171-193 | no command is sent after a disconnect or a socket close |
| RemoteControl.Disconnect | mobile_app/SmartTVRemote/src/services/RemoteControlService.js:78-86 | the socket, device and attempt count are dropped; the mirrored app state is kept |
| RemoteControl.Connect | mobile_app/SmartTVRemote/src/services/RemoteControlService.js:18-28 | a socket to the device is opened; a live connection is disconnected first, resetting the count, and otherwise the count and connection flag are kept |
| RemoteControl.Opened | mobile_app/SmartTVRemote/src/services/RemoteControlService.js:30-34 | the service is connected and the attempt count resets, everything else kept |
| RemoteControl.Closed | mobile_app/SmartTVRemote/src/services/RemoteControlService.js:47-59 | the service is disconnected; under five attempts the count grows by one and a retry to the same device is scheduled two seconds per attempt later; at five it only reports the disconnect |
| RemoteControl.SendCommand | mobile_app/SmartTVRemote/src/services/RemoteControlService.js:89-93 | a command is sent exactly when connected with a socket |
| RemoteControl.HandleMessage | mobile_app/SmartTVRemote/src/services/RemoteControlService.js:182-227 | a connected message takes the carried app state if any; an app change sets the app and call state keeping the call data; a call update sets the call state and data keeping the app; other messages leave the state alone; app changes, call updates, text-input requests, `app_state` and `page_changed` each raise their own notification, the connected message and unknown ones raise nothing |
| RemoteControl.RetriesStopAtFive | mobile_app/SmartTVRemote/src/services/RemoteControlService.js:47-59 | from a fresh count the k-th close schedules a retry 2k seconds later for k up to five, and after that the count stays at five and closes only report |
| RemoteControl.DisconnectStillRetries | mobile_app/SmartTVRemote/src/services/RemoteControlService.js:78-86 | the close of the socket an explicit disconnect shuts still schedules a two-second retry to the device |
| RemoteControl.OpenRestoresRetries | mobile_app/SmartTVRemote/src/services/RemoteControlService.js:30-34 | an open restores the full allowance of retries, and commands can be sent whenever a socket exists |
| RemoteControl.NoCommandsAfterClose | mobile_app/SmartTVRemote/src/services/RemoteControlService.js:47-93 | no command is sent after a close or a disconnect |
| RemoteControl.HandleIdempotent | mobile_app/SmartTVRemote/src/services/RemoteControlService.js:182-227 | every message applied twice leaves the app state as applying it once |
| RemoteControl.ChangeAndUpdateCompose | mobile_app/SmartTVRemote/src/services/RemoteControlService.js:189-206 | after an app change and a call update in either order the app comes from the change, the call data from the update, and the call state from whichever came last |
| WifiQr.Generate | mobile_remote_app/src/screens/WifiQRScreen.js:45-61 | no network is reported exactly when both network names are empty; a missing password exactly when a name is present and the password is blank; otherwise the payload carries the security type, the selected name in preference to the typed one, and the password as typed, and the code is shown |
| WifiQr.ResetForm | mobile_remote_app/src/screens/WifiQRScreen.js:63-70 | every typed or chosen field is cleared and the code hidden, the security type kept, so generating next reports no network |
| WifiQr.Decode | mobile_remote_app/src/screens/WifiQRScreen.js:57 | a payload that reads back gives the three fields from which that same payload is built |
| WifiQr.PayloadIsJoin | mobile_remote_app/src/screens/WifiQRScreen.js:57 | the payload is its six fields joined by semicolons |
| WifiQr.DecodePayload | mobile_remote_app/src/screens/WifiQRScreen.js:57 | fields without a semicolon survive the round trip through the payload |
| WifiQr.SemicolonBreaksPayload | mobile_remote_app/src/screens/WifiQRScreen.js:57 | a network named "a;b" yields a payload that does not read back |
| WifiQr.BlankPasswordRefusedForOpenNetwork | mobile_remote_app/src/screens/WifiQRScreen.js:51-54 | a blank password is refused even for an open network |

## Left out

- HTTP and JSON: status codes, response bodies and Flask routing are reduced to outcome datatypes; only the guards are kept.
- SQL mechanics: each table is a finite map keyed by its natural key, and database exceptions are not modelled: most services log them and return `False`, `None`, `[]` or `{}`, while `register_or_update_user` re-raises them.
- The boolean and count results that the services take from `cursor.lastrowid` (decline, cancel, end, cleanup, set favourite, decline friend request, unblock): each query runs on a fresh connection, so after an UPDATE or DELETE `lastrowid` is always 0. The Python methods therefore always report failure (or a count of 0), and the routes built on them report failure, even when the rows did change. The model returns the intended result instead: whether the guard held, or the exact number of rows removed.
- Time: the clock is an abstract integer in seconds. The source compares local `isoformat()` strings with SQLite UTC timestamps, so `CallService.EndDurationNonNegative` holds in the model only; a real duration can be negative.
- Single-row lookups (`fetch='one'`) whose row the database chooses arrive as the `existing` parameter, constrained to be a row the query could return.
- CallService.InitiateCall: requires the fresh call id to be unused; the source draws it with `uuid4` and does not check for a collision.
- `get_online_users`, `get_call_status` formatting, the search SQL (`search_users`), the friends/requests/blocked listings, `get_user_stats`, `save_game_score`, `end_session`, `update_user_info` and the in-memory online-user set of `user_service.py`: query assembly or reporting with no state transition worth stating.
- The `update_last_seen` calls made by the routes before delegating: a timestamp side effect the model does not track.
- Provider-side room reconciliation: the code shown has no such job.
- Character classes: Python's `str.isalnum`, `int()` and `strip()` and JavaScript's `trim()` are restricted to ASCII characters (for `strip()`, ASCII whitespace plus the separators U+001C to U+001F); the Unicode spaces they also accept, such as U+00A0 and U+2028, are not modelled.
- Contacts.MutualContacts: returns a set, so the `ORDER BY` of the mutual-contacts query is not modelled.
- The contact-list join is taken as the `rows` enumeration; the SQL's tie order among entries equal under the list order is not modelled.
- Update files: `secure_filename`, saving, sizing and removing files are parameters (`storedName`, `size`, `removalFails`); the download route and `upload_update.py` are not part of this model.
- Shutdown and reboot: the command is built but not run; `sudo`, `subprocess` and the background thread are left out, and a non-integer (float) delay is not modelled.
- DOM work: element scanning, CSS classes, scrolling and activation are reduced to an element count and an effect value.
- TvRemote.NavigateUp: requires at least one grid column; with `setGridColumns(0)` the source takes remainders by zero and gets NaN, which the model does not follow.
- TvRemote.NavigateDown: requires at least one grid column, for the same reason.
- TvRemote.HandleAction: requires at least one grid column, for the same reason.
- TvRemote.HandleKey: requires at least one grid column, for the same reason.
- TvRemote.Rescan: the column count read from the page's CSS grid is not re-detected.
- Keyboard.InsertText: requires an ordered selection inside the value, as the browser keeps it.
- Keyboard.Backspace: requires an ordered selection inside the value, as the browser keeps it.
- Keyboard.HandleKeyPress: requires the target's selection to be valid, as the browser keeps it.
- Keyboard.EffectiveStart, Keyboard.EffectiveEnd, Keyboard.InsertText, Keyboard.Backspace: positions and lengths count Unicode characters, whereas the browser's `selectionStart`, `selectionEnd` and `value.length` count UTF-16 code units; on text holding a character outside the Basic Multilingual Plane (an emoji), the browser's backspace removes one surrogate half where the model removes the whole character.
- The keyboard's preview text and the navigation refresh it schedules.
- Trivia: the WebSocket, the callbacks and the question contents; a question's timer is modelled as explicit ticks.
- Device ids: `sudo mkdir`, `mv` and `chmod`, system information, and partial failures after the directory exists (the model has only the directory failure). `system_manager/device_id.py` is not part of this model.
- UserUtils: server registration, presence calls and DOM display. The registration payload sent by the TV omits `userid`, which the server's registration route requires.
- SmartTvService: the heartbeat, ping/pong timeout, message handling and listeners. A socket's open or failure is an event parameter (`opens`). A connect that fails and then fires `onclose` is two separate events.
- SmartTvService.Step: a stale timer left by a forced retry is tracked only by the `armedTimers` count, not by identity.
- RemoteControl.Opened, RemoteControl.Disconnect: the 'connected' and 'disconnected' notifications that `onopen` and `disconnect` pass to the state-change callback are not returned; only the notifications of a close and of server messages are modelled.
- RemoteControl: the 10-second connect timeout is modelled as a close event. The payloads of `showTextInput`, `app_state` and `page_changed` are not kept, because they change no state.
- The remotes send commands that the TV's dispatcher reads from a different field; the protocol between the two is not modelled.
- WifiQr: loading the network list (`expo-network`) and the screen's UI.

=== FILE: background.dfy ===
/** The background maintenance service: a scheduler that is started and stopped
    idempotently, and the two sweeps it runs (stale presence to offline, deletion
    of old finished calls). Each sweep is one explicit step at clock `now`. */
module Background {
  import opened Common
  import opened CallService

  datatype Job = Job(name: string, intervalSeconds: nat)

  datatype Service = Service(isRunning: bool, jobs: map<string, Job>)

  /** What the status endpoint reports. */
  datatype StatusReport = StatusReport(running: bool, jobs: map<string, Job>)

  const PresenceSweepId := "cleanup_inactive_users"
  const CallSweepId := "cleanup_old_calls"
  const PresenceSweepSeconds: nat := 30
  const CallSweepSeconds: nat := 5 * 60
  /** A presence row is stale once it is older than this. */
  const PresenceStaleSeconds := 60
  /** The background call sweep removes finished calls older than this many hours. */
  const CallRetentionHours := 1

  const Initial := Service(false, map[])

  /** Register both sweeps (replacing same-id jobs) and mark the service running;
      a running service is left alone. */
  function Start(s: Service): (r: Service)
    ensures s.isRunning ==> r == s
    ensures r.isRunning
    ensures !s.isRunning ==>
      && r.jobs.Keys == s.jobs.Keys + {PresenceSweepId, CallSweepId}
      && r.jobs[PresenceSweepId].intervalSeconds == 30
      && r.jobs[CallSweepId].intervalSeconds == 300
      && forall id :: id in s.jobs && id != PresenceSweepId && id != CallSweepId ==> r.jobs[id] == s.jobs[id]
  {
    if s.isRunning then s
    else
      Service(true, s.jobs[PresenceSweepId := Job("Cleanup Inactive Users", PresenceSweepSeconds)]
                          [CallSweepId := Job("Cleanup Old Calls", CallSweepSeconds)])
  }

  /** Shut the scheduler down; a stopped service is left alone. */
  function Stop(s: Service): (r: Service)
    ensures !r.isRunning
    ensures !s.isRunning ==> r == s
    ensures r.jobs == s.jobs
  {
    if !s.isRunning then s else s.(isRunning := false)
  }

  /** The status report lists jobs only while running. */
  function GetStatus(s: Service): (r: StatusReport)
    ensures r.running == s.isRunning
    ensures !s.isRunning ==> r.jobs == map[]
    ensures s.isRunning ==> r.jobs == s.jobs
  {
    StatusReport(s.isRunning, if s.isRunning then s.jobs else map[])
  }

  /** A presence row the sweep turns offline. */
  predicate Stale(p: Presence, now: int) {
    p.status == "online" && p.updatedAt < now - PresenceStaleSeconds
  }

  /** Mark every stale online row offline, stamping the sweep time; report how many changed. */
  function CleanupInactiveUsers(presence: PresenceStore, now: int): (r: (PresenceStore, nat))
    ensures r.0.Keys == presence.Keys
    ensures forall u :: u in presence && Stale(presence[u], now) ==>
      r.0[u] == presence[u].(status := "offline", updatedAt := now)
    ensures forall u :: u in presence && !Stale(presence[u], now) ==> r.0[u] == presence[u]
    ensures r.1 == |set u | u in presence && Stale(presence[u], now)|
  {
    var changed := map u | u in presence ::
      if Stale(presence[u], now) then presence[u].(status := "offline", updatedAt := now) else presence[u];
    (changed, |set u | u in presence && Stale(presence[u], now)|)
  }

  /** The background call sweep: finished calls created more than an hour ago. */
  function CleanupOldCallsHourly(store: CallStore, now: int): (r: (CallStore, nat))
    ensures forall id :: id in r.0 ==> id in store && r.0[id] == store[id]
    ensures forall id :: id in store && IsLive(store[id].status) ==> id in r.0
    ensures forall id :: id in store && id !in r.0 <==>
      id in store && IsTerminal(store[id].status) && store[id].createdAt < now - 3600
  {
    CleanupOldCalls(store, now, CallRetentionHours)
  }

  // ---------------------------------------------------------------------------
  // Properties
  // ---------------------------------------------------------------------------

  /** Starting twice is the same as starting once. */
  lemma StartIdempotent(s: Service)
    ensures Start(Start(s)) == Start(s)
  {
  }

  /** Stopping twice is the same as stopping once, and a stopped service reports no jobs. */
  lemma StopIdempotent(s: Service)
    ensures Stop(Stop(s)) == Stop(s)
    ensures GetStatus(Stop(s)).jobs == map[]
  {
  }

  /** A fresh service started then stopped can be started again and then lists exactly the two sweeps. */
  lemma StartStopStart()
    ensures GetStatus(Start(Stop(Start(Initial)))).jobs.Keys == {PresenceSweepId, CallSweepId}
  {
  }

  /** No row is stale after a sweep at the same clock, so a second sweep changes nothing. */
  lemma CleanupInactiveUsersIdempotent(presence: PresenceStore, now: int)
    ensures
      var p1 := CleanupInactiveUsers(presence, now).0;
      CleanupInactiveUsers(p1, now) == (p1, 0)
  {
    var p1 := CleanupInactiveUsers(presence, now).0;
    var p2 := CleanupInactiveUsers(p1, now).0;
    assert forall u :: u in p1 ==> !Stale(p1[u], now);
    assert (set u | u in p1 && Stale(p1[u], now)) == {};
    assert p2 == p1;
  }

  /** The sweep never turns a row online and never touches offline rows. */
  lemma CleanupInactiveUsersOnlyDemotes(presence: PresenceStore, now: int, u: string)
    requires u in presence
    ensures var p1 := CleanupInactiveUsers(presence, now).0;
      && (p1[u].status == "online" ==> presence[u].status == "online")
      && (presence[u].status != "online" ==> p1[u] == presence[u])
  {
  }
}

=== FILE: call_routes.dfy ===
/** The request guards of the call endpoints. A request body field is an
    `Option<string>` (absent or present); each route either rejects the request,
    reports the target missing, reports that the service refused, or proceeds
    with the service's result. */
module CallRoutes {
  import opened Common
  import opened CallService

  datatype Outcome<T> = BadRequest | NotFound | Refused | Ok(value: T)

  const DefaultPresenceStatus := "online"
  const DefaultCleanupHours := 24

  /** The lookup result the service would see for this request, when it gets that far. */
  predicate InviteLookupValid(store: CallStore, caller: Option<string>, callee: Option<string>, existing: Option<string>) {
    caller.Some? && callee.Some? ==> ValidExisting(store, caller.value, callee.value, existing)
  }

  /** POST /invite: both usernames required, no self-call, caller checked before callee. */
  function Invite(users: set<string>, store: CallStore, caller: Option<string>, callee: Option<string>,
                  existing: Option<string>, freshId: string, now: int): (r: (Outcome<string>, CallStore))
    requires InviteLookupValid(store, caller, callee, existing)
    requires freshId !in store
    ensures !Truthy(caller) || !Truthy(callee) ==> r == (BadRequest, store)
    ensures Truthy(caller) && Truthy(callee) && caller == callee ==> r == (BadRequest, store)
    ensures Truthy(caller) && Truthy(callee) && caller != callee && caller.value !in users ==> r == (NotFound, store)
    ensures r.0.Ok? <==>
      Truthy(caller) && Truthy(callee) && caller != callee && caller.value in users && callee.value in users
    ensures r.0.Ok? ==>
      && r.0.value == freshId
      && r.1 == InitiateCall(users, store, caller.value, callee.value, existing, freshId, now).0
    ensures !r.0.Ok? ==> r.1 == store
  {
    if !Truthy(caller) || !Truthy(callee) then (BadRequest, store)
    else if caller.value == callee.value then (BadRequest, store)
    else if caller.value !in users then (NotFound, store)
    else if callee.value !in users then (NotFound, store)
    else
      var (store', id) := InitiateCall(users, store, caller.value, callee.value, existing, freshId, now);
      if id.None? then (Refused, store) else (Ok(id.value), store')
  }

  /** POST /answer: call_id and callee required. */
  function Answer(store: CallStore, callId: Option<string>, callee: Option<string>, now: int)
    : (r: (Outcome<Answered>, CallStore))
    ensures !Truthy(callId) || !Truthy(callee) ==> r == (BadRequest, store)
    ensures Truthy(callId) && Truthy(callee) ==>
      var (s', a) := AnswerCall(store, callId.value, callee.value, now);
      r == (if a.Some? then Ok(a.value) else Refused, s')
  {
    if !Truthy(callId) || !Truthy(callee) then (BadRequest, store)
    else
      var (s', a) := AnswerCall(store, callId.value, callee.value, now);
      if a.Some? then (Ok(a.value), s') else (Refused, s')
  }

  /** Map a guarded service transition onto a route outcome. */
  function FromGuard(res: (CallStore, bool)): (r: (Outcome<()>, CallStore))
    ensures r.1 == res.0
    ensures r.0.Ok? <==> res.1
    ensures !r.0.Ok? ==> r.0 == Refused
  {
    (if res.1 then Ok(()) else Refused, res.0)
  }

  /** POST /decline: call_id and callee required. */
  function Decline(store: CallStore, callId: Option<string>, callee: Option<string>, now: int)
    : (r: (Outcome<()>, CallStore))
    ensures !Truthy(callId) || !Truthy(callee) ==> r == (BadRequest, store)
    ensures Truthy(callId) && Truthy(callee) ==> r == FromGuard(DeclineCall(store, callId.value, callee.value, now))
  {
    if !Truthy(callId) || !Truthy(callee) then (BadRequest, store)
    else FromGuard(DeclineCall(store, callId.value, callee.value, now))
  }

  /** POST /cancel: call_id and caller required. */
  function Cancel(store: CallStore, callId: Option<string>, caller: Option<string>, now: int)
    : (r: (Outcome<()>, CallStore))
    ensures !Truthy(callId) || !Truthy(caller) ==> r == (BadRequest, store)
    ensures Truthy(callId) && Truthy(caller) ==> r == FromGuard(CancelCall(store, callId.value, caller.value, now))
  {
    if !Truthy(callId) || !Truthy(caller) then (BadRequest, store)
    else FromGuard(CancelCall(store, callId.value, caller.value, now))
  }

  /** POST /end: call_id and username required. */
  function End(store: CallStore, callId: Option<string>, username: Option<string>, now: int)
    : (r: (Outcome<()>, CallStore))
    ensures !Truthy(callId) || !Truthy(username) ==> r == (BadRequest, store)
    ensures Truthy(callId) && Truthy(username) ==> r == FromGuard(EndCall(store, callId.value, username.value, now))
  {
    if !Truthy(callId) || !Truthy(username) then (BadRequest, store)
    else FromGuard(EndCall(store, callId.value, username.value, now))
  }

  /** POST /presence: username required; status defaults to 'online'. */
  function UpdatePresenceRoute(users: set<string>, presence: PresenceStore, username: Option<string>,
                               status: Option<string>, socketId: Option<string>, now: int)
    : (r: (Outcome<()>, PresenceStore))
    ensures !Truthy(username) ==> r == (BadRequest, presence)
    ensures Truthy(username) ==>
      (r.0.Ok? <==> username.value in users)
      && r.1 == UpdatePresence(users, presence, username.value,
                               if status.Some? then status.value else DefaultPresenceStatus, socketId, now).0
    ensures Truthy(username) && status.None? && username.value in users ==>
      r.1[username.value].status == "online"
  {
    if !Truthy(username) then (BadRequest, presence)
    else
      var st := if status.Some? then status.value else DefaultPresenceStatus;
      var (p', ok) := UpdatePresence(users, presence, username.value, st, socketId, now);
      (if ok then Ok(()) else Refused, p')
  }

  /** POST /cleanup: hours defaults to 24; returns how many calls were removed. */
  function Cleanup(store: CallStore, hours: Option<int>, now: int): (r: (nat, CallStore))
    ensures hours.None? ==> (r.1, r.0) == CleanupOldCalls(store, now, 24)
    ensures hours.Some? ==> (r.1, r.0) == CleanupOldCalls(store, now, hours.value)
  {
    var h := if hours.Some? then hours.value else DefaultCleanupHours;
    var (s', n) := CleanupOldCalls(store, now, h);
    (n, s')
  }

  /** Every rejected request leaves the call store as it was. */
  lemma RejectedRequestsChangeNothing(users: set<string>, store: CallStore, callId: Option<string>,
                                      user: Option<string>, now: int)
    requires !Truthy(callId) || !Truthy(user)
    ensures Answer(store, callId, user, now).1 == store
    ensures Decline(store, callId, user, now).1 == store
    ensures Cancel(store, callId, user, now).1 == store
    ensures End(store, callId, user, now).1 == store
  {
  }

  /** A self-call is refused before any lookup, even for known users. */
  lemma NoSelfCall(users: set<string>, store: CallStore, u: string, existing: Option<string>,
                   freshId: string, now: int)
    requires u != "" && u in users
    requires ValidExisting(store, u, u, existing) && freshId !in store
    ensures Invite(users, store, Some(u), Some(u), existing, freshId, now) == (BadRequest, store)
  {
  }

  /** Invites and the answer/decline/cancel/end routes keep at most one live call per pair. */
  lemma RoutesKeepOneLivePerPair(users: set<string>, store: CallStore, caller: Option<string>,
                                 callee: Option<string>, existing: Option<string>, freshId: string,
                                 callId: Option<string>, now: int)
    requires AtMostOneLivePerPair(store)
    requires InviteLookupValid(store, caller, callee, existing) && freshId !in store
    ensures AtMostOneLivePerPair(Invite(users, store, caller, callee, existing, freshId, now).1)
    ensures AtMostOneLivePerPair(Answer(store, callId, callee, now).1)
    ensures AtMostOneLivePerPair(Decline(store, callId, callee, now).1)
    ensures AtMostOneLivePerPair(Cancel(store, callId, caller, now).1)
    ensures AtMostOneLivePerPair(End(store, callId, caller, now).1)
  {
    if caller.Some? && callee.Some? {
      InitiateKeepsOneLivePerPair(users, store, caller.value, callee.value, existing, freshId, now);
    }
    if Truthy(callId) && Truthy(callee) {
      TransitionsKeepOneLivePerPair(store, callId.value, callee.value, now);
    }
    if Truthy(callId) && Truthy(caller) {
      TransitionsKeepOneLivePerPair(store, callId.value, caller.value, now);
    }
  }
}

=== FILE: call_service.dfy ===
/** The backend call service: a registry of call records keyed by call id, the
    guarded status transitions on them, the per-user presence store, and the
    retention sweep over finished calls. Users are identified by username; the
    clock is an integer count of seconds supplied by the caller. */
module CallService {
  import opened Common

  datatype Status = Pending | Ringing | Accepted | Declined | Cancelled | Ended | Missed

  /** A call is live while pending, ringing or accepted; every other status is terminal. */
  predicate IsLive(s: Status) {
    s == Pending || s == Ringing || s == Accepted
  }

  predicate IsTerminal(s: Status) {
    s == Declined || s == Cancelled || s == Ended || s == Missed
  }

  /** The statuses from which a call may still be answered, declined or cancelled. */
  predicate IsRinging(s: Status) {
    s == Pending || s == Ringing
  }

  datatype Call = Call(
    caller: string,
    callee: string,
    status: Status,
    roomName: Option<string>,
    createdAt: int,
    answeredAt: Option<int>,
    endedAt: Option<int>,
    duration: Option<int>)

  type CallStore = map<string, Call>

  /** What a successful answer reports back. */
  datatype Answered = Answered(callId: string, caller: string, callee: string, roomName: string)

  datatype Presence = Presence(status: string, socketId: Option<string>, updatedAt: int)

  type PresenceStore = map<string, Presence>

  const SecondsPerHour := 3600

  /** The call is between users a and b, in either direction. */
  predicate Between(c: Call, a: string, b: string) {
    (c.caller == a && c.callee == b) || (c.caller == b && c.callee == a)
  }

  predicate LiveBetween(store: CallStore, id: string, a: string, b: string) {
    id in store && IsLive(store[id].status) && Between(store[id], a, b)
  }

  /** The registry invariant: no two distinct live calls join the same unordered pair of users. */
  predicate AtMostOneLivePerPair(store: CallStore) {
    forall i, j :: i in store && j in store && i != j && IsLive(store[i].status) && IsLive(store[j].status)
      ==> !Between(store[j], store[i].caller, store[i].callee)
  }

  /** No recorded timestamp lies after the clock reading `now`. */
  predicate ClockBounded(store: CallStore, now: int) {
    forall id :: id in store ==>
      store[id].createdAt <= now
      && (store[id].answeredAt.Some? ==> store[id].answeredAt.value <= now)
  }

  /** The two stores agree everywhere except possibly at key `id`. */
  predicate OnlyChanged(store: CallStore, store': CallStore, id: string) {
    store'.Keys == store.Keys && forall k :: k in store && k != id ==> store'[k] == store[k]
  }

  /** The record `d` is `c` with the same participants and creation time. */
  predicate SameParties(c: Call, d: Call) {
    d.caller == c.caller && d.callee == c.callee && d.createdAt == c.createdAt
  }

  /** The row the database returns for the lookup of a live call between the
      two users: absent when there is none, otherwise one such call (which one
      is the database's choice). */
  predicate ValidExisting(store: CallStore, a: string, b: string, existing: Option<string>) {
    && (existing.None? ==> forall id :: id in store ==> !LiveBetween(store, id, a, b))
    && (existing.Some? ==> LiveBetween(store, existing.value, a, b))
  }

  /** The video room allocated on answer: "call_" and the first eight characters of the call id. */
  function RoomName(callId: string): (r: string)
    ensures |r| == 5 + (if |callId| < 8 then |callId| else 8)
    ensures r[..5] == "call_" && r[5..] == callId[..|r| - 5]
  {
    "call_" + (if |callId| < 8 then callId else callId[..8])
  }

  /** Start a call from `caller` to `callee`. Unknown users create nothing. Otherwise the
      live call the lookup found (if any) is cancelled and a new pending call with the
      fresh id is inserted. */
  function InitiateCall(users: set<string>, store: CallStore, caller: string, callee: string,
                        existing: Option<string>, freshId: string, now: int): (r: (CallStore, Option<string>))
    requires ValidExisting(store, caller, callee, existing)
    requires freshId !in store
    ensures caller !in users || callee !in users ==> r == (store, None)
    ensures caller in users && callee in users ==>
      && r.1 == Some(freshId)
      && r.0.Keys == store.Keys + {freshId}
      && r.0[freshId] == Call(caller, callee, Pending, None, now, None, None, None)
      && (forall id :: id in store && Some(id) != existing ==> r.0[id] == store[id])
      && (existing.Some? ==>
            r.0[existing.value] == store[existing.value].(status := Cancelled, endedAt := Some(now)))
  {
    if caller !in users || callee !in users then (store, None)
    else
      var cleared := if existing.Some? then
        store[existing.value := store[existing.value].(status := Cancelled, endedAt := Some(now))]
      else store;
      (cleared[freshId := Call(caller, callee, Pending, None, now, None, None, None)], Some(freshId))
  }

  /** Answer a call: only the callee of a pending or ringing call can. */
  function AnswerCall(store: CallStore, callId: string, callee: string, now: int): (r: (CallStore, Option<Answered>))
    ensures r.1.Some? <==> callId in store && store[callId].callee == callee && IsRinging(store[callId].status)
    ensures r.1.None? ==> r.0 == store
    ensures r.1.Some? ==>
      && OnlyChanged(store, r.0, callId)
      && SameParties(store[callId], r.0[callId])
      && r.0[callId].status == Accepted
      && r.0[callId].answeredAt == Some(now)
      && r.0[callId].roomName == Some(RoomName(callId))
      && r.1.value == Answered(callId, store[callId].caller, callee, RoomName(callId))
  {
    if callId in store && store[callId].callee == callee && IsRinging(store[callId].status) then
      var c := store[callId];
      var room := RoomName(callId);
      (store[callId := c.(status := Accepted, answeredAt := Some(now), roomName := Some(room))],
       Some(Answered(callId, c.caller, callee, room)))
    else (store, None)
  }

  /** Shared shape of decline and cancel: a guarded move of a pending or ringing call
      to a terminal status, stamping the end time. The boolean reports whether the guard held. */
  function CloseRinging(store: CallStore, callId: string, isActor: Call -> bool, target: Status, now: int)
    : (r: (CallStore, bool))
    ensures r.1 <==> callId in store && isActor(store[callId]) && IsRinging(store[callId].status)
    ensures !r.1 ==> r.0 == store
    ensures r.1 ==>
      && OnlyChanged(store, r.0, callId)
      && r.0[callId] == store[callId].(status := target, endedAt := Some(now))
  {
    if callId in store && isActor(store[callId]) && IsRinging(store[callId].status) then
      (store[callId := store[callId].(status := target, endedAt := Some(now))], true)
    else (store, false)
  }

  /** The callee declines a pending or ringing call. */
  function DeclineCall(store: CallStore, callId: string, callee: string, now: int): (r: (CallStore, bool))
    ensures r.1 <==> callId in store && store[callId].callee == callee && IsRinging(store[callId].status)
    ensures !r.1 ==> r.0 == store
    ensures r.1 ==>
      && OnlyChanged(store, r.0, callId)
      && r.0[callId] == store[callId].(status := Declined, endedAt := Some(now))
  {
    CloseRinging(store, callId, (c: Call) => c.callee == callee, Declined, now)
  }

  /** The caller cancels a pending or ringing call. */
  function CancelCall(store: CallStore, callId: string, caller: string, now: int): (r: (CallStore, bool))
    ensures r.1 <==> callId in store && store[callId].caller == caller && IsRinging(store[callId].status)
    ensures !r.1 ==> r.0 == store
    ensures r.1 ==>
      && OnlyChanged(store, r.0, callId)
      && r.0[callId] == store[callId].(status := Cancelled, endedAt := Some(now))
  {
    CloseRinging(store, callId, (c: Call) => c.caller == caller, Cancelled, now)
  }

  /** Seconds from the answer time to now; zero when the answer time is missing. */
  function CallDuration(answeredAt: Option<int>, now: int): int {
    match answeredAt
    case Some(a) => now - a
    case None => 0
  }

  /** End an accepted call. The acting username is not checked against the participants. */
  function EndCall(store: CallStore, callId: string, username: string, now: int): (r: (CallStore, bool))
    ensures r.1 <==> callId in store && store[callId].status == Accepted
    ensures !r.1 ==> r.0 == store
    ensures r.1 ==>
      && OnlyChanged(store, r.0, callId)
      && SameParties(store[callId], r.0[callId])
      && r.0[callId].status == Ended
      && r.0[callId].endedAt == Some(now)
      && r.0[callId].answeredAt == store[callId].answeredAt
      && r.0[callId].roomName == store[callId].roomName
      && (store[callId].answeredAt.Some? ==>
            r.0[callId].duration == Some(now - store[callId].answeredAt.value))
      && (store[callId].answeredAt.None? ==> r.0[callId].duration == Some(0))
  {
    if callId in store && store[callId].status == Accepted then
      var c := store[callId];
      (store[callId := c.(status := Ended, endedAt := Some(now), duration := Some(CallDuration(c.answeredAt, now)))],
       true)
    else (store, false)
  }

  /** The full record of a call, if it exists. */
  function GetCallStatus(store: CallStore, callId: string): (r: Option<Call>)
    ensures r.Some? <==> callId in store
    ensures r.Some? ==> r.value == store[callId]
  {
    if callId in store then Some(store[callId]) else None
  }

  /** Ids of the calls waiting for `user` to answer. */
  function PendingCallsFor(store: CallStore, user: string): (r: set<string>)
    ensures forall id :: id in r <==> id in store && store[id].callee == user && IsRinging(store[id].status)
  {
    set id | id in store && store[id].callee == user && IsRinging(store[id].status)
  }

  /** Upsert the presence row of a known user; an unknown user changes nothing. */
  function UpdatePresence(users: set<string>, presence: PresenceStore, username: string,
                          status: string, socketId: Option<string>, now: int): (r: (PresenceStore, bool))
    ensures r.1 <==> username in users
    ensures !r.1 ==> r.0 == presence
    ensures r.1 ==>
      && r.0.Keys == presence.Keys + {username}
      && r.0[username] == Presence(status, socketId, now)
      && forall u :: u in presence && u != username ==> r.0[u] == presence[u]
  {
    if username in users then (presence[username := Presence(status, socketId, now)], true)
    else (presence, false)
  }

  /** Presence status is the only notion of "online": a stored status of 'online'. */
  predicate IsOnline(presence: PresenceStore, user: string) {
    user in presence && presence[user].status == "online"
  }

  /** A call the retention sweep removes: terminal and created before the cutoff. */
  predicate Expired(c: Call, cutoff: int) {
    IsTerminal(c.status) && c.createdAt < cutoff
  }

  /** Delete the terminal calls created more than `hours` hours before `now`;
      report how many were removed. */
  function CleanupOldCalls(store: CallStore, now: int, hours: int): (r: (CallStore, nat))
    ensures forall id :: id in r.0 <==> id in store && !Expired(store[id], now - hours * SecondsPerHour)
    ensures forall id :: id in r.0 ==> r.0[id] == store[id]
    ensures r.1 == |store.Keys - r.0.Keys|
  {
    var cutoff := now - hours * SecondsPerHour;
    var kept := map id | id in store && !Expired(store[id], cutoff) :: store[id];
    (kept, |store.Keys - kept.Keys|)
  }

  // ---------------------------------------------------------------------------
  // Properties
  // ---------------------------------------------------------------------------

  /** A change confined to one call that keeps its participants and never makes it
      live when it was not live keeps the pairing invariant. */
  lemma PreservedByLocalChange(store: CallStore, store': CallStore, id: string)
    requires AtMostOneLivePerPair(store)
    requires OnlyChanged(store, store', id)
    requires id in store ==> SameParties(store[id], store'[id])
    requires id in store ==> IsLive(store'[id].status) ==> IsLive(store[id].status)
    ensures AtMostOneLivePerPair(store')
  {
    forall i, j | i in store' && j in store' && i != j && IsLive(store'[i].status) && IsLive(store'[j].status)
      ensures !Between(store'[j], store'[i].caller, store'[i].callee)
    {
      assert IsLive(store[i].status) && IsLive(store[j].status);
      assert !Between(store[j], store[i].caller, store[i].callee);
    }
  }

  /** Initiating a call keeps at most one live call per pair, and afterwards the new
      pending call is the only live call between the two users. */
  lemma InitiateKeepsOneLivePerPair(users: set<string>, store: CallStore, caller: string, callee: string,
                                   existing: Option<string>, freshId: string, now: int)
    requires ValidExisting(store, caller, callee, existing)
    requires freshId !in store
    requires AtMostOneLivePerPair(store)
    ensures AtMostOneLivePerPair(InitiateCall(users, store, caller, callee, existing, freshId, now).0)
    ensures caller in users && callee in users ==>
      var s' := InitiateCall(users, store, caller, callee, existing, freshId, now).0;
      forall id :: LiveBetween(s', id, caller, callee) <==> id == freshId
  {
    if caller in users && callee in users {
      var s' := InitiateCall(users, store, caller, callee, existing, freshId, now).0;
      // Before the insertion no live call joins the pair.
      forall id | id in s' && id != freshId
        ensures !LiveBetween(s', id, caller, callee)
      {
        if existing.Some? && id == existing.value {
          assert s'[id].status == Cancelled;
        } else {
          assert s'[id] == store[id];
          if existing.Some? && IsLive(store[id].status) {
            var e := existing.value;
            assert !Between(store[id], store[e].caller, store[e].callee);
          }
        }
      }
      forall i, j | i in s' && j in s' && i != j && IsLive(s'[i].status) && IsLive(s'[j].status)
        ensures !Between(s'[j], s'[i].caller, s'[i].callee)
      {
        if i == freshId {
          assert !LiveBetween(s', j, caller, callee);
        } else if j == freshId {
          assert !LiveBetween(s', i, caller, callee);
        } else {
          assert i in store && j in store;
          assert IsLive(store[i].status) && IsLive(store[j].status);
        }
      }
    }
  }

  /** The pairing invariant is a real precondition: the lookup fetches a single row,
      so with two live calls between the same users one of them survives next to the new call. */
  lemma InitiateNeedsInvariant()
    ensures
      var c := Call("alice", "bob", Pending, None, 0, None, None, None);
      var store := map["c1" := c, "c2" := c];
      var s' := InitiateCall({"alice", "bob"}, store, "alice", "bob", Some("c1"), "c3", 5).0;
      LiveBetween(s', "c2", "alice", "bob") && LiveBetween(s', "c3", "alice", "bob")
  {
  }

  /** Answer, decline, cancel and end keep the pairing invariant. */
  lemma TransitionsKeepOneLivePerPair(store: CallStore, callId: string, user: string, now: int)
    requires AtMostOneLivePerPair(store)
    ensures AtMostOneLivePerPair(AnswerCall(store, callId, user, now).0)
    ensures AtMostOneLivePerPair(DeclineCall(store, callId, user, now).0)
    ensures AtMostOneLivePerPair(CancelCall(store, callId, user, now).0)
    ensures AtMostOneLivePerPair(EndCall(store, callId, user, now).0)
  {
    PreservedByLocalChange(store, AnswerCall(store, callId, user, now).0, callId);
    PreservedByLocalChange(store, DeclineCall(store, callId, user, now).0, callId);
    PreservedByLocalChange(store, CancelCall(store, callId, user, now).0, callId);
    PreservedByLocalChange(store, EndCall(store, callId, user, now).0, callId);
  }

  /** No transition leaves a terminal status. */
  lemma TerminalIsFinal(store: CallStore, callId: string, user: string, now: int)
    requires callId in store && IsTerminal(store[callId].status)
    ensures AnswerCall(store, callId, user, now).0 == store
    ensures DeclineCall(store, callId, user, now).0 == store
    ensures CancelCall(store, callId, user, now).0 == store
    ensures EndCall(store, callId, user, now).0 == store
  {
  }

  /** A second answer of the same call fails and changes nothing. */
  lemma AnswerTwiceFails(store: CallStore, callId: string, callee: string, now: int, later: int)
    requires AnswerCall(store, callId, callee, now).1.Some?
    ensures
      var s1 := AnswerCall(store, callId, callee, now).0;
      AnswerCall(s1, callId, callee, later) == (s1, None)
  {
  }

  /** Ending an answered call records a non-negative duration when the clock has not gone back. */
  lemma EndDurationNonNegative(store: CallStore, callId: string, user: string, now: int)
    requires ClockBounded(store, now)
    requires callId in store && store[callId].status == Accepted
    ensures EndCall(store, callId, user, now).0[callId].duration.value >= 0
  {
  }

  /** Who ends the call makes no difference: the participant check is absent. */
  lemma EndIgnoresActor(store: CallStore, callId: string, u1: string, u2: string, now: int)
    ensures EndCall(store, callId, u1, now) == EndCall(store, callId, u2, now)
  {
  }

  /** Scenario: a call is initiated, answered by its callee and ended by its caller. */
  lemma InitiateAnswerEnd(users: set<string>, a: string, b: string, id: string, t0: int, t1: int, t2: int)
    requires a in users && b in users && t0 <= t1 <= t2
    ensures
      var s0 := InitiateCall(users, map[], a, b, None, id, t0).0;
      var s1 := AnswerCall(s0, id, b, t1).0;
      var s2 := EndCall(s1, id, a, t2).0;
      && s1[id].status == Accepted && s1[id].roomName.Some?
      && s2[id].status == Ended && s2[id].duration == Some(t2 - t1)
  {
  }

  /** A user other than the callee cannot decline; the call stays pending. */
  lemma DeclineByStrangerFails(store: CallStore, callId: string, stranger: string, now: int)
    requires callId in store && store[callId].callee != stranger
    ensures DeclineCall(store, callId, stranger, now) == (store, false)
  {
  }

  /** The new call of an initiation appears among the callee's pending calls. */
  lemma InitiatedCallIsPendingForCallee(users: set<string>, store: CallStore, caller: string, callee: string,
                                        existing: Option<string>, freshId: string, now: int)
    requires ValidExisting(store, caller, callee, existing)
    requires freshId !in store
    requires caller in users && callee in users
    ensures freshId in PendingCallsFor(InitiateCall(users, store, caller, callee, existing, freshId, now).0, callee)
  {
  }

  /** Every presence update of a known user refreshes the timestamp, even when
      the status is unchanged, and leaves exactly one row for that user. */
  lemma PresenceUpsert(users: set<string>, presence: PresenceStore, u: string, status: string,
                       sock: Option<string>, now: int)
    requires u in users && u in presence && presence[u].status == status
    ensures
      var p' := UpdatePresence(users, presence, u, status, sock, now).0;
      p'.Keys == presence.Keys && p'[u].updatedAt == now
  {
  }

  /** The retention sweep never deletes a live call. */
  lemma CleanupKeepsLive(store: CallStore, now: int, hours: int, id: string)
    requires id in store && IsLive(store[id].status)
    ensures id in CleanupOldCalls(store, now, hours).0
  {
  }

  /** Running the retention sweep again at the same time removes nothing more. */
  lemma CleanupIdempotent(store: CallStore, now: int, hours: int)
    ensures
      var s1 := CleanupOldCalls(store, now, hours).0;
      CleanupOldCalls(s1, now, hours) == (s1, 0)
  {
    var s1 := CleanupOldCalls(store, now, hours).0;
    var s2 := CleanupOldCalls(s1, now, hours).0;
    assert s2.Keys == s1.Keys;
    assert s2 == s1;
    assert s1.Keys - s2.Keys == {};
  }

  /** The retention sweep keeps the pairing invariant (it only removes calls). */
  lemma CleanupKeepsOneLivePerPair(store: CallStore, now: int, hours: int)
    requires AtMostOneLivePerPair(store)
    ensures AtMostOneLivePerPair(CleanupOldCalls(store, now, hours).0)
  {
  }
}

=== FILE: common.dfy ===
/** Helpers shared by every model: an optional value, the ASCII character
    classes the validators use, decimal rendering and parsing of naturals, and
    whitespace trimming. */
module Common {

  /** A value that may be absent (a missing JSON field, a null reference). */
  datatype Option<+T> = None | Some(value: T)

  /** JavaScript / Python truthiness of an optional string: present and non-empty. */
  predicate Truthy(s: Option<string>) {
    s.Some? && s.value != ""
  }

  /** `Math.min` / `min` on integers. */
  function Min(a: int, b: int): int { if a <= b then a else b }

  predicate IsUpper(c: char) { 'A' <= c <= 'Z' }
  predicate IsLower(c: char) { 'a' <= c <= 'z' }
  predicate IsDigit(c: char) { '0' <= c <= '9' }
  predicate IsAlnum(c: char) { IsUpper(c) || IsLower(c) || IsDigit(c) }
  predicate IsHexDigit(c: char) { IsDigit(c) || 'a' <= c <= 'f' || 'A' <= c <= 'F' }

  /** Whitespace as JavaScript's trim() removes it and Python's int() skips it,
      restricted to ASCII. */
  predicate IsSpace(c: char) {
    c == ' ' || c == '\t' || c == '\n' || c == '\r' || c == '\U{000B}' || c == '\U{000C}'
  }

  /** Whitespace as Python's str.strip() removes it, restricted to ASCII: besides
      `IsSpace`, str.isspace() also accepts the four information separators
      U+001C..U+001F. */
  predicate IsPySpace(c: char) {
    IsSpace(c) || '\U{001C}' <= c <= '\U{001F}'
  }

  predicate AllDigits(s: string) {
    forall i :: 0 <= i < |s| ==> IsDigit(s[i])
  }

  /** Every character of `s` is whitespace of the class `ws`. */
  predicate AllBlank(s: string, ws: char -> bool) {
    forall i :: 0 <= i < |s| ==> ws(s[i])
  }

  predicate AllSpace(s: string) {
    AllBlank(s, IsSpace)
  }

  function DigitChar(d: nat): (c: char)
    requires d < 10
    ensures IsDigit(c)
  {
    (('0' as int) + d) as char
  }

  function DigitValue(c: char): (d: nat)
    requires IsDigit(c)
    ensures d < 10
  {
    (c as int) - ('0' as int)
  }

  /** Decimal rendering of a natural, as Python's str() and JavaScript's template strings print it. */
  function NatToString(n: nat): (s: string)
    ensures |s| >= 1 && AllDigits(s)
    decreases n
  {
    if n < 10 then [DigitChar(n)] else NatToString(n / 10) + [DigitChar(n % 10)]
  }

  /** The value of a string of decimal digits (the empty string reads as 0). */
  function ParseDigits(s: string): nat
    requires AllDigits(s)
  {
    if s == [] then 0 else ParseDigits(s[..|s| - 1]) * 10 + DigitValue(s[|s| - 1])
  }

  /** Reading back a rendered natural gives the natural. */
  lemma {:induction false} ParseNatToString(n: nat)
    ensures ParseDigits(NatToString(n)) == n
    decreases n
  {
    if n >= 10 {
      var s := NatToString(n);
      assert s[..|s| - 1] == NatToString(n / 10);
      ParseNatToString(n / 10);
    }
  }

  /** A rendered natural never contains a given non-digit character. */
  lemma NatToStringHasNo(n: nat, c: char)
    requires !IsDigit(c)
    ensures c !in NatToString(n)
  {
    var s := NatToString(n);
    forall i | 0 <= i < |s| ensures s[i] != c {
      assert IsDigit(s[i]);
    }
  }

  /** Drop the leading characters of the whitespace class `ws`. */
  function TrimStart(s: string, ws: char -> bool): (r: string)
    ensures |r| <= |s| && r == s[|s| - |r|..]
    ensures r != [] ==> !ws(r[0])
    ensures AllBlank(s[..|s| - |r|], ws)
  {
    if s != [] && ws(s[0]) then
      var t := TrimStart(s[1..], ws);
      assert s[1..][..|s[1..]| - |t|] == s[1..|s| - |t|];
      t
    else s
  }

  /** Drop the trailing characters of the whitespace class `ws`. */
  function TrimEnd(s: string, ws: char -> bool): (r: string)
    ensures |r| <= |s| && r == s[..|r|]
    ensures r != [] ==> !ws(r[|r| - 1])
    ensures AllBlank(s[|r|..], ws)
  {
    if s != [] && ws(s[|s| - 1]) then
      TrimEnd(s[..|s| - 1], ws)
    else s
  }

  function TrimBy(s: string, ws: char -> bool): string {
    TrimEnd(TrimStart(s, ws), ws)
  }

  /** JavaScript's String.prototype.trim() and the whitespace Python's int() skips. */
  function Trim(s: string): string {
    TrimBy(s, IsSpace)
  }

  /** Python's str.strip() with no argument. */
  function Strip(s: string): string {
    TrimBy(s, IsPySpace)
  }

  /** Trimming yields the empty string exactly for blank input, and otherwise a
      string with no whitespace of the class at either end. */
  lemma TrimSpec(s: string, ws: char -> bool)
    ensures TrimBy(s, ws) == "" <==> AllBlank(s, ws)
    ensures TrimBy(s, ws) != "" ==> !ws(TrimBy(s, ws)[0]) && !ws(TrimBy(s, ws)[|TrimBy(s, ws)| - 1])
    ensures |TrimBy(s, ws)| <= |s|
  {
    var a := TrimStart(s, ws);
    var b := TrimEnd(a, ws);
    if b == "" {
      assert a[|b|..] == a;
      assert a == "";
      assert s[..|s|] == s;
    } else {
      assert b[0] == a[0] == s[|s| - |a|];
      assert !ws(s[|s| - |a|]);
    }
  }

  /** A subset is no larger than its superset. */
  lemma {:induction false} SubsetCard<T>(a: set<T>, b: set<T>)
    requires a <= b
    ensures |a| <= |b|
    decreases |b|
  {
    if a != {} {
      var x :| x in a;
      SubsetCard(a - {x}, b - {x});
    }
  }

  /** A non-zero multiple of a positive `k` is at least `k` away from zero. */
  lemma MulAwayFromZero(d: int, k: int)
    requires k >= 1
    ensures d >= 1 ==> d * k >= k
    ensures d <= -1 ==> d * k <= -k
  {
  }

  /** Division by a positive divisor is unique: a row-and-column decomposition of `a`
      is the quotient and remainder. */
  lemma DivModUnique(a: int, k: int, q: int, c: int)
    requires k >= 1 && 0 <= c < k && a == q * k + c
    ensures a / k == q && a % k == c
  {
    var q', c' := a / k, a % k;
    assert (q - q') * k == c' - c;
    MulAwayFromZero(q - q', k);
  }

  /** Stepping one past `a` modulo `n` wraps to 0 after the last residue. */
  lemma ModSucc(a: int, n: int)
    requires n >= 1
    ensures (a + 1) % n == if a % n + 1 < n then a % n + 1 else 0
  {
    if a % n + 1 < n {
      DivModUnique(a + 1, n, a / n, a % n + 1);
    } else {
      DivModUnique(a + 1, n, a / n + 1, 0);
    }
  }

  // ---------------------------------------------------------------------------
  // Splitting and joining on a separator (str.split with an explicit separator)
  // ---------------------------------------------------------------------------

  /** Position of the first occurrence of `d` in `s`. */
  function IndexOf(s: string, d: char): (k: nat)
    requires d in s
    ensures k < |s| && s[k] == d && d !in s[..k]
    ensures forall j :: 0 <= j < k ==> s[j] != d
  {
    if s[0] == d then 0
    else
      assert s == [s[0]] + s[1..];
      var k := IndexOf(s[1..], d);
      assert s[..k + 1] == [s[0]] + s[1..][..k];
      k + 1
  }

  /** Join the parts with the separator between consecutive parts. */
  function Join(parts: seq<string>, d: char): string
    requires |parts| >= 1
  {
    if |parts| == 1 then parts[0] else parts[0] + [d] + Join(parts[1..], d)
  }

  /** Split on every occurrence of `d`; the empty string splits into one empty part. */
  function Split(s: string, d: char): (r: seq<string>)
    ensures |r| >= 1
    ensures forall i :: 0 <= i < |r| ==> d !in r[i]
    ensures Join(r, d) == s
    decreases |s|
  {
    if d !in s then [s]
    else
      var k := IndexOf(s, d);
      var rest := Split(s[k + 1..], d);
      assert s == s[..k] + [d] + s[k + 1..];
      [s[..k]] + rest
  }

  /** Splitting a separator-free first part off. */
  lemma SplitCons(p: string, d: char, rest: string)
    requires d !in p
    ensures Split(p + [d] + rest, d) == [p] + Split(rest, d)
  {
    var s := p + [d] + rest;
    assert forall j :: 0 <= j < |p| ==> s[j] == p[j];
    assert s[|p|] == d;
    var k := IndexOf(s, d);
    assert k == |p|;
    assert s[..k] == p;
    assert s[k + 1..] == rest;
  }

  /** Splitting a join of separator-free parts gives the parts back. */
  lemma {:induction false} SplitJoin(parts: seq<string>, d: char)
    requires |parts| >= 1
    requires forall i :: 0 <= i < |parts| ==> d !in parts[i]
    ensures Split(Join(parts, d), d) == parts
    decreases |parts|
  {
    if |parts| > 1 {
      SplitCons(parts[0], d, Join(parts[1..], d));
      SplitJoin(parts[1..], d);
      assert parts == [parts[0]] + parts[1..];
    }
  }
}

=== FILE: contacts.dfy ===
/** The contact service: a directional "owner has contact" relation between
    usernames, with a favourite flag per pair; the contact list ordered online
    first, then favourites, then by display name; the reverse ("mutual") view;
    and the per-user counts. Users map a username to its display name. */
module Contacts {
  import opened Common
  import CallService

  datatype ContactRow = ContactRow(addedAt: int, isFavorite: bool)

  /** Keyed by (owner, contact). */
  type ContactStore = map<(string, string), ContactRow>

  datatype AddOutcome = UserNotFound | AlreadyExists | Added(username: string, displayName: string)

  datatype RouteOutcome = BadRequest | OwnerNotFound | ContactNotFound | Service(result: AddOutcome)

  datatype ContactEntry = ContactEntry(
    username: string,
    displayName: string,
    isFavorite: bool,
    presenceStatus: string,
    isOnline: bool)

  datatype Stats = Stats(total: nat, favorite: nat, online: nat, mutual: nat)

  /** Every contact row joins two existing users. */
  predicate RowsReferToUsers(users: map<string, string>, contacts: ContactStore) {
    forall k :: k in contacts ==> k.0 in users && k.1 in users
  }

  /** Add `contact` to `owner`'s list: both users must exist and the pair must be new. */
  function AddContact(users: map<string, string>, contacts: ContactStore, owner: string, contact: string, now: int)
    : (r: (ContactStore, AddOutcome))
    ensures owner !in users || contact !in users ==> r == (contacts, UserNotFound)
    ensures owner in users && contact in users && (owner, contact) in contacts ==> r == (contacts, AlreadyExists)
    ensures r.1.Added? <==> owner in users && contact in users && (owner, contact) !in contacts
    ensures r.1.Added? ==>
      && r.0.Keys == contacts.Keys + {(owner, contact)}
      && r.0[(owner, contact)] == ContactRow(now, false)
      && (forall k :: k in contacts ==> r.0[k] == contacts[k])
      && r.1 == Added(contact, users[contact])
  {
    if owner !in users || contact !in users then (contacts, UserNotFound)
    else if (owner, contact) in contacts then (contacts, AlreadyExists)
    else (contacts[(owner, contact) := ContactRow(now, false)], Added(contact, users[contact]))
  }

  /** POST /contacts/add: both names required, no self-add, owner checked before contact. */
  function AddContactRoute(users: map<string, string>, contacts: ContactStore, owner: Option<string>,
                           contact: Option<string>, now: int): (r: (ContactStore, RouteOutcome))
    ensures !Truthy(owner) || !Truthy(contact) || owner == contact ==> r == (contacts, BadRequest)
    ensures r.1.Service? && r.1.result.Added? ==> owner.value != contact.value
    ensures Truthy(owner) && Truthy(contact) && owner != contact ==>
      && (owner.value !in users ==> r == (contacts, OwnerNotFound))
      && (owner.value in users && contact.value !in users ==> r == (contacts, ContactNotFound))
      && (owner.value in users && contact.value in users ==>
            var (c', out) := AddContact(users, contacts, owner.value, contact.value, now);
            r == (c', Service(out)))
  {
    if !Truthy(owner) || !Truthy(contact) || owner.value == contact.value then (contacts, BadRequest)
    else if owner.value !in users then (contacts, OwnerNotFound)
    else if contact.value !in users then (contacts, ContactNotFound)
    else
      var (c', out) := AddContact(users, contacts, owner.value, contact.value, now);
      (c', Service(out))
  }

  /** Remove the pair; success is reported exactly when the pair is absent afterwards. */
  function RemoveContact(users: map<string, string>, contacts: ContactStore, owner: string, contact: string)
    : (r: (ContactStore, bool))
    ensures r.1 <==> owner in users && contact in users && (owner, contact) !in r.0
    ensures !r.1 ==> r.0 == contacts
    ensures r.1 ==> r.0 == contacts - {(owner, contact)}
  {
    if owner !in users || contact !in users then (contacts, false)
    else
      var c' := contacts - {(owner, contact)};
      (c', (owner, contact) !in c')
  }

  /** Whether `owner` has `contact` in their list. */
  function IsContact(users: map<string, string>, contacts: ContactStore, owner: string, contact: string): (r: bool)
    ensures r <==> owner in users && contact in users && (owner, contact) in contacts
  {
    owner in users && contact in users && (owner, contact) in contacts
  }

  /** Set the favourite flag of an existing pair; the boolean reports that the pair existed. */
  function SetFavorite(users: map<string, string>, contacts: ContactStore, owner: string, contact: string,
                       isFavorite: bool): (r: (ContactStore, bool))
    ensures r.1 <==> owner in users && contact in users && (owner, contact) in contacts
    ensures !r.1 ==> r.0 == contacts
    ensures r.1 ==>
      && r.0.Keys == contacts.Keys
      && r.0[(owner, contact)] == contacts[(owner, contact)].(isFavorite := isFavorite)
      && forall k :: k in contacts && k != (owner, contact) ==> r.0[k] == contacts[k]
  {
    if owner in users && contact in users && (owner, contact) in contacts then
      (contacts[(owner, contact) := contacts[(owner, contact)].(isFavorite := isFavorite)], true)
    else (contacts, false)
  }

  // ---------------------------------------------------------------------------
  // The ordered contact list
  // ---------------------------------------------------------------------------

  /** Binary collation order on strings: a prefix comes first, otherwise the first differing character decides. */
  predicate StrLe(a: string, b: string)
    decreases |a|
  {
    a == [] || (b != [] && (a[0] < b[0] || (a[0] == b[0] && StrLe(a[1..], b[1..]))))
  }

  lemma {:induction false} StrLeTotal(a: string, b: string)
    ensures StrLe(a, b) || StrLe(b, a)
    decreases |a|
  {
    if a != [] && b != [] && a[0] == b[0] {
      StrLeTotal(a[1..], b[1..]);
    }
  }

  lemma {:induction false} StrLeTrans(a: string, b: string, c: string)
    requires StrLe(a, b) && StrLe(b, c)
    ensures StrLe(a, c)
    decreases |a|
  {
    if a != [] && a[0] == b[0] && b[0] == c[0] {
      StrLeTrans(a[1..], b[1..], c[1..]);
    }
  }

  /** The list order: online before offline, then favourites first, then display name ascending. */
  predicate Le(x: ContactEntry, y: ContactEntry) {
    (x.isOnline && !y.isOnline)
    || (x.isOnline == y.isOnline
        && ((x.isFavorite && !y.isFavorite)
            || (x.isFavorite == y.isFavorite && StrLe(x.displayName, y.displayName))))
  }

  lemma LeTotal(x: ContactEntry, y: ContactEntry)
    ensures Le(x, y) || Le(y, x)
  {
    StrLeTotal(x.displayName, y.displayName);
  }

  lemma LeTrans(x: ContactEntry, y: ContactEntry, z: ContactEntry)
    requires Le(x, y) && Le(y, z)
    ensures Le(x, z)
  {
    if x.isOnline == y.isOnline == z.isOnline && x.isFavorite == y.isFavorite == z.isFavorite {
      StrLeTrans(x.displayName, y.displayName, z.displayName);
    }
  }

  predicate Sorted(s: seq<ContactEntry>) {
    forall i, j :: 0 <= i < j < |s| ==> Le(s[i], s[j])
  }

  /** Insert one entry into a sorted list, keeping it sorted. */
  function Insert(e: ContactEntry, s: seq<ContactEntry>): (r: seq<ContactEntry>)
    requires Sorted(s)
    ensures Sorted(r)
    ensures multiset(r) == multiset(s) + multiset{e}
  {
    if s == [] then [e]
    else if Le(e, s[0]) then
      InsertAtFront(e, s);
      [e] + s
    else
      LeTotal(e, s[0]);
      var t := Insert(e, s[1..]);
      InsertBehindHead(e, s, t);
      [s[0]] + t
  }

  /** An entry no greater than the head of a sorted list can go in front of it. */
  lemma InsertAtFront(e: ContactEntry, s: seq<ContactEntry>)
    requires Sorted(s) && s != [] && Le(e, s[0])
    ensures Sorted([e] + s)
  {
    var r := [e] + s;
    forall i, j | 0 <= i < j < |r| ensures Le(r[i], r[j]) {
      if i == 0 && j > 1 {
        LeTrans(e, s[0], s[j - 1]);
      }
    }
  }

  /** The head of a sorted list stays in front when the entry is inserted into its tail. */
  lemma InsertBehindHead(e: ContactEntry, s: seq<ContactEntry>, t: seq<ContactEntry>)
    requires Sorted(s) && s != [] && Le(s[0], e)
    requires Sorted(t) && multiset(t) == multiset(s[1..]) + multiset{e}
    ensures Sorted([s[0]] + t)
    ensures multiset([s[0]] + t) == multiset(s) + multiset{e}
  {
    assert s == [s[0]] + s[1..];
    var r := [s[0]] + t;
    forall j | 0 <= j < |t| ensures Le(s[0], t[j]) {
      assert t[j] in multiset(t);
      if t[j] != e {
        assert t[j] in multiset(s[1..]);
        var k :| 0 <= k < |s[1..]| && s[1..][k] == t[j];
        assert s[k + 1] == t[j];
      }
    }
    forall i, j | 0 <= i < j < |r| ensures Le(r[i], r[j]) {
      if i > 0 {
        assert r[i] == t[i - 1] && r[j] == t[j - 1];
      }
    }
  }

  /** Insertion sort by the list order. */
  function Sort(s: seq<ContactEntry>): (r: seq<ContactEntry>)
    ensures Sorted(r)
    ensures multiset(r) == multiset(s)
  {
    if s == [] then []
    else
      assert s == [s[0]] + s[1..];
      Insert(s[0], Sort(s[1..]))
  }

  /** A permutation has the same length and the same elements. */
  lemma PermutationSameElements(a: seq<ContactEntry>, b: seq<ContactEntry>)
    requires multiset(a) == multiset(b)
    ensures |a| == |b|
    ensures forall e :: e in a <==> e in b
  {
    assert |multiset(a)| == |multiset(b)|;
    forall e ensures e in a <==> e in b {
      assert e in a <==> e in multiset(a);
      assert e in b <==> e in multiset(b);
    }
  }

  /** A contact's presence status: the stored one, or 'offline' when there is no presence row. */
  function PresenceStatus(presence: CallService.PresenceStore, user: string): (st: string)
    ensures user !in presence ==> st == "offline"
    ensures st == "online" <==> CallService.IsOnline(presence, user)
  {
    if user in presence then presence[user].status else "offline"
  }

  /** The list entry for contact `c` of `owner`. */
  function EntryFor(users: map<string, string>, contacts: ContactStore, presence: CallService.PresenceStore,
                    owner: string, c: string): ContactEntry
    requires c in users && (owner, c) in contacts
  {
    var st := PresenceStatus(presence, c);
    ContactEntry(c, users[c], contacts[(owner, c)].isFavorite, st, st == "online")
  }

  ghost predicate NoDup<T>(s: seq<T>) {
    forall i, j :: 0 <= i < j < |s| ==> s[i] != s[j]
  }

  /** `rows` is an enumeration, without repetition, of the owner's contacts that exist as users
      (the rows the join returns, in whatever order the database produces them). */
  ghost predicate EnumeratesContacts(users: map<string, string>, contacts: ContactStore, owner: string, rows: seq<string>) {
    NoDup(rows) && forall c :: c in rows <==> c in users && (owner, c) in contacts
  }

  /** The entries for the enumerated rows, in row order. */
  function Entries(users: map<string, string>, contacts: ContactStore, presence: CallService.PresenceStore,
                   owner: string, rows: seq<string>): (r: seq<ContactEntry>)
    requires forall c :: c in rows ==> c in users && (owner, c) in contacts
    ensures |r| == |rows|
    ensures forall i :: 0 <= i < |rows| ==> r[i] == EntryFor(users, contacts, presence, owner, rows[i])
  {
    seq(|rows|, i requires 0 <= i < |rows| => EntryFor(users, contacts, presence, owner, rows[i]))
  }

  /** The owner's contact list with presence, in list order; empty for an unknown owner. */
  function ContactList(users: map<string, string>, contacts: ContactStore, presence: CallService.PresenceStore,
                       owner: string, rows: seq<string>): (r: seq<ContactEntry>)
    requires EnumeratesContacts(users, contacts, owner, rows)
    ensures owner !in users ==> r == []
    ensures owner in users ==> |r| == |rows|
    ensures Sorted(r)
    ensures forall i :: 0 <= i < |r| ==>
      && r[i].username in users && (owner, r[i].username) in contacts
      && r[i] == EntryFor(users, contacts, presence, owner, r[i].username)
      && (r[i].isOnline <==> CallService.IsOnline(presence, r[i].username))
    ensures owner in users ==>
      forall c :: c in users && (owner, c) in contacts ==> EntryFor(users, contacts, presence, owner, c) in r
  {
    if owner !in users then []
    else
      var entries := Entries(users, contacts, presence, owner, rows);
      var r := Sort(entries);
      PermutationSameElements(r, entries);
      EntriesCoverContacts(users, contacts, presence, owner, rows);
      r
  }

  /** Every listed entry is the entry of one of the owner's contacts, and every contact has its entry listed. */
  lemma EntriesCoverContacts(users: map<string, string>, contacts: ContactStore, presence: CallService.PresenceStore,
                             owner: string, rows: seq<string>)
    requires EnumeratesContacts(users, contacts, owner, rows)
    ensures var es := Entries(users, contacts, presence, owner, rows);
      && (forall e :: e in es ==>
            e.username in users && (owner, e.username) in contacts
            && e == EntryFor(users, contacts, presence, owner, e.username))
      && (forall c :: c in users && (owner, c) in contacts ==> EntryFor(users, contacts, presence, owner, c) in es)
  {
    var es := Entries(users, contacts, presence, owner, rows);
    forall c | c in users && (owner, c) in contacts
      ensures EntryFor(users, contacts, presence, owner, c) in es
    {
      var i :| 0 <= i < |rows| && rows[i] == c;
      assert es[i] == EntryFor(users, contacts, presence, owner, c);
    }
  }

  /** The users who have `user` in their own list (the reverse of the relation); empty for an unknown user. */
  function MutualContacts(users: map<string, string>, contacts: ContactStore, user: string): (r: set<string>)
    ensures user !in users ==> r == {}
    ensures user in users ==> forall v :: v in r <==> v in users && (v, user) in contacts
  {
    if user !in users then {}
    else set k | k in contacts && k.1 == user && k.0 in users :: k.0
  }

  /** Contacts of `owner`, counted over the contact rows. */
  function OwnedBy(contacts: ContactStore, owner: string): (r: set<string>)
    ensures forall c :: c in r <==> (owner, c) in contacts
  {
    set k | k in contacts && k.0 == owner :: k.1
  }

  /** The contact counts of a user; nothing for an unknown user. Online contacts are
      those whose presence row says 'online'. */
  function ContactStats(users: map<string, string>, contacts: ContactStore, presence: CallService.PresenceStore,
                        user: string): (r: Option<Stats>)
    ensures r.None? <==> user !in users
    ensures r.Some? ==>
      && r.value.total == |OwnedBy(contacts, user)|
      && r.value.favorite <= r.value.total
      && r.value.online <= r.value.total
      && r.value.favorite == |set c | c in OwnedBy(contacts, user) && contacts[(user, c)].isFavorite|
      && r.value.online == |set c | c in OwnedBy(contacts, user) && CallService.IsOnline(presence, c)|
      && r.value.mutual == |set k | k in contacts && k.1 == user :: k.0|
  {
    if user !in users then None
    else
      var owned := OwnedBy(contacts, user);
      var fav := set c | c in owned && contacts[(user, c)].isFavorite;
      var onl := set c | c in owned && CallService.IsOnline(presence, c);
      SubsetCard(fav, owned);
      SubsetCard(onl, owned);
      Some(Stats(|owned|, |fav|, |onl|, |set k | k in contacts && k.1 == user :: k.0|))
  }

  // ---------------------------------------------------------------------------
  // Properties
  // ---------------------------------------------------------------------------

  /** A sequence without repetition has as many elements as its set. */
  lemma {:induction false} NoDupCard<T>(s: seq<T>)
    requires NoDup(s)
    ensures |set x | x in s| == |s|
  {
    if s != [] {
      var t := s[1..];
      assert NoDup(t) by {
        forall i, j | 0 <= i < j < |t| ensures t[i] != t[j] {
          assert t[i] == s[i + 1] && t[j] == s[j + 1];
        }
      }
      NoDupCard(t);
      assert s[0] !in t by {
        forall j | 0 <= j < |t| ensures t[j] != s[0] {
          assert t[j] == s[j + 1];
        }
      }
      assert (set x | x in s) == (set x | x in t) + {s[0]} by {
        assert s == [s[0]] + t;
      }
    }
  }

  /** When rows refer to existing users, the contact list is as long as the contact count. */
  lemma ListLengthMatchesStats(users: map<string, string>, contacts: ContactStore,
                               presence: CallService.PresenceStore, owner: string, rows: seq<string>)
    requires RowsReferToUsers(users, contacts)
    requires EnumeratesContacts(users, contacts, owner, rows)
    requires owner in users
    ensures |ContactList(users, contacts, presence, owner, rows)| == ContactStats(users, contacts, presence, owner).value.total
  {
    NoDupCard(rows);
    assert (set x | x in rows) == OwnedBy(contacts, owner);
  }

  /** Online contacts come before offline ones, and among contacts of equal presence favourites come first. */
  lemma OnlineThenFavouritesFirst(s: seq<ContactEntry>, i: int, j: int)
    requires Sorted(s) && 0 <= i < j < |s|
    ensures s[j].isOnline ==> s[i].isOnline
    ensures s[i].isOnline == s[j].isOnline && s[j].isFavorite ==> s[i].isFavorite
  {
  }

  /** The reverse view depends only on who added the user, not on the user's own list. */
  lemma MutualIgnoresOwnList(users: map<string, string>, contacts: ContactStore, user: string, c: string, now: int)
    requires c != user
    ensures MutualContacts(users, AddContact(users, contacts, user, c, now).0, user) == MutualContacts(users, contacts, user)
    ensures MutualContacts(users, RemoveContact(users, contacts, user, c).0, user) == MutualContacts(users, contacts, user)
  {
  }

  /** Contacts are directional: adding B to A's list makes A a contact-owner of B but not the reverse. */
  lemma AddIsDirectional(users: map<string, string>, a: string, b: string, now: int)
    requires a in users && b in users && a != b
    ensures var c := AddContact(users, map[], a, b, now).0;
      IsContact(users, c, a, b) && !IsContact(users, c, b, a) && a in MutualContacts(users, c, b)
  {
  }

  /** Adding then removing a new pair restores the store; removing an absent pair succeeds without change. */
  lemma AddThenRemove(users: map<string, string>, contacts: ContactStore, owner: string, c: string, now: int)
    requires owner in users && c in users && (owner, c) !in contacts
    ensures RemoveContact(users, AddContact(users, contacts, owner, c, now).0, owner, c) == (contacts, true)
    ensures RemoveContact(users, contacts, owner, c) == (contacts, true)
  {
    assert AddContact(users, contacts, owner, c, now).0 - {(owner, c)} == contacts;
    assert contacts - {(owner, c)} == contacts;
  }

  /** Adding twice fails the second time without changing anything. */
  lemma AddTwiceFails(users: map<string, string>, contacts: ContactStore, owner: string, c: string, t1: int, t2: int)
    requires AddContact(users, contacts, owner, c, t1).1.Added?
    ensures var c1 := AddContact(users, contacts, owner, c, t1).0;
      AddContact(users, c1, owner, c, t2) == (c1, AlreadyExists)
  {
  }
}

=== FILE: device_ids.dfy ===
/** The TV's device identity: the shareable five-character user id, the UUID
    device id, their validators, and the read-or-create logic over the identity
    files. The file system is an abstract store of optional file contents;
    randomness arrives as parameters. */
module DeviceIds {
  import opened Common

  /** The user-id alphabet: A to Z without O, then 1 to 9. */
  const Alphabet := "ABCDEFGHIJKLMNPQRSTUVWXYZ123456789"
  const UserIdLength := 5

  /** `generateUserId`: `picks` are the five draws of `floor(random() * 34)`. */
  function GenerateUserId(picks: seq<nat>): (id: string)
    requires |picks| == UserIdLength && forall i :: 0 <= i < |picks| ==> picks[i] < |Alphabet|
    ensures |id| == UserIdLength
    ensures forall i :: 0 <= i < |id| ==> id[i] in Alphabet && id[i] == Alphabet[picks[i]]
  {
    seq(UserIdLength, i requires 0 <= i < UserIdLength => Alphabet[picks[i]])
  }

  /** `validateUserId`: exactly five characters from A-Z and 0-9. */
  predicate ValidUserId(s: string) {
    |s| == UserIdLength && forall i :: 0 <= i < |s| ==> IsUpper(s[i]) || IsDigit(s[i])
  }

  /** Positions of the hyphens in a UUID. */
  predicate IsHyphenPosition(i: int) {
    i == 8 || i == 13 || i == 18 || i == 23
  }

  /** `validateDeviceId`: 8-4-4-4-12 hexadecimal digits of either case, joined by hyphens. */
  predicate ValidDeviceId(s: string) {
    |s| == 36 && forall i :: 0 <= i < |s| ==> if IsHyphenPosition(i) then s[i] == '-' else IsHexDigit(s[i])
  }

  predicate AllHex(s: string) {
    forall i :: 0 <= i < |s| ==> IsHexDigit(s[i])
  }

  /** The five groups of a UUID joined by hyphens. */
  function JoinGroups(g1: string, g2: string, g3: string, g4: string, g5: string): string {
    g1 + "-" + g2 + "-" + g3 + "-" + g4 + "-" + g5
  }

  /** The identity files: raw contents, absent when the file does not exist. */
  datatype Files = Files(deviceId: Option<string>, userId: Option<string>, info: Option<InfoFile>)

  /** The device-info file either parses as JSON or does not. */
  datatype InfoFile = Parsed(info: DeviceInfo) | Corrupt

  datatype DeviceInfo = DeviceInfo(deviceId: Option<string>, userId: Option<string>)

  datatype Ensured = Ids(deviceId: string, userId: string) | Failed

  /** `readDeviceId` / `readUserId`: the trimmed contents, or nothing when the file is missing. */
  function ReadId(content: Option<string>): (r: Option<string>)
    ensures r.None? <==> content.None?
    ensures r.Some? ==> r.value == Trim(content.value)
  {
    match content
    case None => None
    case Some(c) => Some(Trim(c))
  }

  /** `createDeviceId`: write both ids and the info file; `mkdirFails` is a failure to create the directory. */
  function CreateIds(files: Files, uuid: string, picks: seq<nat>, mkdirFails: bool): (r: (Ensured, Files))
    requires |picks| == UserIdLength && forall i :: 0 <= i < |picks| ==> picks[i] < |Alphabet|
    ensures mkdirFails ==> r == (Failed, files)
    ensures !mkdirFails ==>
      && r.0 == Ids(uuid, GenerateUserId(picks))
      && r.1 == Files(Some(uuid), Some(GenerateUserId(picks)), Some(Parsed(DeviceInfo(Some(uuid), Some(GenerateUserId(picks))))))
  {
    if mkdirFails then (Failed, files)
    else
      var userId := GenerateUserId(picks);
      (Ids(uuid, userId), Files(Some(uuid), Some(userId), Some(Parsed(DeviceInfo(Some(uuid), Some(userId))))))
  }

  /** `ensureDeviceId`: keep both ids when both read back non-empty, otherwise create both afresh. */
  function EnsureIds(files: Files, uuid: string, picks: seq<nat>, mkdirFails: bool): (r: (Ensured, Files))
    requires |picks| == UserIdLength && forall i :: 0 <= i < |picks| ==> picks[i] < |Alphabet|
    ensures Truthy(ReadId(files.deviceId)) && Truthy(ReadId(files.userId)) ==>
      r == (Ids(ReadId(files.deviceId).value, ReadId(files.userId).value), files)
    ensures !(Truthy(ReadId(files.deviceId)) && Truthy(ReadId(files.userId))) ==>
      r == CreateIds(files, uuid, picks, mkdirFails)
  {
    var deviceId := ReadId(files.deviceId);
    var userId := ReadId(files.userId);
    if Truthy(deviceId) && Truthy(userId) then (Ids(deviceId.value, userId.value), files)
    else CreateIds(files, uuid, picks, mkdirFails)
  }

  /** `getDeviceInfo`: the info file when it exists and parses; without it, whichever ids
      read back non-empty; nothing otherwise. */
  function GetDeviceInfo(files: Files): (r: Option<DeviceInfo>)
    ensures files.info.Some? && files.info.value.Parsed? ==> r == Some(files.info.value.info)
    ensures files.info.Some? && files.info.value.Corrupt? ==> r.None?
    ensures files.info.None? ==>
      (r.Some? <==> Truthy(ReadId(files.deviceId)) || Truthy(ReadId(files.userId)))
    ensures files.info.None? && r.Some? ==> r.value == DeviceInfo(ReadId(files.deviceId), ReadId(files.userId))
  {
    match files.info
    case Some(Parsed(info)) => Some(info)
    case Some(Corrupt) => None
    case None =>
      var deviceId := ReadId(files.deviceId);
      var userId := ReadId(files.userId);
      if Truthy(deviceId) || Truthy(userId) then Some(DeviceInfo(deviceId, userId)) else None
  }

  // ---------------------------------------------------------------------------
  // Properties
  // ---------------------------------------------------------------------------

  /** Every generated user id passes the user-id validator and avoids the letter O and the digit 0. */
  lemma GeneratedUserIdValid(picks: seq<nat>)
    requires |picks| == UserIdLength && forall i :: 0 <= i < |picks| ==> picks[i] < |Alphabet|
    ensures ValidUserId(GenerateUserId(picks))
    ensures 'O' !in GenerateUserId(picks) && '0' !in GenerateUserId(picks)
  {
    var id := GenerateUserId(picks);
    forall i | 0 <= i < |id| ensures (IsUpper(id[i]) || IsDigit(id[i])) && id[i] != 'O' && id[i] != '0' {
      AlphabetChar(picks[i]);
    }
  }

  lemma AlphabetChar(k: nat)
    requires k < |Alphabet|
    ensures IsUpper(Alphabet[k]) || IsDigit(Alphabet[k])
    ensures Alphabet[k] != 'O' && Alphabet[k] != '0'
  {
  }

  /** The alphabet has no repeated character, so distinct draws give distinct ids. */
  lemma GenerateUserIdInjective(p: seq<nat>, q: seq<nat>)
    requires |p| == UserIdLength && forall i :: 0 <= i < |p| ==> p[i] < |Alphabet|
    requires |q| == UserIdLength && forall i :: 0 <= i < |q| ==> q[i] < |Alphabet|
    requires GenerateUserId(p) == GenerateUserId(q)
    ensures p == q
  {
    forall i | 0 <= i < UserIdLength ensures p[i] == q[i] {
      assert GenerateUserId(p)[i] == GenerateUserId(q)[i];
      AlphabetDistinct(p[i], q[i]);
    }
  }

  /** The code point at each alphabet position: A to N, then P to Z, then 1 to 9. */
  function AlphabetCode(k: nat): int {
    if k < 14 then 'A' as int + k
    else if k < 25 then 'A' as int + k + 1
    else '1' as int + (k - 25)
  }

  lemma AlphabetCodes()
    ensures forall k :: 0 <= k < |Alphabet| ==> Alphabet[k] as int == AlphabetCode(k)
  {
    assert Alphabet == seq(34, k requires 0 <= k < 34 => AlphabetCode(k) as char);
  }

  lemma AlphabetDistinct(j: nat, k: nat)
    requires j < |Alphabet| && k < |Alphabet| && Alphabet[j] == Alphabet[k]
    ensures j == k
  {
    AlphabetCodes();
  }

  /** A UUID is exactly five hexadecimal groups of 8, 4, 4, 4 and 12 digits joined by hyphens. */
  lemma GroupsFormDeviceId(g1: string, g2: string, g3: string, g4: string, g5: string)
    requires |g1| == 8 && |g2| == 4 && |g3| == 4 && |g4| == 4 && |g5| == 12
    requires AllHex(g1) && AllHex(g2) && AllHex(g3) && AllHex(g4) && AllHex(g5)
    ensures ValidDeviceId(JoinGroups(g1, g2, g3, g4, g5))
  {
    var s := JoinGroups(g1, g2, g3, g4, g5);
    forall i | 0 <= i < |s| ensures if IsHyphenPosition(i) then s[i] == '-' else IsHexDigit(s[i]) {
      if i < 8 { assert s[i] == g1[i]; }
      else if i == 8 { }
      else if i < 13 { assert s[i] == g2[i - 9]; }
      else if i == 13 { }
      else if i < 18 { assert s[i] == g3[i - 14]; }
      else if i == 18 { }
      else if i < 23 { assert s[i] == g4[i - 19]; }
      else if i == 23 { }
      else { assert s[i] == g5[i - 24]; }
    }
  }

  lemma DeviceIdSplitsIntoGroups(s: string)
    requires ValidDeviceId(s)
    ensures s == JoinGroups(s[..8], s[9..13], s[14..18], s[19..23], s[24..])
    ensures AllHex(s[..8]) && AllHex(s[9..13]) && AllHex(s[14..18]) && AllHex(s[19..23]) && AllHex(s[24..])
  {
    assert s == s[..8] + [s[8]] + s[9..13] + [s[13]] + s[14..18] + [s[18]] + s[19..23] + [s[23]] + s[24..];
    forall i | 0 <= i < 8 ensures IsHexDigit(s[..8][i]) { assert !IsHyphenPosition(i); }
    forall i | 0 <= i < 4 ensures IsHexDigit(s[9..13][i]) { assert !IsHyphenPosition(9 + i); }
    forall i | 0 <= i < 4 ensures IsHexDigit(s[14..18][i]) { assert !IsHyphenPosition(14 + i); }
    forall i | 0 <= i < 4 ensures IsHexDigit(s[19..23][i]) { assert !IsHyphenPosition(19 + i); }
    forall i | 0 <= i < 12 ensures IsHexDigit(s[24..][i]) { assert !IsHyphenPosition(24 + i); }
  }

  /** Once created, the ids are kept: a second `ensureDeviceId` returns the same pair and writes nothing. */
  lemma EnsureIsStable(files: Files, uuid: string, picks: seq<nat>, mkdirFails: bool,
                       uuid2: string, picks2: seq<nat>, mkdirFails2: bool)
    requires |picks| == UserIdLength && forall i :: 0 <= i < |picks| ==> picks[i] < |Alphabet|
    requires |picks2| == UserIdLength && forall i :: 0 <= i < |picks2| ==> picks2[i] < |Alphabet|
    requires ValidDeviceId(uuid)
    ensures EnsureIds(files, uuid, picks, mkdirFails).0.Ids? ==>
      var r := EnsureIds(files, uuid, picks, mkdirFails);
      EnsureIds(r.1, uuid2, picks2, mkdirFails2) == r
  {
    if !(Truthy(ReadId(files.deviceId)) && Truthy(ReadId(files.userId))) && !mkdirFails {
      GeneratedUserIdValid(picks);
      StoredIdsKept(uuid, GenerateUserId(picks), Some(Parsed(DeviceInfo(Some(uuid), Some(GenerateUserId(picks))))),
                    uuid2, picks2, mkdirFails2);
    }
  }

  /** Stored ids that read back non-empty are returned as they are. */
  lemma StoredIdsKept(deviceId: string, userId: string, info: Option<InfoFile>,
                      uuid: string, picks: seq<nat>, mkdirFails: bool)
    requires |picks| == UserIdLength && forall i :: 0 <= i < |picks| ==> picks[i] < |Alphabet|
    requires ValidDeviceId(deviceId) && ValidUserId(userId)
    ensures var files := Files(Some(deviceId), Some(userId), info);
      EnsureIds(files, uuid, picks, mkdirFails) == (Ids(deviceId, userId), files)
  {
    ReadBackUnchanged(deviceId);
    ReadBackUnchanged(userId);
  }

  /** An id without whitespace at its ends reads back exactly as written. */
  lemma ReadBackUnchanged(s: string)
    requires ValidDeviceId(s) || ValidUserId(s)
    ensures ReadId(Some(s)) == Some(s) && Truthy(ReadId(Some(s)))
  {
    assert !IsSpace(s[0]) && !IsSpace(s[|s| - 1]);
    assert TrimStart(s, IsSpace) == s;
    assert TrimEnd(s, IsSpace) == s;
  }

  /** With neither id file nor info file there is no device information. */
  lemma NothingStoredNoInfo()
    ensures GetDeviceInfo(Files(None, None, None)).None?
    ensures GetDeviceInfo(Files(Some(" \n"), None, None)).None?
  {
    assert Trim(" \n") == "";
  }
}

=== FILE: keyboard.dfy ===
/** The TV UI's on-screen keyboard: three layouts, the shift state, and the
    editing of the target text field's value and selection. A text field is its
    value and selection bounds; the DOM rendering is left out. */
module Keyboard {
  import opened Common

  datatype Layout = Lowercase | Uppercase | Symbols

  /** A text field: its value and the selection `[selStart, selEnd)`; a caret has equal bounds. */
  datatype Field = Field(value: string, selStart: nat, selEnd: nat)

  datatype Keyboard = Keyboard(visible: bool, target: Option<Field>, layout: Layout, shift: bool)

  /** The keys with an action of their own; any other key types its label. */
  const SpecialKeys: set<string> := {"shift", "backspace", "space", "done", "symbols", "letters"}

  /** The keyboard as constructed: hidden, lowercase, no target. */
  const Initial := Keyboard(false, None, Lowercase, false)

  /** The browser keeps a field's selection ordered and inside its value. */
  predicate ValidSelection(f: Field) {
    f.selStart <= f.selEnd <= |f.value|
  }

  /** The uppercase layout is shown exactly while shift is held among the letter layouts. */
  predicate ShiftConsistent(k: Keyboard) {
    (k.layout == Uppercase ==> k.shift) && (k.layout == Lowercase ==> !k.shift)
  }

  predicate TargetValid(k: Keyboard) {
    k.target.Some? ==> ValidSelection(k.target.value)
  }

  /** The selection bounds the handlers use: a bound of 0 reads as the end of the
      value, because the handlers fall back with `||` on a falsy bound. */
  function EffectiveStart(f: Field): (s: nat)
    ensures f.selStart > 0 ==> s == f.selStart
    ensures f.selStart == 0 ==> s == |f.value|
  {
    if f.selStart != 0 then f.selStart else |f.value|
  }

  function EffectiveEnd(f: Field): (e: nat)
    ensures f.selEnd > 0 ==> e == f.selEnd
    ensures f.selEnd == 0 ==> e == |f.value|
  {
    if f.selEnd != 0 then f.selEnd else |f.value|
  }

  /** Replace the (effective) selection by `text` and put the caret after it. */
  function InsertText(f: Field, text: string): (r: Field)
    requires ValidSelection(f)
    ensures ValidSelection(r)
    ensures r.selStart == r.selEnd == EffectiveStart(f) + |text|
    ensures r.value[..EffectiveStart(f)] == f.value[..EffectiveStart(f)]
    ensures r.value[EffectiveStart(f)..r.selStart] == text
    ensures r.value[r.selStart..] == f.value[EffectiveEnd(f)..]
  {
    var s := EffectiveStart(f);
    var e := EffectiveEnd(f);
    var v := f.value[..s] + text + f.value[e..];
    assert v[..s] == f.value[..s];
    assert v[s..s + |text|] == text;
    assert v[s + |text|..] == f.value[e..];
    Field(v, s + |text|, s + |text|)
  }

  /** Delete the (effective) selection, or else the character before the caret. */
  function Backspace(f: Field): (r: Field)
    requires ValidSelection(f)
    ensures var s, e := EffectiveStart(f), EffectiveEnd(f);
      && (s != e ==> r == Field(f.value[..s] + f.value[e..], s, s))
      && (s == e && s > 0 ==> r == Field(f.value[..s - 1] + f.value[s..], s - 1, s - 1))
      && (s == e == 0 ==> r == f)
  {
    var s := EffectiveStart(f);
    var e := EffectiveEnd(f);
    if s != e then Field(f.value[..s] + f.value[e..], s, s)
    else if s > 0 then Field(f.value[..s - 1] + f.value[s..], s - 1, s - 1)
    else f
  }

  /** `switchLayout`: the letter layouts also set the shift state to match. */
  function SwitchLayout(k: Keyboard, l: Layout): (r: Keyboard)
    ensures r.layout == l && r.visible == k.visible && r.target == k.target
    ensures ShiftConsistent(r)
    ensures l == Symbols ==> r.shift == k.shift
  {
    match l
    case Uppercase => k.(layout := Uppercase, shift := true)
    case Lowercase => k.(layout := Lowercase, shift := false)
    case Symbols => k.(layout := Symbols)
  }

  /** `toggleShift`: flip shift; among the letter layouts also swap the case. */
  function ToggleShift(k: Keyboard): (r: Keyboard)
    ensures ShiftConsistent(k) ==> r.shift == !k.shift
    ensures k.layout == Symbols ==> r == k.(shift := !k.shift)
    ensures k.layout == Lowercase ==> r.layout == Uppercase
    ensures k.layout == Uppercase ==> r.layout == Lowercase
    ensures ShiftConsistent(k) ==> ShiftConsistent(r)
  {
    var flipped := k.(shift := !k.shift);
    if k.layout == Lowercase then SwitchLayout(flipped, Uppercase)
    else if k.layout == Uppercase then SwitchLayout(flipped, Lowercase)
    else flipped
  }

  /** A click on a key of the current layout. */
  function HandleKeyPress(k: Keyboard, key: string): (r: Keyboard)
    requires TargetValid(k)
    ensures k.target.None? ==> r == k
    ensures TargetValid(r)
    ensures ShiftConsistent(k) ==> ShiftConsistent(r)
    ensures k.target.Some? && key == "letters" ==> r.layout == (if k.shift then Uppercase else Lowercase)
    ensures k.target.Some? && key == "symbols" ==> r.layout == Symbols && r.shift == k.shift
    ensures k.target.Some? && key == "done" ==> !r.visible && r.target.None?
    ensures k.target.Some? && key == "done" ==> r.layout == k.layout && r.shift == k.shift
    ensures k.target.Some? && key in {"letters", "symbols"} ==> r.target == k.target && r.visible == k.visible
    ensures k.target.Some? && key == "shift" ==> r == ToggleShift(k)
    ensures k.target.Some? && key == "backspace" ==> r == k.(target := Some(Backspace(k.target.value)))
    ensures k.target.Some? && key == "space" ==> r == k.(target := Some(InsertText(k.target.value, " ")))
    ensures k.target.Some? && key !in SpecialKeys ==>
      r.target == Some(InsertText(k.target.value, key)) && r.visible == k.visible
  {
    match k.target
    case None => k
    case Some(f) =>
      match key
      case "shift" => ToggleShift(k)
      case "backspace" => k.(target := Some(Backspace(f)))
      case "space" => k.(target := Some(InsertText(f, " ")))
      case "done" => Hide(k)
      case "symbols" => SwitchLayout(k, Symbols)
      case "letters" => SwitchLayout(k, if k.shift then Uppercase else Lowercase)
      case _ =>
        var typed := k.(target := Some(InsertText(f, key)));
        if typed.shift && typed.layout != Symbols then ToggleShift(typed) else typed
  }

  /** `show`: attach to a field and reset to lowercase with shift off. */
  function Show(k: Keyboard, f: Field): (r: Keyboard)
    ensures r == Keyboard(true, Some(f), Lowercase, false)
    ensures ShiftConsistent(r)
  {
    Keyboard(true, Some(f), Lowercase, false)
  }

  /** `hide`: detach from the field; layout and shift are kept. */
  function Hide(k: Keyboard): (r: Keyboard)
    ensures !r.visible && r.target.None?
    ensures r.layout == k.layout && r.shift == k.shift
  {
    k.(visible := false, target := None)
  }

  // ---------------------------------------------------------------------------
  // Properties
  // ---------------------------------------------------------------------------

  /** In the uppercase layout a typed key is inserted as it is and the keyboard drops back to lowercase;
      in the symbols layout the shift state survives typing. */
  lemma TypingReleasesShift(k: Keyboard, key: string)
    requires TargetValid(k) && k.target.Some?
    requires key !in {"shift", "backspace", "space", "done", "symbols", "letters"}
    ensures var r := HandleKeyPress(k, key);
      && r.target == Some(InsertText(k.target.value, key))
      && (k.layout == Uppercase && k.shift ==> r.layout == Lowercase && !r.shift)
      && (k.layout == Symbols ==> r.layout == Symbols && r.shift == k.shift)
  {
  }

  /** Typing a character at a caret after the start and then pressing backspace
      restores the field exactly. */
  lemma InsertThenBackspace(f: Field, c: char)
    requires ValidSelection(f) && 0 < f.selStart == f.selEnd
    ensures Backspace(InsertText(f, [c])) == f
  {
    var g := InsertText(f, [c]);
    var s := f.selStart;
    assert g.value == f.value[..s] + [c] + f.value[s..];
    assert g.value[..s] + g.value[s + 1..] == f.value;
  }

  /** A caret at the very start counts as the end: typing appends and backspace
      deletes the last character. */
  lemma CaretAtStartActsAtEnd(v: string, c: char)
    requires v != ""
    ensures InsertText(Field(v, 0, 0), [c]).value == v + [c]
    ensures Backspace(Field(v, 0, 0)).value == v[..|v| - 1]
  {
  }

  /** A selection that starts at 0 but not at the end makes the start read as the end
      while the end bound stays: typing over "ab" in "abc" gives "abcXc", not "Xc". */
  lemma SelectionFromStartDuplicates()
    ensures InsertText(Field("abc", 0, 2), "X").value == "abcXc"
    ensures Backspace(Field("abc", 0, 2)).value == "abcc"
  {
    assert "abc"[..3] + "X" + "abc"[2..] == "abcXc";
    assert "abc"[..3] + "abc"[2..] == "abcc";
  }

  /** Show and every key keep the shift state consistent with the layout. */
  lemma ShiftInvariantHolds(k: Keyboard, f: Field, keys: seq<string>)
    requires ValidSelection(f)
    ensures ShiftConsistent(Press(Show(k, f), keys))
  {
    PressKeepsInvariant(Show(k, f), keys);
  }

  /** The keyboard after a sequence of key presses. */
  function Press(k: Keyboard, keys: seq<string>): (r: Keyboard)
    requires TargetValid(k)
    ensures TargetValid(r)
    decreases |keys|
  {
    if keys == [] then k else Press(HandleKeyPress(k, keys[0]), keys[1..])
  }

  lemma {:induction false} PressKeepsInvariant(k: Keyboard, keys: seq<string>)
    requires TargetValid(k) && ShiftConsistent(k)
    ensures ShiftConsistent(Press(k, keys))
    decreases |keys|
  {
    if keys != [] {
      PressKeepsInvariant(HandleKeyPress(k, keys[0]), keys[1..]);
    }
  }
}

=== FILE: remote_control.dfy ===
/** The older mobile remote's connection service: connection flags, the linear
    reconnect rule with five attempts, and the reducer that mirrors the TV's app
    state from server messages. Socket callbacks and expired timers are events;
    message fields are kept as strings. */
module RemoteControl {
  import opened Common

  const MaxReconnectAttempts := 5
  const ReconnectStepMs := 2000

  datatype Device = Device(host: string, port: int)

  /** The `callData` object: empty at first, then the six fields of the last video-call update. */
  datatype CallData =
    | NoCallData
    | CallData(userName: string, roomName: string, callTimer: string,
               participantCount: string, isMuted: string, isVideoOn: string)

  datatype AppState = AppState(currentApp: string, videoCallState: string, callData: CallData)

  const InitialAppState := AppState("homepage", "disconnected", NoCallData)

  datatype Rc = Rc(
    hasSocket: bool,
    isConnected: bool,
    currentDevice: Option<Device>,
    reconnectAttempts: nat,
    appState: AppState)

  const Initial := Rc(false, false, None, 0, InitialAppState)

  datatype Message =
    | ConnectedMsg(carried: Option<AppState>)
    | AppStateChange(currentApp: string, videoCallState: string)
    | VideoCallUpdate(state: string, data: CallData)
    | ShowTextInput
    | AppStateMsg
    | PageChanged
    | UnknownMsg

  /** What a step tells the state-change callback, or the reconnect it schedules. */
  datatype Effect =
    | NoEffect
    | Notify(kind: string)
    | NotifyAndRetry(delayMs: int, device: Device)

  /** `disconnect`: drop the socket, the device and the attempt count. */
  function Disconnect(s: Rc): (r: Rc)
    ensures !r.hasSocket && !r.isConnected && r.currentDevice.None? && r.reconnectAttempts == 0
    ensures r.appState == s.appState
  {
    Rc(false, false, None, 0, s.appState)
  }

  /** `connect`: first disconnect a live connection, then open a socket to `d`. */
  function Connect(s: Rc, d: Device): (r: Rc)
    ensures r.hasSocket && r.currentDevice == Some(d) && r.appState == s.appState
    ensures s.hasSocket && s.isConnected ==> !r.isConnected && r.reconnectAttempts == 0
    ensures !(s.hasSocket && s.isConnected) ==> r.isConnected == s.isConnected && r.reconnectAttempts == s.reconnectAttempts
  {
    var t := if s.hasSocket && s.isConnected then Disconnect(s) else s;
    t.(hasSocket := true, currentDevice := Some(d))
  }

  /** The socket's `onopen`. */
  function Opened(s: Rc): (r: Rc)
    ensures r.isConnected && r.reconnectAttempts == 0
    ensures r.hasSocket == s.hasSocket && r.currentDevice == s.currentDevice && r.appState == s.appState
  {
    s.(isConnected := true, reconnectAttempts := 0)
  }

  /** The `onclose` of a socket opened for `d`: a retry is scheduled while fewer than five were
      made, after two seconds per attempt so far. */
  function Closed(s: Rc, d: Device): (r: (Rc, Effect))
    ensures !r.0.isConnected
    ensures s.reconnectAttempts < MaxReconnectAttempts ==>
      r.0.reconnectAttempts == s.reconnectAttempts + 1
      && r.1 == NotifyAndRetry(ReconnectStepMs * r.0.reconnectAttempts, d)
    ensures s.reconnectAttempts >= MaxReconnectAttempts ==>
      r.0.reconnectAttempts == s.reconnectAttempts && r.1 == Notify("disconnected")
  {
    var t := s.(isConnected := false);
    if s.reconnectAttempts < MaxReconnectAttempts then
      var n := s.reconnectAttempts + 1;
      (t.(reconnectAttempts := n), NotifyAndRetry(ReconnectStepMs * n, d))
    else (t, Notify("disconnected"))
  }

  /** `sendCommand`'s guard. */
  function SendCommand(s: Rc): (sent: bool)
    ensures sent <==> s.isConnected && s.hasSocket
  {
    !(!s.isConnected || !s.hasSocket)
  }

  /** `handleServerMessage`: the app-state reducer and the notification it raises. */
  function HandleMessage(a: AppState, m: Message): (r: (AppState, Effect))
    ensures m.ConnectedMsg? ==> r.0 == (if m.carried.Some? then m.carried.value else a) && r.1 == NoEffect
    ensures m.AppStateChange? ==>
      r.0.currentApp == m.currentApp && r.0.videoCallState == m.videoCallState && r.0.callData == a.callData
    ensures m.VideoCallUpdate? ==>
      r.0.videoCallState == m.state && r.0.callData == m.data && r.0.currentApp == a.currentApp
    ensures !(m.ConnectedMsg? || m.AppStateChange? || m.VideoCallUpdate?) ==> r.0 == a
    ensures m.AppStateChange? ==> r.1 == Notify("app_state_change")
    ensures m.VideoCallUpdate? ==> r.1 == Notify("video_call_update")
    ensures m.ShowTextInput? ==> r.1 == Notify("show_text_input")
    ensures m.AppStateMsg? ==> r.1 == Notify("app_state")
    ensures m.PageChanged? ==> r.1 == Notify("page_changed")
    ensures m.UnknownMsg? ==> r.1 == NoEffect
  {
    match m
    case ConnectedMsg(carried) =>
      (if carried.Some? then carried.value else a, NoEffect)
    case AppStateChange(app, callState) =>
      (a.(currentApp := app, videoCallState := callState), Notify("app_state_change"))
    case VideoCallUpdate(callState, data) =>
      (a.(videoCallState := callState, callData := data), Notify("video_call_update"))
    case ShowTextInput => (a, Notify("show_text_input"))
    case AppStateMsg => (a, Notify("app_state"))
    case PageChanged => (a, Notify("page_changed"))
    case UnknownMsg => (a, NoEffect)
  }

  // ---------------------------------------------------------------------------
  // Properties
  // ---------------------------------------------------------------------------

  /** The state after `k` closes with no open in between. */
  function Closes(s: Rc, d: Device, k: nat): (r: Rc)
    decreases k
  {
    if k == 0 then s else Closed(Closes(s, d, k - 1), d).0
  }

  /** From a fresh count, the first five closes each schedule a retry two seconds later than the
      one before, and the count then stays at five. */
  lemma {:induction false} RetriesStopAtFive(s: Rc, d: Device, k: nat)
    requires s.reconnectAttempts == 0
    ensures Closes(s, d, k).reconnectAttempts == Min(k, MaxReconnectAttempts)
    ensures k < MaxReconnectAttempts ==> Closed(Closes(s, d, k), d).1 == NotifyAndRetry(ReconnectStepMs * (k + 1), d)
    ensures k >= MaxReconnectAttempts ==> Closed(Closes(s, d, k), d).1 == Notify("disconnected")
    decreases k
  {
    if k > 0 {
      RetriesStopAtFive(s, d, k - 1);
    }
  }

  /** An explicit disconnect resets the count, so the close of the socket it shuts still
      schedules a retry to the same device. */
  lemma DisconnectStillRetries(s: Rc, d: Device)
    ensures Closed(Disconnect(s), d).1 == NotifyAndRetry(ReconnectStepMs, d)
  {
  }

  /** An open after any number of closes restores the full allowance of retries. */
  lemma OpenRestoresRetries(s: Rc, d: Device)
    ensures Closed(Opened(s), d).1 == NotifyAndRetry(ReconnectStepMs, d)
    ensures SendCommand(Opened(s)) == s.hasSocket
  {
  }

  /** A close always leaves the service unable to send. */
  lemma NoCommandsAfterClose(s: Rc, d: Device)
    ensures !SendCommand(Closed(s, d).0)
    ensures !SendCommand(Disconnect(s))
  {
  }

  /** Every message is idempotent on the mirrored app state. */
  lemma HandleIdempotent(a: AppState, m: Message)
    ensures HandleMessage(HandleMessage(a, m).0, m) == HandleMessage(a, m)
  {
  }

  /** An app change and a call update touch disjoint fields apart from the call state, so in
      either order the app comes from the first and the call data from the second, and the
      call state from whichever came last. */
  lemma ChangeAndUpdateCompose(a: AppState, app: string, s1: string, s2: string, data: CallData)
    ensures var x := HandleMessage(HandleMessage(a, AppStateChange(app, s1)).0, VideoCallUpdate(s2, data)).0;
      x == AppState(app, s2, data)
    ensures var y := HandleMessage(HandleMessage(a, VideoCallUpdate(s2, data)).0, AppStateChange(app, s1)).0;
      y == AppState(app, s1, data)
  {
  }
}

=== FILE: smarttv_service.dfy ===
/** The mobile remote's connection service to the TV: connect and disconnect
    flags, the exponential reconnect backoff with a cap on attempts, and the
    guard on sending commands. Socket callbacks and timer expiries are events;
    each carries the outcome the network would produce. A reconnect attempt,
    including the connection it awaits, is one atomic step: no other event is
    interleaved while `attemptReconnect` waits for `connectWebSocket`. */
module SmartTvService {
  import opened Common

  const MaxReconnectAttempts := 10
  const BaseDelayMs := 1000
  const MaxDelayMs := 30000

  /** `socketOpen` stands for the socket `this.ws` being present with ready state OPEN, which
      `sendCommand` and `forceReconnect` consult; every step sets it together with `connected`
      (see `SocketTracksConnected`). `armedTimers` counts reconnect timers that are set and
      have not fired or been cleared. */
  datatype Svc = Svc(
    connected: bool,
    socketOpen: bool,
    hasTv: bool,
    reconnectAttempts: nat,
    isReconnecting: bool,
    shouldReconnect: bool,
    armedTimers: nat)

  const Initial := Svc(false, false, false, 0, false, true, 0)

  /** What a step reports to the connection listeners, or the reconnect it schedules. */
  datatype Effect = NoEffect | Connected | ConnectFailed | Scheduled(delayMs: int) | Reconnected | GaveUp | Disconnected

  datatype Event =
    | Connect(opens: bool)
    | SocketClosed
    | TimerFired(opens: bool)
    | ForceReconnect(opens: bool)
    | Disconnect

  function Pow2(n: nat): (p: nat)
    ensures p >= 1
  {
    if n == 0 then 1 else 2 * Pow2(n - 1)
  }

  /** `min(1000 * 2^attempts, 30000)` milliseconds. */
  function ReconnectDelay(attempts: nat): (d: int)
    ensures 0 < d <= MaxDelayMs
    ensures d == MaxDelayMs || d == BaseDelayMs * Pow2(attempts)
  {
    Min(BaseDelayMs * Pow2(attempts), MaxDelayMs)
  }

  /** `getReadyStateText`. */
  function ReadyStateText(state: int): (t: string)
    ensures 0 <= state <= 3 ==> t == ["CONNECTING", "OPEN", "CLOSING", "CLOSED"][state]
    ensures !(0 <= state <= 3) ==> t == "UNKNOWN"
  {
    match state
    case 0 => "CONNECTING"
    case 1 => "OPEN"
    case 2 => "CLOSING"
    case 3 => "CLOSED"
    case _ => "UNKNOWN"
  }

  /** `scheduleReconnect`: arm one timer unless already reconnecting or told not to. */
  function ScheduleReconnect(s: Svc): (r: (Svc, Effect))
    ensures s.isReconnecting || !s.shouldReconnect ==> r == (s, NoEffect)
    ensures !s.isReconnecting && s.shouldReconnect ==>
      r == (s.(isReconnecting := true, armedTimers := s.armedTimers + 1), Scheduled(ReconnectDelay(s.reconnectAttempts)))
  {
    if s.isReconnecting || !s.shouldReconnect then (s, NoEffect)
    else (s.(isReconnecting := true, armedTimers := s.armedTimers + 1), Scheduled(ReconnectDelay(s.reconnectAttempts)))
  }

  /** `attemptReconnect`; `opens` is whether the new socket opens. */
  function AttemptReconnect(s: Svc, opens: bool): (r: (Svc, Effect))
    ensures !s.shouldReconnect ==> r == (s.(isReconnecting := false), NoEffect)
    ensures s.shouldReconnect && !s.connected ==>
      r.0.reconnectAttempts == (if r.0.connected then 0 else s.reconnectAttempts + 1)
    ensures s.shouldReconnect && s.reconnectAttempts + 1 > MaxReconnectAttempts ==>
      r == (s.(reconnectAttempts := s.reconnectAttempts + 1, isReconnecting := false), GaveUp)
    ensures r.0.connected && !s.connected ==> s.shouldReconnect && s.reconnectAttempts < MaxReconnectAttempts && opens
    ensures r.0.connected && !s.connected ==> !r.0.isReconnecting && r.1 == Reconnected
    ensures s.shouldReconnect && s.reconnectAttempts < MaxReconnectAttempts && !opens ==>
      r == (s.(reconnectAttempts := s.reconnectAttempts + 1, isReconnecting := true, armedTimers := s.armedTimers + 1),
            Scheduled(ReconnectDelay(s.reconnectAttempts + 1)))
    ensures r.0.armedTimers <= s.armedTimers + 1
  {
    if !s.shouldReconnect then (s.(isReconnecting := false), NoEffect)
    else
      var attempts := s.reconnectAttempts + 1;
      if attempts > MaxReconnectAttempts then (s.(reconnectAttempts := attempts, isReconnecting := false), GaveUp)
      else if opens then (s.(connected := true, socketOpen := true, reconnectAttempts := 0, isReconnecting := false), Reconnected)
      else ScheduleReconnect(s.(reconnectAttempts := attempts, isReconnecting := false))
  }

  /** The socket's `onclose`: mark disconnected and schedule a reconnect unless one is under way
      or reconnecting was switched off. */
  function OnClose(s: Svc): (r: (Svc, Effect))
    ensures !r.0.connected && !r.0.socketOpen
    ensures r.0.shouldReconnect == s.shouldReconnect && r.0.reconnectAttempts == s.reconnectAttempts
    ensures r.1 != NoEffect <==> s.shouldReconnect && !s.isReconnecting
    ensures r.1 != NoEffect ==> r.1 == Scheduled(ReconnectDelay(s.reconnectAttempts)) && r.0.isReconnecting
  {
    var t := s.(connected := false, socketOpen := false);
    if s.shouldReconnect && !s.isReconnecting then ScheduleReconnect(t) else (t, NoEffect)
  }

  function Step(s: Svc, e: Event): (r: (Svc, Effect))
    ensures e.Connect? ==> r.0.shouldReconnect && r.0.reconnectAttempts == 0 && r.0.connected == e.opens
    ensures e.Disconnect? ==>
      !r.0.shouldReconnect && !r.0.connected && !r.0.isReconnecting && r.0.reconnectAttempts == 0 && !r.0.hasTv
    ensures e.SocketClosed? ==> !r.0.connected && !r.0.socketOpen
    ensures e.SocketClosed? && (s.isReconnecting || !s.shouldReconnect) ==> r.1 == NoEffect
    ensures e.Connect? ==> r.0.hasTv && r.1 == (if e.opens then Connected else ConnectFailed)
    ensures e.Disconnect? ==> r.1 == Disconnected && !r.0.socketOpen
    ensures e.Disconnect? ==>
      r.0.armedTimers == (if s.isReconnecting && s.armedTimers > 0 then s.armedTimers - 1 else s.armedTimers)
    ensures e.SocketClosed? ==> r == OnClose(s)
    ensures e.TimerFired? && s.armedTimers == 0 ==> r == (s, NoEffect)
    ensures e.TimerFired? && s.armedTimers > 0 ==> r == AttemptReconnect(s.(armedTimers := s.armedTimers - 1), e.opens)
    ensures e.ForceReconnect? && s.connected && s.socketOpen ==> r == OnClose(s)
    ensures e.ForceReconnect? && !(s.connected && s.socketOpen) ==> r == AttemptReconnect(s, e.opens)
  {
    match e
    case Connect(opens) =>
      var t := s.(hasTv := true, shouldReconnect := true, reconnectAttempts := 0);
      if opens then (t.(connected := true, socketOpen := true), Connected)
      else (t.(connected := false, socketOpen := false), ConnectFailed)
    case SocketClosed => OnClose(s)
    case TimerFired(opens) =>
      if s.armedTimers == 0 then (s, NoEffect)
      else AttemptReconnect(s.(armedTimers := s.armedTimers - 1), opens)
    case ForceReconnect(opens) =>
      if s.connected && s.socketOpen then OnClose(s)
      else AttemptReconnect(s, opens)
    case Disconnect =>
      var cleared := s.(armedTimers := if s.isReconnecting && s.armedTimers > 0 then s.armedTimers - 1 else s.armedTimers);
      (cleared.(shouldReconnect := false, isReconnecting := false, connected := false, socketOpen := false,
                hasTv := false, reconnectAttempts := 0), Disconnected)
  }

  /** The socket is open exactly while the service is connected, in every state reachable by steps. */
  lemma SocketTracksConnected(s: Svc, e: Event)
    requires s.connected == s.socketOpen
    ensures Step(s, e).0.connected == Step(s, e).0.socketOpen
  {
  }

  /** `sendCommand`: a command is sent only while connected over an open socket. */
  function SendCommand(s: Svc): (sent: bool)
    ensures sent <==> s.connected && s.socketOpen
  {
    !(!s.connected || !s.socketOpen)
  }

  function Run(s: Svc, events: seq<Event>): (r: Svc)
    decreases |events|
  {
    if events == [] then s else Run(Step(s, events[0]).0, events[1..])
  }

  // ---------------------------------------------------------------------------
  // Properties
  // ---------------------------------------------------------------------------

  /** The backoff never exceeds thirty seconds and never shrinks as attempts grow. */
  lemma {:induction false} DelayMonotone(a: nat, b: nat)
    requires a <= b
    ensures ReconnectDelay(a) <= ReconnectDelay(b) <= MaxDelayMs
    decreases b - a
  {
    if a < b {
      DelayMonotone(a + 1, b);
      assert Pow2(a + 1) == 2 * Pow2(a);
    }
  }

  /** The first delays double from one second, and the cap is reached at the fifth attempt. */
  lemma DelayValues()
    ensures ReconnectDelay(0) == 1000 && ReconnectDelay(1) == 2000 && ReconnectDelay(4) == 16000
    ensures forall a: nat :: a >= 5 ==> ReconnectDelay(a) == MaxDelayMs
  {
    forall a: nat | a >= 5 ensures ReconnectDelay(a) == MaxDelayMs {
      Pow2AtLeast(a);
    }
  }

  lemma {:induction false} Pow2AtLeast(a: nat)
    requires a >= 5
    ensures Pow2(a) >= 32
    decreases a
  {
    if a > 5 {
      Pow2AtLeast(a - 1);
    }
  }

  /** After a disconnect, no event other than a new connect reconnects or schedules anything. */
  lemma {:induction false} DisconnectIsFinal(s: Svc, events: seq<Event>)
    requires !s.shouldReconnect && !s.connected && !s.isReconnecting
    requires forall i :: 0 <= i < |events| ==> !events[i].Connect?
    ensures var r := Run(s, events);
      !r.shouldReconnect && !r.connected && !r.isReconnecting && r.armedTimers <= s.armedTimers
    decreases |events|
  {
    if events != [] {
      var t := Step(s, events[0]).0;
      DisconnectIsFinal(t, events[1..]);
    }
  }

  /** The state after `k` failed timer-driven attempts. */
  function FailedAttempts(s: Svc, k: nat): (r: Svc)
    decreases k
  {
    if k == 0 then s else Step(FailedAttempts(s, k - 1), TimerFired(false)).0
  }

  /** From a freshly scheduled reconnect, each failed attempt re-arms one timer, until the
      eleventh expiry gives up with no timer armed. */
  lemma {:induction false} AttemptsAreCapped(s: Svc, k: nat)
    requires s.shouldReconnect && s.isReconnecting && s.armedTimers == 1 && s.reconnectAttempts == 0
    requires k <= MaxReconnectAttempts + 1
    ensures var r := FailedAttempts(s, k);
      && r.reconnectAttempts == k && r.shouldReconnect
      && (k <= MaxReconnectAttempts ==> r.isReconnecting && r.armedTimers == 1)
      && (k == MaxReconnectAttempts + 1 ==> !r.isReconnecting && r.armedTimers == 0)
    decreases k
  {
    if k > 0 {
      AttemptsAreCapped(s, k - 1);
      FailedTimer(FailedAttempts(s, k - 1));
    }
  }

  /** One failed expiry of the only armed timer: count one more attempt, and re-arm unless over the cap. */
  lemma FailedTimer(t: Svc)
    requires t.shouldReconnect && t.armedTimers == 1
    ensures var r := Step(t, TimerFired(false)).0;
      && r.shouldReconnect && r.reconnectAttempts == t.reconnectAttempts + 1
      && (t.reconnectAttempts < MaxReconnectAttempts ==> r.isReconnecting && r.armedTimers == 1)
      && (t.reconnectAttempts >= MaxReconnectAttempts ==> !r.isReconnecting && r.armedTimers == 0)
  {
  }

  /** A successful reconnect starts the count again. */
  lemma SuccessResets(s: Svc)
    requires s.shouldReconnect && s.armedTimers > 0 && s.reconnectAttempts < MaxReconnectAttempts
    ensures var r := Step(s, TimerFired(true));
      r.0.connected && r.0.reconnectAttempts == 0 && !r.0.isReconnecting && r.1 == Reconnected
  {
  }

  /** Once the cap is passed, a manual retry gives up at once; only a new connect helps. */
  lemma GivingUpIsSticky(s: Svc, opens: bool)
    requires s.shouldReconnect && !s.connected && s.reconnectAttempts >= MaxReconnectAttempts
    ensures var r := Step(s, ForceReconnect(opens));
      !r.0.connected && r.1 == GaveUp && r.0.reconnectAttempts == s.reconnectAttempts + 1
  {
  }

  /** Commands need a live connection: none is sent after a disconnect or a socket close. */
  lemma NoCommandsWhenClosed(s: Svc)
    ensures !SendCommand(Step(s, Disconnect).0)
    ensures !SendCommand(Step(s, SocketClosed).0)
  {
  }
}

=== FILE: system_commands.dfy ===
/** The local system server's shutdown and reboot endpoints: the confirmation
    guard and the choice of the command line from the requested delay (seconds). */
module SystemCommands {
  import opened Common

  datatype Outcome = NotConfirmed | Run(argv: seq<string>)

  /** The minute count handed to `shutdown`: whole minutes of the delay, at least one. */
  function DelayMinutes(delay: int): (m: nat)
    requires delay > 0
    ensures m >= 1
    ensures delay >= 60 ==> m * 60 <= delay < m * 60 + 60
    ensures delay < 60 ==> m == 1
  {
    if delay >= 60 then delay / 60 else 1
  }

  /** The `+m` time argument of `shutdown`. */
  function WhenArg(delay: int): (s: string)
    requires delay > 0
    ensures |s| >= 2 && s[0] == '+' && AllDigits(s[1..]) && ParseDigits(s[1..]) == DelayMinutes(delay)
  {
    var digits := NatToString(DelayMinutes(delay));
    ParseNatToString(DelayMinutes(delay));
    assert ("+" + digits)[1..] == digits;
    "+" + digits
  }

  /** POST /api/system/shutdown. `confirm` is the truthiness of the confirm field (absent is false);
      `delay` defaults to 0. */
  function Shutdown(confirm: bool, delay: Option<int>): (r: Outcome)
    ensures !confirm <==> r == NotConfirmed
    ensures r.Run? ==> |r.argv| == 4 && r.argv[..3] == ["sudo", "shutdown", "-h"]
    ensures r.Run? && (delay.None? || delay.value <= 0) ==> r.argv[3] == "now"
    ensures r.Run? && delay.Some? && delay.value > 0 ==> r.argv[3] == WhenArg(delay.value)
  {
    if !confirm then NotConfirmed
    else
      var d := if delay.Some? then delay.value else 0;
      if d > 0 then Run(["sudo", "shutdown", "-h", WhenArg(d)])
      else Run(["sudo", "shutdown", "-h", "now"])
  }

  /** POST /api/system/reboot: the same guard; an immediate reboot uses `reboot`, a delayed one `shutdown -r`. */
  function Reboot(confirm: bool, delay: Option<int>): (r: Outcome)
    ensures !confirm <==> r == NotConfirmed
    ensures r.Run? && (delay.None? || delay.value <= 0) ==> r.argv == ["sudo", "reboot"]
    ensures r.Run? && delay.Some? && delay.value > 0 ==>
      r.argv == ["sudo", "shutdown", "-r", WhenArg(delay.value)]
  {
    if !confirm then NotConfirmed
    else
      var d := if delay.Some? then delay.value else 0;
      if d > 0 then Run(["sudo", "shutdown", "-r", WhenArg(d)])
      else Run(["sudo", "reboot"])
  }

  /** A delayed shutdown never happens later than requested once the delay reaches a
      minute, and never earlier than requested below a minute. */
  lemma ScheduledTimeBounds(delay: int)
    requires delay > 0
    ensures delay >= 60 ==> DelayMinutes(delay) * 60 <= delay
    ensures delay < 60 ==> DelayMinutes(delay) * 60 > delay
  {
  }

  /** Delays of 0 and below are immediate; 1 to 119 seconds round to one minute; 150 seconds to two. */
  lemma DelayExamples()
    ensures Shutdown(true, Some(0)) == Run(["sudo", "shutdown", "-h", "now"])
    ensures Shutdown(true, Some(-5)) == Run(["sudo", "shutdown", "-h", "now"])
    ensures DelayMinutes(30) == 1 && DelayMinutes(119) == 1 && DelayMinutes(150) == 2
    ensures Reboot(true, None) == Run(["sudo", "reboot"])
    ensures Reboot(false, Some(120)) == NotConfirmed
  {
  }
}

=== FILE: trivia.dfy ===
/** The multiplayer trivia client on the TV: the reducer over server messages,
    the player map keyed by id, the question timer as a tick count, and the
    guarded sends. The WebSocket is reduced to whether it is open. */
module Trivia {
  import opened Common

  datatype GameState = Waiting | Playing | Finished

  datatype Player = Player(id: string, name: string, score: int, hasAnswered: bool, isCorrect: bool)

  /** One entry of a question's results. */
  datatype Result = Result(playerId: string, score: int, isCorrect: bool)

  datatype Message =
    | PlayerIdMsg(playerId: string)
    | RoomCreated(roomId: string)
    | RoomJoined(roomId: string, isHost: bool, players: seq<Player>)
    | PlayerJoined(player: Player)
    | PlayerLeft(leftId: string)
    | GameStarted
    | QuestionMsg(question: string, timeLimit: Option<int>)
    | PlayerAnswered(answeredId: string, hasAnswered: bool)
    | QuestionResults(results: seq<Result>)
    | GameEnded
    | ErrorMsg(message: string)
    | UnknownMsg(kind: string)

  datatype Client = Client(
    socketOpen: bool,
    playerId: Option<string>,
    roomId: Option<string>,
    isHost: bool,
    gameState: GameState,
    players: map<string, Player>,
    currentQuestion: Option<string>,
    timeRemaining: int,
    timerRunning: bool)

  const DefaultTimeLimit := 30

  const Initial := Client(false, None, None, false, Waiting, map[], None, 0, false)

  /** Every player is stored under its own id. */
  predicate KeysMatchIds(players: map<string, Player>) {
    forall id :: id in players ==> players[id].id == id
  }

  /** `updatePlayers`: the map becomes exactly the received list, a later entry overwriting an earlier one with the same id. */
  function PlayersFrom(list: seq<Player>): (r: map<string, Player>)
    ensures KeysMatchIds(r)
    ensures r.Keys == set i | 0 <= i < |list| :: list[i].id
    ensures |list| > 0 ==> r[list[|list| - 1].id] == list[|list| - 1]
    decreases |list|
  {
    if list == [] then map[]
    else
      var last := list[|list| - 1];
      var rest := PlayersFrom(list[..|list| - 1]);
      assert forall i :: 0 <= i < |list| - 1 ==> list[..|list| - 1][i] == list[i];
      rest[last.id := last]
  }

  /** `updatePlayerAnswer`: only a known player's flag changes. */
  function SetAnswered(players: map<string, Player>, id: string, hasAnswered: bool): (r: map<string, Player>)
    ensures r.Keys == players.Keys
    ensures forall p :: p in players && p != id ==> r[p] == players[p]
    ensures id in players ==> r[id] == players[id].(hasAnswered := hasAnswered)
  {
    if id in players then players[id := players[id].(hasAnswered := hasAnswered)] else players
  }

  /** One result applied to the map: score and correctness recorded, answer flag reset. */
  function ApplyResult(players: map<string, Player>, res: Result): (r: map<string, Player>)
    ensures r.Keys == players.Keys
    ensures forall p :: p in players && p != res.playerId ==> r[p] == players[p]
  {
    if res.playerId in players then
      players[res.playerId := players[res.playerId].(score := res.score, isCorrect := res.isCorrect, hasAnswered := false)]
    else players
  }

  /** `updatePlayerScores`: the results applied in order. */
  function ApplyResults(players: map<string, Player>, results: seq<Result>): (r: map<string, Player>)
    ensures r.Keys == players.Keys
    decreases |results|
  {
    if results == [] then players else ApplyResults(ApplyResult(players, results[0]), results[1..])
  }

  /** The last result that names `id`, if any. */
  function LastResultFor(results: seq<Result>, id: string): (r: Option<Result>)
    ensures r.Some? ==> r.value in results && r.value.playerId == id
    ensures r.None? <==> forall i :: 0 <= i < |results| ==> results[i].playerId != id
    decreases |results|
  {
    if results == [] then None
    else if results[|results| - 1].playerId == id then Some(results[|results| - 1])
    else LastResultFor(results[..|results| - 1], id)
  }

  /** `data.timeLimit || 30`: a missing or zero limit gives thirty seconds. */
  function QuestionTime(timeLimit: Option<int>): (t: int)
    ensures timeLimit.None? || timeLimit.value == 0 ==> t == DefaultTimeLimit
    ensures timeLimit.Some? && timeLimit.value != 0 ==> t == timeLimit.value
  {
    if timeLimit.Some? && timeLimit.value != 0 then timeLimit.value else DefaultTimeLimit
  }

  /** `handleServerMessage`, stated field by field: which messages write each
      field of the client, and that every other message leaves it alone. */
  function Handle(c: Client, m: Message): (r: Client)
    ensures r.socketOpen == c.socketOpen
    ensures r.playerId == (if m.PlayerIdMsg? then Some(m.playerId) else c.playerId)
    ensures r.roomId == (if m.RoomCreated? || m.RoomJoined? then Some(m.roomId) else c.roomId)
    ensures r.isHost == (if m.RoomCreated? then true else if m.RoomJoined? then m.isHost else c.isHost)
    ensures r.gameState == (if m.GameStarted? then Playing else if m.GameEnded? then Finished else c.gameState)
    ensures m.RoomJoined? ==> r.players == PlayersFrom(m.players)
    ensures m.PlayerJoined? ==> r.players == c.players[m.player.id := m.player]
    ensures m.PlayerLeft? ==> r.players == c.players - {m.leftId}
    ensures m.PlayerAnswered? ==> r.players == SetAnswered(c.players, m.answeredId, m.hasAnswered)
    ensures m.QuestionResults? ==> r.players == ApplyResults(c.players, m.results)
    ensures !(m.RoomJoined? || m.PlayerJoined? || m.PlayerLeft? || m.PlayerAnswered? || m.QuestionResults?) ==>
      r.players == c.players
    ensures r.currentQuestion == (if m.QuestionMsg? then Some(m.question) else c.currentQuestion)
    ensures r.timeRemaining == (if m.QuestionMsg? then QuestionTime(m.timeLimit) else c.timeRemaining)
    ensures r.timerRunning == (if m.QuestionMsg? then true else if m.QuestionResults? || m.GameEnded? then false else c.timerRunning)
    ensures m.ErrorMsg? || m.UnknownMsg? ==> r == c
  {
    match m
    case PlayerIdMsg(id) => c.(playerId := Some(id))
    case RoomCreated(room) => c.(roomId := Some(room), isHost := true)
    case RoomJoined(room, host, list) => c.(roomId := Some(room), isHost := host, players := PlayersFrom(list))
    case PlayerJoined(p) => c.(players := c.players[p.id := p])
    case PlayerLeft(id) => c.(players := c.players - {id})
    case GameStarted => c.(gameState := Playing)
    case QuestionMsg(q, limit) => c.(currentQuestion := Some(q), timeRemaining := QuestionTime(limit), timerRunning := true)
    case PlayerAnswered(id, answered) => c.(players := SetAnswered(c.players, id, answered))
    case QuestionResults(results) => c.(timerRunning := false, players := ApplyResults(c.players, results))
    case GameEnded => c.(gameState := Finished, timerRunning := false)
    case ErrorMsg(_) => c
    case UnknownMsg(_) => c
  }

  /** One second of the question timer: count down, and stop at zero. */
  function Tick(c: Client): (r: Client)
    ensures !c.timerRunning ==> r == c
    ensures c.timerRunning ==> r.timeRemaining == c.timeRemaining - 1 && (r.timerRunning <==> r.timeRemaining > 0)
  {
    if !c.timerRunning then c
    else
      var t := c.timeRemaining - 1;
      c.(timeRemaining := t, timerRunning := t > 0)
  }

  /** `sendMessage`: a message leaves only through an open socket. */
  function SendMessage(c: Client, kind: string): (sent: Option<string>)
    ensures sent.Some? <==> c.socketOpen
    ensures sent.Some? ==> sent.value == kind
  {
    if c.socketOpen then Some(kind) else None
  }

  /** `startGame`: only the host asks the server to start. */
  function StartGame(c: Client): (sent: Option<string>)
    ensures sent.Some? <==> c.isHost && c.socketOpen
  {
    if c.isHost then SendMessage(c, "start_game") else None
  }

  /** `disconnect`: close the socket, stop the timer, forget the players; room and host flag are kept. */
  function Disconnect(c: Client): (r: Client)
    ensures !r.socketOpen && !r.timerRunning && r.players == map[] && r.gameState == Waiting
    ensures r.roomId == c.roomId && r.isHost == c.isHost && r.playerId == c.playerId
  {
    c.(socketOpen := false, timerRunning := false, players := map[], gameState := Waiting)
  }

  /** `allPlayersAnswered`, over the stored player objects. */
  predicate AllPlayersAnswered(c: Client) {
    forall id :: id in c.players ==> (c.playerId.Some? && c.players[id].id == c.playerId.value) || c.players[id].hasAnswered
  }

  // ---------------------------------------------------------------------------
  // Properties
  // ---------------------------------------------------------------------------

  /** Every message keeps each player stored under its own id. */
  lemma HandleKeepsKeysMatchIds(c: Client, m: Message)
    requires KeysMatchIds(c.players)
    ensures KeysMatchIds(Handle(c, m).players)
  {
    match m {
      case QuestionResults(results) => ApplyResultsKeepsIds(c.players, results);
      case _ =>
    }
  }

  lemma {:induction false} ApplyResultsKeepsIds(players: map<string, Player>, results: seq<Result>)
    requires KeysMatchIds(players)
    ensures KeysMatchIds(ApplyResults(players, results))
    decreases |results|
  {
    if results != [] {
      ApplyResultsKeepsIds(ApplyResult(players, results[0]), results[1..]);
    }
  }

  /** After the results, each known player carries the score of the last result naming
      it with the answer flag reset; players no result names are untouched. */
  lemma {:induction false} ResultsRecorded(players: map<string, Player>, results: seq<Result>, id: string)
    requires id in players
    ensures var r := ApplyResults(players, results);
      match LastResultFor(results, id)
      case None => r[id] == players[id]
      case Some(res) => r[id] == players[id].(score := res.score, isCorrect := res.isCorrect, hasAnswered := false)
    decreases |results|
  {
    if results != [] {
      var first := ApplyResult(players, results[0]);
      ResultsRecorded(first, results[1..], id);
      LastResultSplit(results, id);
    }
  }

  /** The last result naming `id` is found in the tail unless only the head names it. */
  lemma {:induction false} LastResultSplit(results: seq<Result>, id: string)
    requires results != []
    ensures LastResultFor(results, id) ==
      match LastResultFor(results[1..], id)
      case Some(res) => Some(res)
      case None => if results[0].playerId == id then Some(results[0]) else None
    decreases |results|
  {
    if |results| > 1 && results[|results| - 1].playerId != id {
      assert results[..|results| - 1][1..] == results[1..][..|results[1..]| - 1];
      LastResultSplit(results[..|results| - 1], id);
    }
  }

  /** Once results arrive for another player, not everyone has answered the next question. */
  lemma ResultsReopenAnswers(c: Client, results: seq<Result>, id: string)
    requires KeysMatchIds(c.players) && id in c.players && c.playerId != Some(id)
    requires LastResultFor(results, id).Some?
    ensures !AllPlayersAnswered(Handle(c, QuestionResults(results)))
  {
    ResultsRecorded(c.players, results, id);
    var r := Handle(c, QuestionResults(results));
    assert r.players[id].id == id && !r.players[id].hasAnswered;
  }

  /** Answers from every other player complete the round. */
  lemma AnswersCompleteRound(c: Client, ids: seq<string>)
    requires KeysMatchIds(c.players)
    requires forall id :: id in c.players && Some(id) != c.playerId ==> id in ids
    ensures AllPlayersAnswered(AnswerAll(c, ids))
  {
    AnswerAllMarks(c, ids);
  }

  /** The client after a `player_answered` message for each id in turn. */
  function AnswerAll(c: Client, ids: seq<string>): (r: Client)
    ensures r.players.Keys == c.players.Keys && r.playerId == c.playerId
    decreases |ids|
  {
    if ids == [] then c else AnswerAll(Handle(c, PlayerAnswered(ids[0], true)), ids[1..])
  }

  lemma {:induction false} AnswerAllMarks(c: Client, ids: seq<string>)
    requires KeysMatchIds(c.players)
    ensures KeysMatchIds(AnswerAll(c, ids).players)
    ensures forall id :: id in c.players ==>
      AnswerAll(c, ids).players[id].hasAnswered == (id in ids || c.players[id].hasAnswered)
    decreases |ids|
  {
    if ids != [] {
      var next := Handle(c, PlayerAnswered(ids[0], true));
      AnswerAllMarks(next, ids[1..]);
      assert forall id :: id in ids <==> id == ids[0] || id in ids[1..];
    }
  }

  /** The timer runs out after exactly as many ticks as the question allows. */
  lemma {:induction false} TimerRunsOut(c: Client, k: nat)
    requires c.timerRunning && c.timeRemaining == k && k > 0
    ensures !Ticks(c, k).timerRunning && Ticks(c, k).timeRemaining == 0
    ensures forall j :: 0 <= j < k ==> Ticks(c, j).timerRunning
    decreases k
  {
    TicksCount(c, k);
  }

  function Ticks(c: Client, k: nat): (r: Client)
    decreases k
  {
    if k == 0 then c else Tick(Ticks(c, k - 1))
  }

  lemma {:induction false} TicksCount(c: Client, k: nat)
    requires c.timerRunning && c.timeRemaining > 0 && k <= c.timeRemaining
    ensures Ticks(c, k).timeRemaining == c.timeRemaining - k
    ensures Ticks(c, k).timerRunning <==> k < c.timeRemaining
    ensures forall j :: 0 <= j < k ==> Ticks(c, j).timerRunning
    decreases k
  {
    if k > 0 {
      TicksCount(c, k - 1);
    }
  }

  /** After a disconnect nobody is listed and nothing is sent. */
  lemma DisconnectSilences(c: Client)
    ensures StartGame(Disconnect(c)).None? && SendMessage(Disconnect(c), "submit_answer").None?
    ensures AllPlayersAnswered(Disconnect(c))
  {
  }
}

=== FILE: tv_remote.dfy ===
/** The TV UI's remote-control focus controller: key resolution, the action
    dispatcher and grid navigation with wrap-around over `n` focusable elements
    laid out in `cols` columns. The DOM is abstracted to the element count. */
module TvRemote {
  import opened Common

  datatype Action = Up | Down | Left | Right | Select | Back | Menu | Home | Info | Number(digit: nat)

  /** What the controller asks of the page besides moving the focus. */
  datatype Effect = NoEffect | Activate | ActivateSoon | GoBack

  /** `index` may exceed the element count after a rescan shrinks the page. */
  datatype Remote = Remote(n: nat, index: nat, cols: int, enabled: bool)

  const DefaultColumns := 3

  /** The controller as constructed, before the first scan. */
  const Initial := Remote(0, 0, DefaultColumns, true)

  /** The controller's table of key names. */
  function KeyNameAction(key: string): (r: Option<Action>)
  {
    match key
    case "ArrowUp" => Some(Up)
    case "ArrowDown" => Some(Down)
    case "ArrowLeft" => Some(Left)
    case "ArrowRight" => Some(Right)
    case "Enter" => Some(Select)
    case "NumpadEnter" => Some(Select)
    case " " => Some(Select)
    case "Escape" => Some(Back)
    case "Backspace" => Some(Back)
    case "MediaPlayPause" => Some(Select)
    case "MediaPlay" => Some(Select)
    case "MediaPause" => Some(Select)
    case "MediaStop" => Some(Back)
    case "MediaTrackNext" => Some(Right)
    case "MediaTrackPrevious" => Some(Left)
    case "MediaFastForward" => Some(Right)
    case "MediaRewind" => Some(Left)
    case "ChannelUp" => Some(Up)
    case "ChannelDown" => Some(Down)
    case "VolumeUp" => Some(Up)
    case "VolumeDown" => Some(Down)
    case "VolumeMute" => Some(Select)
    case "F1" => Some(Back)
    case "F2" => Some(Select)
    case "F3" => Some(Menu)
    case "F4" => Some(Home)
    case "Home" => Some(Home)
    case "Menu" => Some(Menu)
    case "Info" => Some(Info)
    case "Guide" => Some(Menu)
    case "Exit" => Some(Back)
    case "Return" => Some(Back)
    case "Back" => Some(Back)
    case "Select" => Some(Select)
    case "OK" => Some(Select)
    case "0" => Some(Number(0))
    case "1" => Some(Number(1))
    case "2" => Some(Number(2))
    case "3" => Some(Number(3))
    case "4" => Some(Number(4))
    case "5" => Some(Number(5))
    case "6" => Some(Number(6))
    case "7" => Some(Number(7))
    case "8" => Some(Number(8))
    case "9" => Some(Number(9))
    case "Numpad0" => Some(Number(0))
    case "Numpad1" => Some(Number(1))
    case "Numpad2" => Some(Number(2))
    case "Numpad3" => Some(Number(3))
    case "Numpad4" => Some(Number(4))
    case "Numpad5" => Some(Number(5))
    case "Numpad6" => Some(Number(6))
    case "Numpad7" => Some(Number(7))
    case "Numpad8" => Some(Number(8))
    case "Numpad9" => Some(Number(9))
    case _ => None
  }

  /** The table of numeric key codes, for remotes that send no usable key name.
      Code 13 appears twice in the table, both times as select. */
  function KeyCodeAction(keyCode: int): (r: Option<Action>)
  {
    match keyCode
    case 13 => Some(Select)
    case 27 => Some(Back)
    case 37 => Some(Left)
    case 38 => Some(Up)
    case 39 => Some(Right)
    case 40 => Some(Down)
    case 32 => Some(Select)
    case 8 => Some(Back)
    case 112 => Some(Back)
    case 113 => Some(Select)
    case 114 => Some(Menu)
    case 115 => Some(Home)
    case 48 => Some(Number(0))
    case 49 => Some(Number(1))
    case 50 => Some(Number(2))
    case 51 => Some(Number(3))
    case 52 => Some(Number(4))
    case 53 => Some(Number(5))
    case 54 => Some(Number(6))
    case 55 => Some(Number(7))
    case 56 => Some(Number(8))
    case 57 => Some(Number(9))
    case 403 => Some(Select)
    case 404 => Some(Back)
    case 405 => Some(Menu)
    case 406 => Some(Info)
    case 461 => Some(Back)
    case 179 => Some(Select)
    case 178 => Some(Back)
    case 176 => Some(Right)
    case 177 => Some(Left)
    case _ => None
  }

  /** The key name wins; the key code is consulted only when the name is unmapped. */
  function Resolve(key: string, keyCode: int): (r: Option<Action>)
    ensures KeyNameAction(key).Some? ==> r == KeyNameAction(key)
    ensures r.None? <==> KeyNameAction(key).None? && KeyCodeAction(keyCode).None?
  {
    if KeyNameAction(key).Some? then KeyNameAction(key) else KeyCodeAction(keyCode)
  }

  /** Focus moves only to an index naming an element; any other request is ignored. */
  function SetFocus(s: Remote, i: int): (r: Remote)
    ensures r.n == s.n && r.cols == s.cols && r.enabled == s.enabled
    ensures 0 <= i < s.n ==> r.index == i
    ensures !(0 <= i < s.n) ==> r == s
  {
    if 0 <= i < s.n then s.(index := i) else s
  }

  /** Up moves one row up; from the top row it wraps to the same column of the
      bottom row, or to the last element when that row is short. */
  function NavigateUp(s: Remote): (r: Remote)
    requires s.cols >= 1
    ensures r.n == s.n && r.cols == s.cols && r.enabled == s.enabled
    ensures s.cols <= s.index < s.n ==> r.index == s.index - s.cols
    ensures s.index < s.n ==> r.index < s.n
    ensures s.index < s.cols && s.index < s.n ==>
      && r.index / s.cols == (s.n - 1) / s.cols
      && (s.index <= (s.n - 1) % s.cols ==> r.index % s.cols == s.index)
      && (s.index > (s.n - 1) % s.cols ==> r.index == s.n - 1)
  {
    var up := s.index - s.cols;
    if up >= 0 then SetFocus(s, up)
    else
      var bottomRowStart := ((s.n - 1) / s.cols) * s.cols;
      var column := s.index % s.cols;
      DivModUnique(s.index, s.cols, 0, s.index);
      DivModUnique(s.n - 1, s.cols, (s.n - 1) / s.cols, (s.n - 1) % s.cols);
      DivModUnique(bottomRowStart + column, s.cols, (s.n - 1) / s.cols, column);
      SetFocus(s, Min(bottomRowStart + column, s.n - 1))
  }

  /** Down moves one row down; past the last row it wraps to the same column of the top row. */
  function NavigateDown(s: Remote): (r: Remote)
    requires s.cols >= 1
    ensures r.n == s.n && r.cols == s.cols && r.enabled == s.enabled
    ensures s.index + s.cols < s.n ==> r.index == s.index + s.cols
    ensures s.index < s.n <= s.index + s.cols ==> r.index == s.index % s.cols
    ensures s.index < s.n ==> r.index < s.n
  {
    var down := s.index + s.cols;
    if down < s.n then SetFocus(s, down)
    else SetFocus(s, s.index % s.cols)
  }

  function NavigateLeft(s: Remote): (r: Remote)
    ensures s.index < s.n ==> r.index < s.n
    ensures 0 < s.index < s.n ==> r.index == s.index - 1
    ensures s.index == 0 && s.n > 0 ==> r.index == s.n - 1
  {
    if s.index > 0 then SetFocus(s, s.index - 1)
    else SetFocus(s, s.n - 1)
  }

  function NavigateRight(s: Remote): (r: Remote)
    ensures s.index < s.n ==> r.index < s.n
    ensures s.index + 1 < s.n ==> r.index == s.index + 1
    ensures s.index + 1 == s.n ==> r.index == 0
  {
    if s.index < s.n - 1 then SetFocus(s, s.index + 1)
    else SetFocus(s, 0)
  }

  /** A number key focuses element `number - 1` and activates it shortly after, when that element exists. */
  function SelectByNumber(s: Remote, number: int): (r: (Remote, Effect))
    ensures 1 <= number <= s.n ==> r == (s.(index := number - 1), ActivateSoon)
    ensures !(1 <= number <= s.n) ==> r == (s, NoEffect)
  {
    var target := number - 1;
    if 0 <= target < s.n then (SetFocus(s, target), ActivateSoon) else (s, NoEffect)
  }

  /** The arrows navigate; only the numbers one to six reach `SelectByNumber`;
      menu, home, info and the other digits do nothing. */
  function HandleAction(s: Remote, a: Action): (r: (Remote, Effect))
    requires s.cols >= 1
    ensures a.Number? ==> r.0 == (if 1 <= a.digit <= 6 && a.digit <= s.n then s.(index := a.digit - 1) else s)
    ensures a in {Menu, Home, Info} ==> r == (s, NoEffect)
    ensures a == Select ==> r == (s, Activate)
    ensures a == Back ==> r == (s, GoBack)
    ensures a == Up ==> r == (NavigateUp(s), NoEffect)
    ensures a == Down ==> r == (NavigateDown(s), NoEffect)
    ensures a == Left ==> r == (NavigateLeft(s), NoEffect)
    ensures a == Right ==> r == (NavigateRight(s), NoEffect)
    ensures r.0.n == s.n && r.0.cols == s.cols && r.0.enabled == s.enabled
  {
    match a
    case Up => (NavigateUp(s), NoEffect)
    case Down => (NavigateDown(s), NoEffect)
    case Left => (NavigateLeft(s), NoEffect)
    case Right => (NavigateRight(s), NoEffect)
    case Select => (s, Activate)
    case Back => (s, GoBack)
    case Menu => (s, NoEffect)
    case Home => (s, NoEffect)
    case Info => (s, NoEffect)
    case Number(d) => if 1 <= d <= 6 then SelectByNumber(s, d) else (s, NoEffect)
  }

  /** The keydown listener: nothing happens while disabled or for an unmapped key. */
  function HandleKey(s: Remote, key: string, keyCode: int): (r: (Remote, Effect))
    requires s.cols >= 1
    ensures !s.enabled || Resolve(key, keyCode).None? ==> r == (s, NoEffect)
    ensures s.enabled && Resolve(key, keyCode).Some? ==> r == HandleAction(s, Resolve(key, keyCode).value)
  {
    if !s.enabled then (s, NoEffect)
    else match Resolve(key, keyCode)
      case None => (s, NoEffect)
      case Some(a) => HandleAction(s, a)
  }

  /** A rescan replaces the element count; the focus index is left as it was. */
  function Rescan(s: Remote, n: nat): (r: Remote)
    ensures r.n == n && r.index == s.index && r.cols == s.cols
  {
    s.(n := n)
  }

  /** `refresh`: rescan, then focus the first element if there is one. */
  function Refresh(s: Remote, n: nat): (r: Remote)
    ensures n > 0 ==> r.index == 0
    ensures n == 0 ==> r.index == s.index
    ensures r.n == n
  {
    var t := Rescan(s, n);
    if t.n > 0 then SetFocus(t, 0) else t
  }

  // ---------------------------------------------------------------------------
  // Properties
  // ---------------------------------------------------------------------------

  /** Whatever key arrives, a focus inside the element list stays inside it. */
  lemma KeysKeepFocusInRange(s: Remote, key: string, keyCode: int)
    requires s.cols >= 1 && s.index < s.n
    ensures HandleKey(s, key, keyCode).0.index < s.n
  {
  }

  /** Left undoes Right and Right undoes Left, including across the wrap-around. */
  lemma LeftRightInverse(s: Remote)
    requires s.index < s.n
    ensures NavigateLeft(NavigateRight(s)) == s
    ensures NavigateRight(NavigateLeft(s)) == s
  {
  }

  /** Away from the edges, Up undoes Down and Down undoes Up. */
  lemma UpDownInverse(s: Remote)
    requires s.cols >= 1 && s.index < s.n
    ensures s.index + s.cols < s.n ==> NavigateUp(NavigateDown(s)) == s
    ensures s.index >= s.cols ==> NavigateDown(NavigateUp(s)) == s
  {
  }

  /** Down never changes the column, including when it wraps to the top row. */
  lemma DownKeepsColumn(s: Remote)
    requires s.cols >= 1 && s.index < s.n
    ensures NavigateDown(s).index % s.cols == s.index % s.cols
  {
    if s.index + s.cols < s.n {
      DivModUnique(s.index + s.cols, s.cols, s.index / s.cols + 1, s.index % s.cols);
    } else {
      DivModUnique(s.index % s.cols, s.cols, 0, s.index % s.cols);
    }
  }

  /** At the wrap-around, too, Down undoes Up: from a top-row column that the
      bottom row has, Up then Down comes back. */
  lemma DownUndoesUpWrap(s: Remote)
    requires s.cols >= 1 && s.index < s.n
    requires s.index < s.cols && s.index <= (s.n - 1) % s.cols
    ensures NavigateDown(NavigateUp(s)) == s
  {
    var u := NavigateUp(s);
    assert u.index % s.cols == s.index;
    var last := (s.n - 1) / s.cols;
    assert u.index / s.cols == last;
    DivModUnique(s.n - 1, s.cols, last, (s.n - 1) % s.cols);
    assert u.index == last * s.cols + s.index;
    assert u.index + s.cols >= s.n;
  }

  /** At the wrap-around, too, Up undoes Down: from the bottom row, Down then Up
      comes back. */
  lemma UpUndoesDownWrap(s: Remote)
    requires s.cols >= 1 && s.index < s.n
    requires s.index / s.cols == (s.n - 1) / s.cols
    ensures NavigateUp(NavigateDown(s)) == s
  {
    var last := (s.n - 1) / s.cols;
    var c := s.index % s.cols;
    assert s.index == last * s.cols + c;
    assert s.index + s.cols >= s.n;
    var d := NavigateDown(s);
    assert d.index == c;
    DivModUnique(s.n - 1, s.cols, last, (s.n - 1) % s.cols);
    assert c <= (s.n - 1) % s.cols;
    var u := NavigateUp(d);
    assert u.index / s.cols == last && u.index % s.cols == c;
    DivModUnique(u.index, s.cols, last, c);
  }

  /** The focus after pressing Right `k` times. */
  function RightTimes(s: Remote, k: nat): (r: Remote)
    requires s.index < s.n
    ensures r.index < r.n && r.n == s.n && r.cols == s.cols && r.enabled == s.enabled
    decreases k
  {
    if k == 0 then s else NavigateRight(RightTimes(s, k - 1))
  }

  /** Right steps through the elements cyclically. */
  lemma {:induction false} RightTimesIndex(s: Remote, k: nat)
    requires s.index < s.n
    ensures RightTimes(s, k).index == (s.index + k) % s.n
    decreases k
  {
    if k == 0 {
      DivModUnique(s.index, s.n, 0, s.index);
    } else {
      RightTimesIndex(s, k - 1);
      ModSucc(s.index + k - 1, s.n);
    }
  }

  /** Pressing Right once per element returns the focus where it started. */
  lemma RightCycles(s: Remote)
    requires s.index < s.n
    ensures RightTimes(s, s.n) == s
  {
    RightTimesIndex(s, s.n);
    DivModUnique(s.index + s.n, s.n, 1, s.index);
  }

  /** The key name takes precedence: a remote sending "ArrowUp" with the Enter key code moves up. */
  lemma KeyNameWins()
    ensures Resolve("ArrowUp", 13) == Some(Up)
    ensures Resolve("Unidentified", 38) == Some(Up)
    ensures Resolve("Unidentified", 0) == None
  {
  }

  /** The two tables agree on the keys both of them name: arrows, Enter, Escape,
      Space, Backspace, the function keys and the digits. */
  lemma TablesAgree()
    ensures KeyCodeAction(37) == KeyNameAction("ArrowLeft") && KeyCodeAction(38) == KeyNameAction("ArrowUp")
    ensures KeyCodeAction(39) == KeyNameAction("ArrowRight") && KeyCodeAction(40) == KeyNameAction("ArrowDown")
    ensures KeyCodeAction(13) == KeyNameAction("Enter") && KeyCodeAction(27) == KeyNameAction("Escape")
    ensures KeyCodeAction(32) == KeyNameAction(" ") && KeyCodeAction(8) == KeyNameAction("Backspace")
    ensures KeyCodeAction(112) == KeyNameAction("F1") && KeyCodeAction(113) == KeyNameAction("F2")
    ensures KeyCodeAction(114) == KeyNameAction("F3") && KeyCodeAction(115) == KeyNameAction("F4")
    ensures forall d :: 0 <= d <= 9 ==> KeyCodeAction(48 + d) == KeyNameAction([DigitChar(d)])
  {
    forall d | 0 <= d <= 9 ensures KeyCodeAction(48 + d) == KeyNameAction([DigitChar(d)]) {
      assert d in {0, 1, 2, 3, 4, 5, 6, 7, 8, 9};
    }
  }

  /** The seven and eight keys are mapped but select nothing. */
  lemma HighDigitsDoNothing(s: Remote)
    requires s.cols >= 1
    ensures HandleKey(s, "7", 0) == (s, NoEffect)
    ensures HandleKey(s, "Numpad8", 0) == (s, NoEffect)
  {
  }
}

=== FILE: universal_nav.dfy ===
/** The TV UI's page-independent keyboard navigation: a linear focus index over
    `n` visible focusable elements, with a fixed jump of three for Up and Down.
    The DOM is abstracted to the element count and the kind of key target. */
module UniversalNav {
  import opened Common

  /** `passive` is set when the page already has its own navigation. */
  datatype Nav = Nav(n: nat, index: nat, passive: bool)

  /** Where the key event was aimed: a text field keeps its keys. */
  datatype Target = TextInput | TextArea | ContentEditable | OtherElement

  datatype Effect = NoEffect | ActivateCurrent | Escape

  const GridJump := 3

  /** The keys the listener acts on; every other key passes through untouched. */
  const NavigationKeys: set<string> := {"ArrowRight", "ArrowLeft", "ArrowDown", "ArrowUp", "Enter", " ", "Escape"}

  /** Focus moves only to an index naming an element. */
  function SetFocus(s: Nav, i: int): (r: Nav)
    ensures r.n == s.n && r.passive == s.passive
    ensures 0 <= i < s.n ==> r.index == i
    ensures !(0 <= i < s.n) ==> r == s
  {
    if i < 0 || i >= s.n then s else s.(index := i)
  }

  /** After the element list changes, an index past its end is pulled back to the last element (or 0). */
  function UpdateElements(s: Nav, n: nat): (r: Nav)
    ensures r.n == n && r.passive == s.passive
    ensures s.index < n ==> r.index == s.index
    ensures s.index >= n ==> r.index == (if n == 0 then 0 else n - 1)
    ensures n > 0 ==> r.index < n
  {
    if s.index >= n then Nav(n, if n - 1 > 0 then n - 1 else 0, s.passive)
    else s.(n := n)
  }

  /** Stepping forward modulo `n` from an index in range. */
  lemma NextIndex(i: nat, n: nat)
    requires n > 0
    ensures i + 1 < n ==> (i + 1) % n == i + 1
    ensures i + 1 == n ==> (i + 1) % n == 0
  {
    if i + 1 < n {
      DivModUnique(i + 1, n, 0, i + 1);
    } else if i + 1 == n {
      DivModUnique(i + 1, n, 1, 0);
    }
  }

  /** Stepping back modulo `n`. */
  lemma PreviousIndex(i: nat, n: nat)
    requires n > 0
    ensures 0 < i <= n ==> (i - 1 + n) % n == i - 1
    ensures i == 0 ==> (i - 1 + n) % n == n - 1
  {
    if 0 < i <= n {
      DivModUnique(i - 1 + n, n, 1, i - 1);
    } else if i == 0 {
      DivModUnique(i - 1 + n, n, 0, n - 1);
    }
  }

  function NavigateNext(s: Nav): (r: Nav)
    ensures s.n == 0 ==> r == s
    ensures s.n > 0 ==> r.index < s.n && r.n == s.n && r.passive == s.passive
    ensures s.index + 1 < s.n ==> r.index == s.index + 1
    ensures s.index + 1 == s.n ==> r.index == 0
  {
    if s.n == 0 then s
    else
      var i := (s.index + 1) % s.n;
      NextIndex(s.index, s.n);
      SetFocus(s.(index := i), i)
  }

  function NavigatePrevious(s: Nav): (r: Nav)
    ensures s.n == 0 ==> r == s
    ensures s.n > 0 ==> r.index < s.n && r.n == s.n && r.passive == s.passive
    ensures 0 < s.index <= s.n ==> r.index == s.index - 1
    ensures s.index == 0 && s.n > 0 ==> r.index == s.n - 1
  {
    if s.n == 0 then s
    else
      var i := (s.index - 1 + s.n) % s.n;
      PreviousIndex(s.index, s.n);
      SetFocus(s.(index := i), i)
  }

  /** Down jumps three ahead when that element exists, and otherwise steps to the next element. */
  function NavigateDown(s: Nav): (r: Nav)
    ensures s.n == 0 ==> r == s
    ensures s.n > 0 ==> r.index < s.n && r.n == s.n && r.passive == s.passive
    ensures s.index + GridJump < s.n ==> r.index == s.index + GridJump
    ensures s.n > 0 && s.index + GridJump >= s.n ==> r == NavigateNext(s)
  {
    if s.n == 0 then s
    else
      var jump := s.index + GridJump;
      var i := if jump >= s.n then (s.index + 1) % s.n else jump;
      SetFocus(s.(index := i), i)
  }

  /** Up jumps three back when that stays at or above 0, and otherwise steps to the previous element.
      The jump is taken even from an index the element list no longer covers. */
  function NavigateUp(s: Nav): (r: Nav)
    ensures s.n == 0 ==> r == s
    ensures s.n > 0 ==> r.n == s.n && r.passive == s.passive
    ensures s.n > 0 && s.index >= GridJump ==> r.index == s.index - GridJump
    ensures s.n > 0 && s.index < GridJump ==> r == NavigatePrevious(s)
    ensures s.index < s.n ==> r.index < s.n
  {
    if s.n == 0 then s
    else
      var jump := s.index - GridJump;
      var i := if jump < 0 then (s.index - 1 + s.n) % s.n else jump;
      SetFocus(s.(index := i), i)
  }

  /** The keydown listener: passive mode and typing targets are left alone. */
  function HandleKey(s: Nav, key: string, target: Target): (r: (Nav, Effect))
    ensures s.passive || !target.OtherElement? ==> r == (s, NoEffect)
    ensures r.0.n == s.n && r.0.passive == s.passive
    ensures !s.passive && target.OtherElement? && key in {"Enter", " "} ==> r == (s, ActivateCurrent)
    ensures !s.passive && target.OtherElement? && key == "Escape" ==> r == (s, Escape)
    ensures !s.passive && target.OtherElement? ==>
      && (key == "ArrowRight" ==> r == (NavigateNext(s), NoEffect))
      && (key == "ArrowLeft" ==> r == (NavigatePrevious(s), NoEffect))
      && (key == "ArrowDown" ==> r == (NavigateDown(s), NoEffect))
      && (key == "ArrowUp" ==> r == (NavigateUp(s), NoEffect))
    ensures key !in NavigationKeys ==> r == (s, NoEffect)
  {
    if s.passive then (s, NoEffect)
    else if !target.OtherElement? then (s, NoEffect)
    else match key
      case "ArrowRight" => (NavigateNext(s), NoEffect)
      case "ArrowLeft" => (NavigatePrevious(s), NoEffect)
      case "ArrowDown" => (NavigateDown(s), NoEffect)
      case "ArrowUp" => (NavigateUp(s), NoEffect)
      case "Enter" => (s, ActivateCurrent)
      case " " => (s, ActivateCurrent)
      case "Escape" => (s, Escape)
      case _ => (s, NoEffect)
  }

  /** `refresh`: update the element list, then re-focus the clamped index. */
  function Refresh(s: Nav, n: nat): (r: Nav)
    ensures r == UpdateElements(s, n)
    ensures n > 0 ==> r.index < n
  {
    var t := UpdateElements(s, n);
    if t.n > 0 then SetFocus(t, Min(t.index, t.n - 1)) else t
  }

  // ---------------------------------------------------------------------------
  // Properties
  // ---------------------------------------------------------------------------

  /** Next undoes Previous and Previous undoes Next. */
  lemma NextPreviousInverse(s: Nav)
    requires s.index < s.n
    ensures NavigatePrevious(NavigateNext(s)) == s
    ensures NavigateNext(NavigatePrevious(s)) == s
  {
  }

  /** Away from the ends, Up undoes Down and Down undoes Up. */
  lemma DownUpInverse(s: Nav)
    requires s.index < s.n
    ensures s.index + GridJump < s.n ==> NavigateUp(NavigateDown(s)) == s
    ensures s.index >= GridJump ==> NavigateDown(NavigateUp(s)) == s
  {
  }

  /** Every key keeps an index that names an element naming one. */
  lemma KeysKeepFocusInRange(s: Nav, key: string, target: Target)
    requires s.index < s.n
    ensures HandleKey(s, key, target).0.index < s.n
  {
  }

  /** After any change of the element list, the index names an element again. */
  lemma UpdateRestoresRange(s: Nav, n: nat, key: string, target: Target)
    requires n > 0
    ensures HandleKey(UpdateElements(s, n), key, target).0.index < n
  {
  }
}

=== FILE: updates.dfy ===
/** The update catalogue: version strings parsed into integer tuples, the
    "newer than" comparison over those tuples, the check endpoint's answer, and
    the upsert/delete of entries in the stored version list. */
module Updates {
  import opened Common

  // ---------------------------------------------------------------------------
  // Integer parsing (Python's int() on a str, restricted to ASCII)
  // ---------------------------------------------------------------------------

  /** Digits, possibly with single underscores between two digits. */
  predicate DigitGroups(s: string) {
    && s != []
    && IsDigit(s[0]) && IsDigit(s[|s| - 1])
    && (forall i :: 0 <= i < |s| ==> IsDigit(s[i]) || s[i] == '_')
    && (forall i :: 0 < i < |s| && !IsDigit(s[i - 1]) ==> IsDigit(s[i]))
  }

  function RemoveUnderscores(s: string): (r: string)
    ensures |r| <= |s|
    ensures (forall i :: 0 <= i < |s| ==> IsDigit(s[i]) || s[i] == '_') ==> AllDigits(r)
    ensures AllDigits(s) ==> r == s
  {
    if s == [] then []
    else if s[0] == '_' then RemoveUnderscores(s[1..])
    else [s[0]] + RemoveUnderscores(s[1..])
  }

  /** The characters int() can accept at all: digits, whitespace, a sign and underscores. */
  predicate IntChar(c: char) {
    IsDigit(c) || IsSpace(c) || c == '+' || c == '-' || c == '_'
  }

  /** The stripped text without its leading sign, if it has one. */
  function Unsigned(t: string): string
    requires t != []
  {
    if t[0] == '+' || t[0] == '-' then t[1..] else t
  }

  /** A character int() never accepts survives the strip and lands in the digit groups,
      which it breaks. */
  lemma ForeignCharFails(s: string)
    ensures (exists k :: 0 <= k < |s| && !IntChar(s[k])) ==>
      !AllDigits(s) && Trim(s) != [] && !DigitGroups(Unsigned(Trim(s)))
  {
    if k :| 0 <= k < |s| && !IntChar(s[k]) {
      ForeignCharsSurviveTrim(s);
      var t := Trim(s);
      assert s[k] in t;
      var j :| 0 <= j < |t| && t[j] == s[k];
      var body := Unsigned(t);
      if t[0] == '+' || t[0] == '-' {
        assert j >= 1 && body[j - 1] == s[k];
      } else {
        assert body[j] == s[k];
      }
    }
  }

  /** int(s): surrounding whitespace, an optional sign, then digit groups; anything else fails. */
  function ParseInt(s: string): (r: Option<int>)
    ensures AllDigits(s) && s != [] ==> r == Some(ParseDigits(s))
    ensures AllSpace(s) ==> r.None?
    ensures (exists k :: 0 <= k < |s| && !IntChar(s[k])) ==> r.None?
  {
    var t := Trim(s);
    TrimSpec(s, IsSpace);
    ForeignCharFails(s);
    if AllDigits(s) && s != [] then
      TrimOfDigits(s);
      Some(ParseDigits(s))
    else if t == [] then None
    else
      var sign := if t[0] == '-' then -1 else 1;
      var body := Unsigned(t);
      if DigitGroups(body) then
        Some(sign * ParseDigits(RemoveUnderscores(body)))
      else None
  }

  /** Trimming removes only whitespace, so any other character of `s` is still in `Trim(s)`. */
  lemma ForeignCharsSurviveTrim(s: string)
    ensures forall k :: 0 <= k < |s| && !IsSpace(s[k]) ==> s[k] in Trim(s)
  {
    var a := TrimStart(s, IsSpace);
    var b := TrimEnd(a, IsSpace);
    forall k | 0 <= k < |s| && !IsSpace(s[k]) ensures s[k] in Trim(s) {
      var off := |s| - |a|;
      assert a[k - off] == s[k];
      assert b[k - off] == s[k];
    }
  }

  /** A digit string has nothing to trim. */
  lemma TrimOfDigits(s: string)
    requires AllDigits(s) && s != []
    ensures Trim(s) == s
  {
    assert !IsSpace(s[0]);
    var a := TrimStart(s, IsSpace);
    assert a == s;
    assert !IsSpace(s[|s| - 1]);
  }

  /** Parse every part, failing if any part fails. */
  function ParseAll(parts: seq<string>): (r: Option<seq<int>>)
    ensures r.Some? ==> |r.value| == |parts|
    ensures r.Some? <==> forall i :: 0 <= i < |parts| ==> ParseInt(parts[i]).Some?
    ensures r.Some? ==> forall i :: 0 <= i < |parts| ==> r.value[i] == ParseInt(parts[i]).value
  {
    if forall i :: 0 <= i < |parts| ==> ParseInt(parts[i]).Some? then
      Some(seq(|parts|, i requires 0 <= i < |parts| => ParseInt(parts[i]).value))
    else None
  }

  const FallbackKey: seq<int> := [0, 0, 0]

  /** The sort key of a version string: its dot-separated parts as integers, or (0, 0, 0) if any part fails to parse. */
  function VersionKey(v: string): (k: seq<int>)
    ensures ParseAll(Split(v, '.')).None? ==> k == FallbackKey
    ensures ParseAll(Split(v, '.')).Some? ==> k == ParseAll(Split(v, '.')).value
  {
    match ParseAll(Split(v, '.'))
    case Some(k) => k
    case None => FallbackKey
  }

  /** Render a tuple of naturals as a dotted version string. */
  function Format(ns: seq<nat>): (s: string)
    requires |ns| >= 1
  {
    Join(Rendered(ns), '.')
  }

  function Rendered(ns: seq<nat>): (r: seq<string>)
    ensures |r| == |ns|
    ensures forall i :: 0 <= i < |ns| ==> r[i] == NatToString(ns[i])
  {
    seq(|ns|, i requires 0 <= i < |ns| => NatToString(ns[i]))
  }

  /** A rendered version string parses back to its tuple. */
  lemma VersionKeyOfFormat(ns: seq<nat>)
    requires |ns| >= 1
    ensures VersionKey(Format(ns)) == ns
  {
    var parts := Rendered(ns);
    forall i | 0 <= i < |parts| ensures '.' !in parts[i] {
      NatToStringHasNo(ns[i], '.');
    }
    SplitJoin(parts, '.');
    forall i | 0 <= i < |parts| ensures ParseInt(parts[i]) == Some(ns[i] as int) {
      ParseNatToString(ns[i]);
    }
    var k := ParseAll(parts).value;
    assert |k| == |ns|;
    assert forall i :: 0 <= i < |ns| ==> k[i] == ns[i];
  }

  // ---------------------------------------------------------------------------
  // Tuple order (Python's tuple comparison)
  // ---------------------------------------------------------------------------

  /** Lexicographic order; a proper prefix is smaller. */
  predicate TupleLess(a: seq<int>, b: seq<int>)
    decreases |a|
  {
    if a == [] then b != []
    else if b == [] then false
    else a[0] < b[0] || (a[0] == b[0] && TupleLess(a[1..], b[1..]))
  }

  lemma {:induction false} TupleLessIrreflexive(a: seq<int>)
    ensures !TupleLess(a, a)
    decreases |a|
  {
    if a != [] { TupleLessIrreflexive(a[1..]); }
  }

  lemma {:induction false} TupleLessTrans(a: seq<int>, b: seq<int>, c: seq<int>)
    requires TupleLess(a, b) && TupleLess(b, c)
    ensures TupleLess(a, c)
    decreases |a|
  {
    if a != [] && a[0] == b[0] && b[0] == c[0] {
      TupleLessTrans(a[1..], b[1..], c[1..]);
    }
  }

  lemma {:induction false} TupleLessTotal(a: seq<int>, b: seq<int>)
    ensures a == b || TupleLess(a, b) || TupleLess(b, a)
    decreases |a|
  {
    if a != [] && b != [] && a[0] == b[0] {
      TupleLessTotal(a[1..], b[1..]);
      if a[1..] == b[1..] {
        assert a == [a[0]] + a[1..] && b == [b[0]] + b[1..];
      }
    }
  }

  /** "1.0" is older than "1.0.0": a proper prefix is smaller. */
  lemma ShorterVersionIsOlder()
    ensures TupleLess(VersionKey("1.0"), VersionKey("1.0.0"))
  {
    assert NatToString(1) == "1" && NatToString(0) == "0";
    assert Format([1, 0]) == "1.0";
    assert Format([1, 0, 0]) == "1.0.0";
    VersionKeyOfFormat([1, 0]);
    VersionKeyOfFormat([1, 0, 0]);
  }

  // ---------------------------------------------------------------------------
  // The catalogue and the check endpoint
  // ---------------------------------------------------------------------------

  datatype VersionInfo = VersionInfo(
    version: string,
    filename: string,
    releaseNotes: string,
    releaseDate: string,
    fileSize: nat,
    important: bool,
    forceUpdate: bool)

  datatype CheckResponse =
    | MissingVersion
    | NoVersions
    | Answer(hasUpdate: bool, currentVersion: string, latestVersion: string, releaseNotes: string,
             releaseDate: string, downloadUrl: string, fileSize: nat, important: bool, forceUpdate: bool)

  const DownloadPrefix := "/api/updates/download/"

  /** The keys of the stored versions, in list order. */
  function Keys(versions: seq<VersionInfo>): (ks: seq<seq<int>>)
    ensures |ks| == |versions|
    ensures forall i :: 0 <= i < |versions| ==> ks[i] == VersionKey(versions[i].version)
  {
    seq(|versions|, i requires 0 <= i < |versions| => VersionKey(versions[i].version))
  }

  /** The first key that no other key exceeds (Python's max keeps the first maximum). */
  method LatestIndex(keys: seq<seq<int>>) returns (best: nat)
    requires |keys| > 0
    ensures best < |keys|
    ensures forall i :: 0 <= i < |keys| ==> !TupleLess(keys[best], keys[i])
    ensures forall i :: 0 <= i < best ==> TupleLess(keys[i], keys[best])
  {
    best := 0;
    TupleLessIrreflexive(keys[0]);
    var i := 1;
    while i < |keys|
      invariant 1 <= i <= |keys| && best < i
      invariant forall j :: 0 <= j < i ==> !TupleLess(keys[best], keys[j])
      invariant forall j :: 0 <= j < best ==> TupleLess(keys[j], keys[best])
    {
      if TupleLess(keys[best], keys[i]) {
        NewMaximum(keys, best, i);
        best := i;
      }
      i := i + 1;
    }
  }

  /** A key strictly above the running maximum is the new maximum of the prefix, above all earlier keys. */
  lemma NewMaximum(keys: seq<seq<int>>, best: nat, i: nat)
    requires best < i < |keys|
    requires forall j :: 0 <= j < i ==> !TupleLess(keys[best], keys[j])
    requires TupleLess(keys[best], keys[i])
    ensures forall j :: 0 <= j <= i ==> !TupleLess(keys[i], keys[j])
    ensures forall j :: 0 <= j < i ==> TupleLess(keys[j], keys[i])
  {
    forall j | 0 <= j <= i
      ensures !TupleLess(keys[i], keys[j]) && (j < i ==> TupleLess(keys[j], keys[i]))
    {
      if j == i {
        TupleLessIrreflexive(keys[i]);
      } else {
        TupleLessTotal(keys[j], keys[best]);
        if TupleLess(keys[j], keys[best]) { TupleLessTrans(keys[j], keys[best], keys[i]); }
        if TupleLess(keys[i], keys[j]) { TupleLessTrans(keys[best], keys[i], keys[j]); }
      }
    }
  }

  /** GET /check: is there a stored version newer than the client's? */
  method CheckForUpdates(versions: seq<VersionInfo>, current: Option<string>) returns (r: CheckResponse)
    ensures !Truthy(current) ==> r == MissingVersion
    ensures Truthy(current) && versions == [] ==> r == NoVersions
    ensures Truthy(current) && versions != [] ==> r.Answer? && r.currentVersion == current.value
    ensures r.Answer? ==>
      (r.hasUpdate <==> exists i :: 0 <= i < |versions| && TupleLess(VersionKey(current.value), VersionKey(versions[i].version)))
    ensures r.Answer? && r.hasUpdate ==>
      exists i :: 0 <= i < |versions|
        && (forall j :: 0 <= j < |versions| ==> !TupleLess(VersionKey(versions[i].version), VersionKey(versions[j].version)))
        && (forall j :: 0 <= j < i ==> TupleLess(VersionKey(versions[j].version), VersionKey(versions[i].version)))
        && r.latestVersion == versions[i].version
        && r.downloadUrl == DownloadPrefix + versions[i].version
        && r.fileSize == versions[i].fileSize
        && r.releaseNotes == versions[i].releaseNotes && r.releaseDate == versions[i].releaseDate
        && r.important == versions[i].important && r.forceUpdate == versions[i].forceUpdate
    ensures r.Answer? && !r.hasUpdate ==>
      r.latestVersion == current.value && r.downloadUrl == "" && r.fileSize == 0
      && r.releaseNotes == "" && r.releaseDate == "" && !r.important && !r.forceUpdate
  {
    if !Truthy(current) {
      return MissingVersion;
    }
    if versions == [] {
      return NoVersions;
    }
    var keys := Keys(versions);
    var best := LatestIndex(keys);
    var latest := versions[best];
    var cur := VersionKey(current.value);
    var has := TupleLess(cur, keys[best]);
    if !has {
      NothingNewer(keys, best, cur);
      return Answer(false, current.value, current.value, "", "", "", 0, false, false);
    }
    return Answer(true, current.value, latest.version, latest.releaseNotes, latest.releaseDate,
                  DownloadPrefix + latest.version, latest.fileSize, latest.important, latest.forceUpdate);
  }

  /** If the maximum is not above `cur`, no key is. */
  lemma NothingNewer(keys: seq<seq<int>>, best: nat, cur: seq<int>)
    requires best < |keys|
    requires forall i :: 0 <= i < |keys| ==> !TupleLess(keys[best], keys[i])
    requires !TupleLess(cur, keys[best])
    ensures forall i :: 0 <= i < |keys| ==> !TupleLess(cur, keys[i])
  {
    forall i | 0 <= i < |keys| ensures !TupleLess(cur, keys[i]) {
      TupleLessTotal(cur, keys[best]);
      if TupleLess(keys[best], cur) && TupleLess(cur, keys[i]) {
        TupleLessTrans(keys[best], cur, keys[i]);
      }
    }
  }

  // ---------------------------------------------------------------------------
  // Upload and delete
  // ---------------------------------------------------------------------------

  /** An uploaded file: the client's file name, the name it is stored under after
      sanitising, and its size on disk. */
  datatype Upload = Upload(clientName: string, storedName: string, size: nat)

  datatype UploadOutcome = NoFile | NoFileSelected | NotDeb | NoVersion | Uploaded(entry: VersionInfo)

  datatype DeleteOutcome = BadVersion | NotFound | FileRemovalFailed | Deleted(entry: VersionInfo)

  predicate EndsWith(s: string, suffix: string) {
    |s| >= |suffix| && s[|s| - |suffix|..] == suffix
  }

  function ToLower(s: string): (r: string)
    ensures |r| == |s|
    ensures forall i :: 0 <= i < |s| ==> r[i] == (if IsUpper(s[i]) then (s[i] as int + 32) as char else s[i])
  {
    seq(|s|, i requires 0 <= i < |s| => if IsUpper(s[i]) then (s[i] as int + 32) as char else s[i])
  }

  /** A form flag: absent reads as 'false'; true exactly when its lower-cased text is 'true'. */
  function FormFlag(v: Option<string>): (b: bool)
    ensures v.None? ==> !b
    ensures v == Some("true") || v == Some("TRUE") || v == Some("True") ==> b
    ensures b <==> v.Some? && |v.value| == 4 && forall i :: 0 <= i < 4 ==> v.value[i] == "true"[i] || v.value[i] == "TRUE"[i]
    ensures v == Some("false") || v == Some("1") || v == Some("yes") ==> !b
  {
    var text := if v.Some? then v.value else "false";
    LowerIsTrue(text);
    ToLower(text) == "true"
  }

  /** Lower-casing gives "true" exactly for the sixteen spellings of it in either case. */
  lemma LowerIsTrue(s: string)
    ensures ToLower(s) == "true" <==>
      |s| == 4 && forall i :: 0 <= i < 4 ==> s[i] == "true"[i] || s[i] == "TRUE"[i]
  {
    if |s| == 4 {
      var l := ToLower(s);
      if l == "true" {
        forall i | 0 <= i < 4 ensures s[i] == "true"[i] || s[i] == "TRUE"[i] {
          assert l[i] == "true"[i];
        }
      }
      if forall i :: 0 <= i < 4 ==> s[i] == "true"[i] || s[i] == "TRUE"[i] {
        forall i | 0 <= i < 4 ensures l[i] == "true"[i] {
          assert s[i] == "true"[i] || s[i] == "TRUE"[i];
        }
        assert l == "true";
      }
    }
  }

  /** The index of the first entry with this version, if any. */
  function FindVersion(versions: seq<VersionInfo>, version: string): (r: Option<nat>)
    ensures r.None? <==> forall i :: 0 <= i < |versions| ==> versions[i].version != version
    ensures r.Some? ==>
      && r.value < |versions| && versions[r.value].version == version
      && forall i :: 0 <= i < r.value ==> versions[i].version != version
  {
    if versions == [] then None
    else if versions[0].version == version then Some(0)
    else
      match FindVersion(versions[1..], version)
      case None =>
        assert forall i :: 1 <= i < |versions| ==> versions[i] == versions[1..][i - 1];
        None
      case Some(k) => Some(k + 1)
  }

  /** POST /upload: validate, then replace the first same-version entry in place or append. */
  function UploadUpdate(versions: seq<VersionInfo>, file: Option<Upload>, version: Option<string>,
                        releaseNotes: Option<string>, important: Option<string>, forceUpdate: Option<string>,
                        releaseDate: string): (r: (seq<VersionInfo>, UploadOutcome))
    ensures !r.1.Uploaded? ==> r.0 == versions
    ensures file.None? ==> r.1 == NoFile
    ensures r.1.Uploaded? <==>
      file.Some? && file.value.clientName != "" && EndsWith(file.value.clientName, ".deb") && Truthy(version)
    ensures r.1.Uploaded? ==>
      var e := r.1.entry;
      && e.version == version.value && e.filename == file.value.storedName && e.fileSize == file.value.size
      && e.releaseNotes == (if releaseNotes.Some? then releaseNotes.value else "")
      && e.releaseDate == releaseDate && e.important == FormFlag(important) && e.forceUpdate == FormFlag(forceUpdate)
      && match FindVersion(versions, version.value)
         case Some(i) => r.0 == versions[i := e]
         case None => r.0 == versions + [e]
  {
    if file.None? then (versions, NoFile)
    else if file.value.clientName == "" then (versions, NoFileSelected)
    else if !EndsWith(file.value.clientName, ".deb") then (versions, NotDeb)
    else if !Truthy(version) then (versions, NoVersion)
    else
      var e := VersionInfo(version.value, file.value.storedName,
                           if releaseNotes.Some? then releaseNotes.value else "",
                           releaseDate, file.value.size, FormFlag(important), FormFlag(forceUpdate));
      match FindVersion(versions, version.value)
      case Some(i) => (versions[i := e], Uploaded(e))
      case None => (versions + [e], Uploaded(e))
  }

  /** DELETE /delete/<version>: remove the first matching entry unless removing its file fails.
      `removalFails` says whether the entry's file exists on disk and deleting it raises. */
  function DeleteUpdate(versions: seq<VersionInfo>, version: string, removalFails: bool)
    : (r: (seq<VersionInfo>, DeleteOutcome))
    ensures !r.1.Deleted? ==> r.0 == versions
    ensures version == "" ==> r.1 == BadVersion
    ensures version != "" && FindVersion(versions, version).None? ==> r.1 == NotFound
    ensures r.1.Deleted? ==>
      var i := FindVersion(versions, version).value;
      && r.1.entry == versions[i]
      && r.0 == versions[..i] + versions[i + 1..]
    ensures r.1 == FileRemovalFailed <==>
      version != "" && FindVersion(versions, version).Some? && versions[FindVersion(versions, version).value].filename != ""
      && removalFails
  {
    if version == "" then (versions, BadVersion)
    else
      match FindVersion(versions, version)
      case None => (versions, NotFound)
      case Some(i) =>
        if versions[i].filename != "" && removalFails then (versions, FileRemovalFailed)
        else (versions[..i] + versions[i + 1..], Deleted(versions[i]))
  }

  // ---------------------------------------------------------------------------
  // Properties
  // ---------------------------------------------------------------------------

  /** No two entries share a version string. */
  predicate DistinctVersions(versions: seq<VersionInfo>) {
    forall i, j :: 0 <= i < j < |versions| ==> versions[i].version != versions[j].version
  }

  /** Uploading keeps versions distinct, and the list grows by one exactly when the version is new. */
  lemma UploadKeepsDistinct(versions: seq<VersionInfo>, file: Option<Upload>, version: Option<string>,
                            notes: Option<string>, imp: Option<string>, force: Option<string>, date: string)
    requires DistinctVersions(versions)
    ensures var (vs, out) := UploadUpdate(versions, file, version, notes, imp, force, date);
      && DistinctVersions(vs)
      && (out.Uploaded? ==>
            |vs| == |versions| + (if FindVersion(versions, version.value).None? then 1 else 0))
  {
    var (vs, out) := UploadUpdate(versions, file, version, notes, imp, force, date);
    if out.Uploaded? {
      match FindVersion(versions, version.value)
      case Some(k) => ReplaceKeepsDistinct(versions, k, out.entry);
      case None => AppendKeepsDistinct(versions, out.entry);
    }
  }

  lemma ReplaceKeepsDistinct(versions: seq<VersionInfo>, k: nat, e: VersionInfo)
    requires DistinctVersions(versions) && k < |versions| && e.version == versions[k].version
    ensures DistinctVersions(versions[k := e])
  {
    var vs := versions[k := e];
    assert forall i :: 0 <= i < |vs| ==> vs[i].version == versions[i].version;
  }

  lemma AppendKeepsDistinct(versions: seq<VersionInfo>, e: VersionInfo)
    requires DistinctVersions(versions)
    requires forall i :: 0 <= i < |versions| ==> versions[i].version != e.version
    ensures DistinctVersions(versions + [e])
  {
    var vs := versions + [e];
    assert forall i :: 0 <= i < |versions| ==> vs[i] == versions[i];
  }

  /** On distinct versions a successful delete removes the version entirely, and the others keep their order. */
  lemma DeleteRemovesVersion(versions: seq<VersionInfo>, version: string, removalFails: bool)
    requires DistinctVersions(versions)
    ensures var (vs, out) := DeleteUpdate(versions, version, removalFails);
      out.Deleted? ==> |vs| == |versions| - 1 && FindVersion(vs, version).None? && DistinctVersions(vs)
  {
    var (vs, out) := DeleteUpdate(versions, version, removalFails);
    if out.Deleted? {
      var i := FindVersion(versions, version).value;
      forall j | 0 <= j < |vs| ensures vs[j].version != version {
        if j < i { assert vs[j] == versions[j]; } else { assert vs[j] == versions[j + 1]; }
      }
      forall a, b | 0 <= a < b < |vs| ensures vs[a].version != vs[b].version {
        var a' := if a < i then a else a + 1;
        var b' := if b < i then b else b + 1;
        assert vs[a] == versions[a'] && vs[b] == versions[b'];
      }
    }
  }

  /** Uploading a version and then deleting it (with its file removable) restores a list that lacked it. */
  lemma UploadThenDelete(versions: seq<VersionInfo>, up: Upload, version: string, date: string)
    requires up.clientName != "" && EndsWith(up.clientName, ".deb") && version != ""
    requires FindVersion(versions, version).None?
    ensures var vs := UploadUpdate(versions, Some(up), Some(version), None, None, None, date).0;
      DeleteUpdate(vs, version, false).0 == versions
  {
    var vs := UploadUpdate(versions, Some(up), Some(version), None, None, None, date).0;
    assert vs == versions + [vs[|versions|]];
    assert FindVersion(vs, version) == Some(|versions|) by {
      assert forall i :: 0 <= i < |versions| ==> vs[i] == versions[i];
    }
    assert vs[..|versions|] == versions;
  }

  /** Non-numeric parts make the whole key fall back to (0, 0, 0). */
  lemma NonNumericFallsBack()
    ensures VersionKey("beta") == FallbackKey
  {
    assert "beta" == Join(["beta"], '.');
    SplitJoin(["beta"], '.');
    assert !IsSpace("beta"[0]);
    assert TrimStart("beta", IsSpace) == "beta";
    assert !IsSpace("beta"[3]);
    assert Trim("beta") == "beta";
    assert !DigitGroups("beta");
  }
}

=== FILE: user_routes.dfy ===
/** The request guards of the user endpoints: registration validation, the
    session-start default, the self-request and self-block guards, and the
    search-query guard. Character classes are ASCII. */
module UserRoutes {
  import opened Common
  import opened UserService

  datatype Outcome<T> = BadRequest | Refused | Ok(value: T)

  const MinUseridLength := 5
  const UsernameLength := 5
  const MinQueryLength := 2
  const DefaultSessionType := "video_call"

  /** The server's username rule: exactly five alphanumeric characters. */
  predicate ValidUsername(u: string) {
    |u| == UsernameLength && forall i :: 0 <= i < |u| ==> IsAlnum(u[i])
  }

  /** Which registration check rejects the request first, if any. */
  datatype RegisterCheck = MissingUserid | MissingUsername | UseridTooShort | BadUsername | Valid

  function CheckRegistration(userid: Option<string>, username: Option<string>): (r: RegisterCheck)
    ensures r == Valid <==>
      Truthy(userid) && Truthy(username) && |userid.value| >= MinUseridLength && ValidUsername(username.value)
    ensures r == MissingUserid <==> !Truthy(userid)
    ensures r == MissingUsername <==> Truthy(userid) && !Truthy(username)
  {
    if !Truthy(userid) then MissingUserid
    else if !Truthy(username) then MissingUsername
    else if |userid.value| < MinUseridLength then UseridTooShort
    else if !ValidUsername(username.value) then BadUsername
    else Valid
  }

  /** POST /register: validate, then register or update with the defaults filled in. */
  function Register(db: Db, userid: Option<string>, username: Option<string>, displayName: Option<string>,
                    deviceType: Option<string>, metadata: Option<map<string, string>>, now: int)
    : (r: (Outcome<Registered>, Db))
    ensures CheckRegistration(userid, username) != Valid ==> r == (BadRequest, db)
    ensures CheckRegistration(userid, username) == Valid ==>
      && r.0.Ok?
      && username.value in r.1.users
      && ValidUsername(username.value)
      && (username.value !in db.users ==>
            && r.1.users[username.value].deviceType == (if deviceType.Some? then deviceType.value else "smarttv")
            && r.1.users[username.value].metadata == (if metadata.Some? then metadata.value else map[]))
      && (r.1, r.0.value) == RegisterOrUpdate(db, userid.value, username.value, displayName,
            if deviceType.Some? then deviceType.value else DefaultDeviceType,
            Some(if metadata.Some? then metadata.value else map[]), now)
  {
    if CheckRegistration(userid, username) != Valid then (BadRequest, db)
    else
      var dt := if deviceType.Some? then deviceType.value else DefaultDeviceType;
      var meta := if metadata.Some? then metadata.value else map[];
      var (db', reg) := RegisterOrUpdate(db, userid.value, username.value, displayName, dt, Some(meta), now);
      (Ok(reg), db')
  }

  /** POST /session/start: username required; session type defaults to 'video_call'. */
  function StartSession(db: Db, username: Option<string>, sessionType: Option<string>, roomName: Option<string>,
                        autoId: string, now: nat): (r: (Outcome<string>, Db))
    requires AutoUserid(autoId)
    ensures !Truthy(username) ==> r == (BadRequest, db)
    ensures Truthy(username) ==>
      && r.0 == Ok(SessionToken(username.value, now))
      && |r.1.sessions| == |db.sessions| + 1
      && var s := r.1.sessions[|db.sessions|];
         s.isActive && s.sessionType == (if sessionType.Some? then sessionType.value else "video_call")
  {
    if !Truthy(username) then (BadRequest, db)
    else
      var st := if sessionType.Some? then sessionType.value else DefaultSessionType;
      var (db', token) := CreateSession(db, username.value, st, roomName, autoId, now);
      (Ok(token), db')
  }

  /** POST /friends/request: both names required and different. */
  function SendFriendRequestRoute(db: Db, sender: Option<string>, receiver: Option<string>,
                                  message: Option<string>, now: int): (r: (Outcome<()>, Db))
    ensures !Truthy(sender) || !Truthy(receiver) || sender == receiver ==> r == (BadRequest, db)
    ensures Truthy(sender) && Truthy(receiver) && sender != receiver ==>
      var (db', ok) := SendFriendRequest(db, sender.value, receiver.value, message, now);
      r == (if ok then Ok(()) else Refused, db')
  {
    if !Truthy(sender) || !Truthy(receiver) || sender.value == receiver.value then (BadRequest, db)
    else
      var (db', ok) := SendFriendRequest(db, sender.value, receiver.value, message, now);
      (if ok then Ok(()) else Refused, db')
  }

  /** POST /friends/block: both names required and different. */
  function BlockRoute(db: Db, username: Option<string>, blocked: Option<string>): (r: (Outcome<()>, Db))
    ensures !Truthy(username) || !Truthy(blocked) || username == blocked ==> r == (BadRequest, db)
    ensures Truthy(username) && Truthy(blocked) && username != blocked ==>
      var (db', ok) := BlockUser(db, username.value, blocked.value);
      r == (if ok then Ok(()) else Refused, db')
  {
    if !Truthy(username) || !Truthy(blocked) || username.value == blocked.value then (BadRequest, db)
    else
      var (db', ok) := BlockUser(db, username.value, blocked.value);
      (if ok then Ok(()) else Refused, db')
  }

  /** GET /search: the stripped query goes to the service only when it has at least two characters. */
  function SearchQuery(q: Option<string>): (r: Option<string>)
    ensures r.Some? ==> |r.value| >= MinQueryLength
    ensures q.None? ==> r.None?
    ensures q.Some? ==> (r.Some? <==> |Strip(q.value)| >= MinQueryLength)
    ensures r.Some? ==> r.value == Strip(q.value)
  {
    var t := Strip(if q.Some? then q.value else "");
    if t == "" || |t| < MinQueryLength then None else Some(t)
  }

  // ---------------------------------------------------------------------------
  // Properties
  // ---------------------------------------------------------------------------

  /** A blank query never reaches the service, and a query that reaches it has no
      surrounding whitespace. */
  lemma SearchSkipsBlank(q: string)
    ensures AllBlank(q, IsPySpace) ==> SearchQuery(Some(q)).None?
    ensures SearchQuery(Some(q)).Some? ==>
      var t := SearchQuery(Some(q)).value;
      !IsPySpace(t[0]) && !IsPySpace(t[|t| - 1])
  {
    TrimSpec(q, IsPySpace);
    var t := Strip(q);
    assert SearchQuery(Some(q)) == (if t == "" || |t| < MinQueryLength then None else Some(t));
  }

  /** The information separators U+001C..U+001F count as whitespace for the strip. */
  lemma SeparatorsAreStripped()
    ensures SearchQuery(Some("\U{001C}\U{001F}")).None?
    ensures SearchQuery(Some("\U{001C}ab\U{001D}")) == Some("ab")
  {
    assert TrimStart("\U{001C}ab\U{001D}", IsPySpace) == "ab\U{001D}";
    assert TrimEnd("ab\U{001D}", IsPySpace) == "ab";
    SearchSkipsBlank("\U{001C}\U{001F}");
  }

  /** A user can never become their own friend-request target or block themselves
      through the routes, whatever the service would do. */
  lemma SelfRequestsRejected(db: Db, u: string, message: Option<string>, now: int)
    ensures SendFriendRequestRoute(db, Some(u), Some(u), message, now) == (BadRequest, db)
    ensures BlockRoute(db, Some(u), Some(u)) == (BadRequest, db)
  {
  }

  /** Every registered username satisfies the username rule, so a store built only
      through the registration route holds only valid usernames. */
  lemma RegisterKeepsValidUsernames(db: Db, userid: Option<string>, username: Option<string>,
                                    displayName: Option<string>, deviceType: Option<string>,
                                    metadata: Option<map<string, string>>, now: int)
    requires forall u :: u in db.users ==> ValidUsername(u)
    ensures var db' := Register(db, userid, username, displayName, deviceType, metadata, now).1;
      forall u :: u in db'.users ==> ValidUsername(u)
  {
  }

  /** Concrete registrations: a four-character userid and a six-character username are refused. */
  lemma RegistrationExamples()
    ensures CheckRegistration(Some("ABCD"), Some("AB12C")) == UseridTooShort
    ensures CheckRegistration(Some("ABCDE"), Some("AB12CD")) == BadUsername
    ensures CheckRegistration(Some("ABCDE"), Some("AB-2C")) == BadUsername
    ensures CheckRegistration(Some("ABCDE"), Some("AB12C")) == Valid
  {
    assert !IsAlnum("AB-2C"[2]);
  }
}

=== FILE: user_service.dfy ===
/** The backend user service: the user table keyed by username, user sessions,
    friend requests and the friendship/block relation. Friend requests and
    friendships are keyed by ordered pairs of userids. */
module UserService {
  import opened Common

  datatype User = User(userid: string, displayName: string, deviceType: string,
                       metadata: map<string, string>, lastSeen: int)

  datatype Session = Session(userid: string, token: string, sessionType: string,
                             roomName: Option<string>, isActive: bool, endedAt: Option<int>)

  datatype RequestStatus = RequestPending | RequestAccepted | RequestDeclined

  datatype FriendRequest = FriendRequest(message: Option<string>, status: RequestStatus,
                                         createdAt: int, respondedAt: Option<int>)

  datatype FriendStatus = Accepted | Blocked

  datatype Db = Db(
    users: map<string, User>,
    sessions: seq<Session>,
    requests: map<(string, string), FriendRequest>,
    friends: map<(string, string), FriendStatus>)

  /** What registration reports back. */
  datatype Registered = Registered(userid: string, username: string, displayName: string, isNewUser: bool)

  const DefaultDeviceType := "smarttv"
  const AutoUseridLength := 17

  /** Register a new username, or refresh an existing one's last-seen time and,
      when a different non-empty display name is supplied, its display name. */
  function RegisterOrUpdate(db: Db, userid: string, username: string, displayName: Option<string>,
                            deviceType: string, metadata: Option<map<string, string>>, now: int)
    : (r: (Db, Registered))
    ensures r.0.users.Keys == db.users.Keys + {username}
    ensures forall u :: u in db.users && u != username ==> r.0.users[u] == db.users[u]
    ensures r.0.sessions == db.sessions && r.0.requests == db.requests && r.0.friends == db.friends
    ensures r.1.isNewUser <==> username !in db.users
    ensures r.1.username == username && r.1.userid == r.0.users[username].userid
    ensures r.1.displayName == r.0.users[username].displayName
    ensures r.0.users[username].lastSeen == now
    ensures username in db.users ==>
      var old_ := db.users[username];
      && r.0.users[username].userid == old_.userid
      && r.0.users[username].deviceType == old_.deviceType
      && r.0.users[username].metadata == old_.metadata
      && (Truthy(displayName) ==> r.0.users[username].displayName == displayName.value)
      && (!Truthy(displayName) ==> r.0.users[username].displayName == old_.displayName)
    ensures username !in db.users ==>
      && r.0.users[username].userid == userid
      && r.0.users[username].displayName == (if Truthy(displayName) then displayName.value else username)
      && r.0.users[username].deviceType == deviceType
      && r.0.users[username].metadata == (if metadata.Some? then metadata.value else map[])
  {
    if username in db.users then
      var u := db.users[username];
      var name := if Truthy(displayName) && displayName.value != u.displayName then displayName.value else u.displayName;
      var u' := u.(lastSeen := now, displayName := name);
      (db.(users := db.users[username := u']), Registered(u'.userid, username, u'.displayName, false))
    else
      var name := if Truthy(displayName) then displayName.value else username;
      var meta := if metadata.Some? then metadata.value else map[];
      var u' := User(userid, name, deviceType, meta, now);
      (db.(users := db.users[username := u']), Registered(userid, username, name, true))
  }

  /** A userid the service may generate on auto-registration: 17 characters over A-Z and 0-9. */
  predicate AutoUserid(s: string) {
    |s| == AutoUseridLength && forall i :: 0 <= i < |s| ==> IsUpper(s[i]) || IsDigit(s[i])
  }

  /** The session token: the username, an underscore and the whole-second timestamp. */
  function SessionToken(username: string, now: nat): (t: string)
    ensures |t| > |username| + 1 && t[..|username|] == username && t[|username|] == '_'
    ensures AllDigits(t[|username| + 1..]) && ParseDigits(t[|username| + 1..]) == now
  {
    ParseNatToString(now);
    assert (username + "_" + NatToString(now))[|username| + 1..] == NatToString(now);
    username + "_" + NatToString(now)
  }

  /** End every active session of `userid`, stamping the end time; other sessions keep their state. */
  function DeactivateSessions(sessions: seq<Session>, userid: string, now: int): (r: seq<Session>)
    ensures |r| == |sessions|
    ensures forall i :: 0 <= i < |r| ==>
      if sessions[i].userid == userid && sessions[i].isActive
      then r[i] == sessions[i].(isActive := false, endedAt := Some(now))
      else r[i] == sessions[i]
  {
    seq(|sessions|, i requires 0 <= i < |sessions| =>
      if sessions[i].userid == userid && sessions[i].isActive
      then sessions[i].(isActive := false, endedAt := Some(now))
      else sessions[i])
  }

  /** Each userid owns at most one active session. */
  predicate AtMostOneActiveSession(sessions: seq<Session>) {
    forall i, j :: 0 <= i < j < |sessions| && sessions[i].isActive && sessions[j].isActive
      ==> sessions[i].userid != sessions[j].userid
  }

  /** Start a session, auto-registering an unknown username with the generated userid
      `autoId`, after ending the user's active sessions. */
  function CreateSession(db: Db, username: string, sessionType: string, roomName: Option<string>,
                         autoId: string, now: nat): (r: (Db, string))
    requires AutoUserid(autoId)
    ensures username in r.0.users
    ensures username in db.users ==> r.0.users == db.users
    ensures username !in db.users ==>
      && r.0.users[username].userid == autoId
      && r.0.users[username].displayName == username
    ensures r.0.requests == db.requests && r.0.friends == db.friends
    ensures r.1 == SessionToken(username, now)
    ensures |r.0.sessions| == |db.sessions| + 1
    ensures var uid := r.0.users[username].userid;
      && r.0.sessions[|db.sessions|] == Session(uid, r.1, sessionType, roomName, true, None)
      && (forall i :: 0 <= i < |db.sessions| ==> r.0.sessions[i].userid == db.sessions[i].userid)
      && (forall i :: 0 <= i < |db.sessions| && db.sessions[i].userid == uid ==> !r.0.sessions[i].isActive)
      && (forall i :: 0 <= i < |db.sessions| && db.sessions[i].userid != uid ==> r.0.sessions[i] == db.sessions[i])
      && r.0.sessions[..|db.sessions|] == DeactivateSessions(db.sessions, uid, now)
  {
    var db1 := if username in db.users then db
               else RegisterOrUpdate(db, autoId, username, None, DefaultDeviceType, None, now).0;
    var uid := db1.users[username].userid;
    var token := SessionToken(username, now);
    (db1.(sessions := DeactivateSessions(db1.sessions, uid, now) + [Session(uid, token, sessionType, roomName, true, None)]),
     token)
  }

  /** The "already friends" test as the query's operator precedence makes it: a
      sender-to-receiver row of any status, or an accepted receiver-to-sender row. */
  predicate FriendshipRowBlocksRequest(friends: map<(string, string), FriendStatus>, s: string, r: string) {
    (s, r) in friends || ((r, s) in friends && friends[(r, s)] == Accepted)
  }

  /** Send (or re-send) a friend request. */
  function SendFriendRequest(db: Db, sender: string, receiver: string, message: Option<string>, now: int)
    : (r: (Db, bool))
    ensures r.1 <==>
      && sender in db.users && receiver in db.users
      && db.users[sender].userid != db.users[receiver].userid
      && !FriendshipRowBlocksRequest(db.friends, db.users[sender].userid, db.users[receiver].userid)
    ensures !r.1 ==> r.0 == db
    ensures r.1 ==>
      var key := (db.users[sender].userid, db.users[receiver].userid);
      && r.0.requests.Keys == db.requests.Keys + {key}
      && r.0.requests[key] == FriendRequest(message, RequestPending, now, None)
      && (forall k :: k in db.requests && k != key ==> r.0.requests[k] == db.requests[k])
      && r.0.users == db.users && r.0.sessions == db.sessions && r.0.friends == db.friends
  {
    if sender !in db.users || receiver !in db.users then (db, false)
    else
      var s := db.users[sender].userid;
      var rc := db.users[receiver].userid;
      if s == rc then (db, false)
      else if FriendshipRowBlocksRequest(db.friends, s, rc) then (db, false)
      else (db.(requests := db.requests[(s, rc) := FriendRequest(message, RequestPending, now, None)]), true)
  }

  /** Accept: a pending request becomes accepted, and both friendship rows become
      accepted whether or not a pending request existed. */
  function AcceptFriendRequest(db: Db, sender: string, receiver: string, now: int): (r: (Db, bool))
    ensures r.1 <==> sender in db.users && receiver in db.users
    ensures !r.1 ==> r.0 == db
    ensures r.1 ==>
      var s := db.users[sender].userid;
      var rc := db.users[receiver].userid;
      && r.0.users == db.users && r.0.sessions == db.sessions
      && r.0.friends.Keys == db.friends.Keys + {(s, rc), (rc, s)}
      && r.0.friends[(s, rc)] == Accepted && r.0.friends[(rc, s)] == Accepted
      && (forall k :: k in db.friends && k != (s, rc) && k != (rc, s) ==> r.0.friends[k] == db.friends[k])
      && r.0.requests.Keys == db.requests.Keys
      && (forall k :: k in db.requests && k != (s, rc) ==> r.0.requests[k] == db.requests[k])
      && ((s, rc) in db.requests && db.requests[(s, rc)].status == RequestPending ==>
            r.0.requests[(s, rc)] == db.requests[(s, rc)].(status := RequestAccepted, respondedAt := Some(now)))
      && ((s, rc) in db.requests && db.requests[(s, rc)].status != RequestPending ==>
            r.0.requests[(s, rc)] == db.requests[(s, rc)])
  {
    if sender !in db.users || receiver !in db.users then (db, false)
    else
      var s := db.users[sender].userid;
      var rc := db.users[receiver].userid;
      var reqs := if (s, rc) in db.requests && db.requests[(s, rc)].status == RequestPending
                  then db.requests[(s, rc) := db.requests[(s, rc)].(status := RequestAccepted, respondedAt := Some(now))]
                  else db.requests;
      (db.(requests := reqs, friends := db.friends[(s, rc) := Accepted][(rc, s) := Accepted]), true)
  }

  /** Decline a pending request; the boolean reports whether a pending request was found. */
  function DeclineFriendRequest(db: Db, sender: string, receiver: string, now: int): (r: (Db, bool))
    ensures r.1 <==>
      && sender in db.users && receiver in db.users
      && (db.users[sender].userid, db.users[receiver].userid) in db.requests
      && db.requests[(db.users[sender].userid, db.users[receiver].userid)].status == RequestPending
    ensures !r.1 ==> r.0 == db
    ensures r.1 ==>
      var key := (db.users[sender].userid, db.users[receiver].userid);
      r.0 == db.(requests := db.requests[key := db.requests[key].(status := RequestDeclined, respondedAt := Some(now))])
  {
    if sender !in db.users || receiver !in db.users then (db, false)
    else
      var key := (db.users[sender].userid, db.users[receiver].userid);
      if key in db.requests && db.requests[key].status == RequestPending then
        (db.(requests := db.requests[key := db.requests[key].(status := RequestDeclined, respondedAt := Some(now))]), true)
      else (db, false)
  }

  /** Delete the friendship rows between two userids, in both directions. */
  function DeletePair(friends: map<(string, string), FriendStatus>, a: string, b: string)
    : (r: map<(string, string), FriendStatus>)
    ensures forall k :: k in r <==> k in friends && k != (a, b) && k != (b, a)
    ensures forall k :: k in r ==> r[k] == friends[k]
  {
    friends - {(a, b), (b, a)}
  }

  /** Remove a friendship in both directions (any status, blocks included). */
  function RemoveFriend(db: Db, user1: string, user2: string): (r: (Db, bool))
    ensures r.1 <==> user1 in db.users && user2 in db.users
    ensures !r.1 ==> r.0 == db
    ensures r.1 ==>
      var a := db.users[user1].userid;
      var b := db.users[user2].userid;
      && (a, b) !in r.0.friends && (b, a) !in r.0.friends
      && r.0.friends == DeletePair(db.friends, a, b)
      && r.0.users == db.users && r.0.sessions == db.sessions && r.0.requests == db.requests
  {
    if user1 !in db.users || user2 !in db.users then (db, false)
    else (db.(friends := DeletePair(db.friends, db.users[user1].userid, db.users[user2].userid)), true)
  }

  /** Block: drop any friendship rows in both directions, then record one blocking row. */
  function BlockUser(db: Db, user: string, blocked: string): (r: (Db, bool))
    ensures r.1 <==> user in db.users && blocked in db.users
    ensures !r.1 ==> r.0 == db
    ensures r.1 ==>
      var a := db.users[user].userid;
      var b := db.users[blocked].userid;
      && r.0.friends.Keys == (db.friends.Keys - {(b, a)}) + {(a, b)}
      && r.0.friends[(a, b)] == Blocked
      && (forall k :: k in db.friends && k != (a, b) && k != (b, a) ==> r.0.friends[k] == db.friends[k])
      && r.0.users == db.users && r.0.sessions == db.sessions && r.0.requests == db.requests
  {
    if user !in db.users || blocked !in db.users then (db, false)
    else
      var db1 := RemoveFriend(db, user, blocked).0;
      var a := db.users[user].userid;
      var b := db.users[blocked].userid;
      (db1.(friends := db1.friends[(a, b) := Blocked]), true)
  }

  /** Unblock: delete the user-to-blocked row only when it is a block; the boolean reports that. */
  function UnblockUser(db: Db, user: string, blocked: string): (r: (Db, bool))
    ensures r.1 <==>
      && user in db.users && blocked in db.users
      && (db.users[user].userid, db.users[blocked].userid) in db.friends
      && db.friends[(db.users[user].userid, db.users[blocked].userid)] == Blocked
    ensures !r.1 ==> r.0 == db
    ensures r.1 ==> r.0 == db.(friends := db.friends - {(db.users[user].userid, db.users[blocked].userid)})
  {
    if user !in db.users || blocked !in db.users then (db, false)
    else
      var key := (db.users[user].userid, db.users[blocked].userid);
      if key in db.friends && db.friends[key] == Blocked then (db.(friends := db.friends - {key}), true)
      else (db, false)
  }

  // ---------------------------------------------------------------------------
  // Properties
  // ---------------------------------------------------------------------------

  /** Accepted friendship rows come in symmetric pairs. */
  predicate AcceptedSymmetric(friends: map<(string, string), FriendStatus>) {
    forall k :: k in friends && friends[k] == Accepted ==> (k.1, k.0) in friends && friends[(k.1, k.0)] == Accepted
  }

  /** Every friendship operation keeps accepted rows symmetric. */
  lemma FriendOpsKeepSymmetry(db: Db, u1: string, u2: string, message: Option<string>, now: int)
    requires AcceptedSymmetric(db.friends)
    ensures AcceptedSymmetric(SendFriendRequest(db, u1, u2, message, now).0.friends)
    ensures AcceptedSymmetric(AcceptFriendRequest(db, u1, u2, now).0.friends)
    ensures AcceptedSymmetric(DeclineFriendRequest(db, u1, u2, now).0.friends)
    ensures AcceptedSymmetric(RemoveFriend(db, u1, u2).0.friends)
    ensures AcceptedSymmetric(BlockUser(db, u1, u2).0.friends)
    ensures AcceptedSymmetric(UnblockUser(db, u1, u2).0.friends)
  {
    if u1 in db.users && u2 in db.users {
      var a := db.users[u1].userid;
      var b := db.users[u2].userid;
      var f := BlockUser(db, u1, u2).0.friends;
      forall k | k in f && f[k] == Accepted
        ensures (k.1, k.0) in f && f[(k.1, k.0)] == Accepted
      {
        assert k != (a, b) && k != (b, a);
        assert (k.1, k.0) != (a, b) && (k.1, k.0) != (b, a);
      }
      var g := RemoveFriend(db, u1, u2).0.friends;
      forall k | k in g && g[k] == Accepted
        ensures (k.1, k.0) in g && g[(k.1, k.0)] == Accepted
      {
        assert (k.1, k.0) != (a, b) && (k.1, k.0) != (b, a);
      }
    }
  }

  /** Re-registering an existing username keeps its userid, whatever userid is supplied. */
  lemma ReRegisterKeepsUserid(db: Db, userid: string, username: string, displayName: Option<string>,
                              deviceType: string, metadata: Option<map<string, string>>, now: int)
    requires username in db.users
    ensures RegisterOrUpdate(db, userid, username, displayName, deviceType, metadata, now).1
      == Registered(db.users[username].userid, username,
                    if Truthy(displayName) then displayName.value else db.users[username].displayName, false)
  {
  }

  /** Creating a session keeps at most one active session per userid. */
  lemma CreateSessionKeepsOneActive(db: Db, username: string, sessionType: string, roomName: Option<string>,
                                    autoId: string, now: nat)
    requires AutoUserid(autoId)
    requires AtMostOneActiveSession(db.sessions)
    ensures AtMostOneActiveSession(CreateSession(db, username, sessionType, roomName, autoId, now).0.sessions)
  {
    var r := CreateSession(db, username, sessionType, roomName, autoId, now).0;
    var uid := r.users[username].userid;
    var n := |db.sessions|;
    forall i, j | 0 <= i < j < |r.sessions| && r.sessions[i].isActive && r.sessions[j].isActive
      ensures r.sessions[i].userid != r.sessions[j].userid
    {
      if j == n {
        assert r.sessions[i].userid == db.sessions[i].userid;
        assert db.sessions[i].userid != uid;
      } else {
        assert r.sessions[i] == db.sessions[i] && r.sessions[j] == db.sessions[j];
      }
    }
  }

  /** A user who has blocked the receiver cannot send them a friend request: the
      sender-to-receiver row counts as "already friends" whatever its status. */
  lemma BlockerCannotRequest(db: Db, sender: string, receiver: string, message: Option<string>, now: int)
    requires sender in db.users && receiver in db.users
    requires (db.users[sender].userid, db.users[receiver].userid) in db.friends
    ensures SendFriendRequest(db, sender, receiver, message, now) == (db, false)
  {
  }

  /** A user who has been blocked can still send a friend request to the blocker:
      the receiver-to-sender row counts only when accepted. */
  lemma BlockedCanRequest()
    ensures
      var db := Db(map["alice" := User("A1", "alice", "smarttv", map[], 0),
                       "bob" := User("B1", "bob", "smarttv", map[], 0)],
                   [], map[], map[("B1", "A1") := Blocked]);
      SendFriendRequest(db, "alice", "bob", None, 1).1
  {
  }

  /** Accepting needs no pending request, and it replaces a block with a friendship. */
  lemma AcceptOverridesBlock(db: Db, sender: string, receiver: string, now: int)
    requires sender in db.users && receiver in db.users
    ensures
      var f := AcceptFriendRequest(db, sender, receiver, now).0.friends;
      var s := db.users[sender].userid;
      var r := db.users[receiver].userid;
      f[(s, r)] == Accepted && f[(r, s)] == Accepted
  {
  }

  /** Block then unblock leaves no friendship rows between the two users. */
  lemma BlockThenUnblock(db: Db, user: string, blocked: string)
    requires user in db.users && blocked in db.users
    ensures
      var db1 := BlockUser(db, user, blocked).0;
      var r := UnblockUser(db1, user, blocked);
      var a := db.users[user].userid;
      var b := db.users[blocked].userid;
      r.1 && (a, b) !in r.0.friends && (b, a) !in r.0.friends
  {
  }

  /** Re-sending a request resets it to pending with no response time. */
  lemma ResendResetsRequest(db: Db, sender: string, receiver: string, m1: Option<string>, m2: Option<string>,
                            t1: int, t2: int)
    requires SendFriendRequest(db, sender, receiver, m1, t1).1
    ensures
      var db1 := DeclineFriendRequest(SendFriendRequest(db, sender, receiver, m1, t1).0, sender, receiver, t2).0;
      var key := (db.users[sender].userid, db.users[receiver].userid);
      SendFriendRequest(db1, sender, receiver, m2, t2).0.requests[key] == FriendRequest(m2, RequestPending, t2, None)
  {
  }
}

=== FILE: user_utils.dfy ===
/** The TV UI's persistent call id: a random five-character username kept in
    the browser's local storage under one key, with an in-memory fallback when
    storage is unavailable. Randomness arrives as parameters. */
module UserUtils {
  import opened Common
  import UserRoutes

  const StorageKey := "smarttv_user_id"
  const UsernameAlphabet := "ABCDEFGHIJKLMNOPQRSTUVWXYZ0123456789"
  const UsernameLength := 5

  /** Local storage, or its absence (every access throws). */
  datatype Storage = Available(items: map<string, string>) | Unavailable

  datatype Utils = Utils(storage: Storage, sessionUsername: Option<string>, username: string)

  predicate ValidPicks(picks: seq<nat>) {
    |picks| == UsernameLength && forall i :: 0 <= i < |picks| ==> picks[i] < |UsernameAlphabet|
  }

  /** `generateUsername`: `picks` are the five draws of `floor(random() * 36)`. */
  function GenerateUsername(picks: seq<nat>): (name: string)
    requires ValidPicks(picks)
    ensures |name| == UsernameLength
    ensures forall i :: 0 <= i < |name| ==> name[i] == UsernameAlphabet[picks[i]]
  {
    seq(UsernameLength, i requires 0 <= i < UsernameLength => UsernameAlphabet[picks[i]])
  }

  /** `getOrCreateUsername`: the stored name when it is non-empty; otherwise a new
      one, stored (or, without storage, kept for the session). */
  function GetOrCreate(u: Utils, picks: seq<nat>): (r: (string, Utils))
    requires ValidPicks(picks)
    ensures r.1.username == u.username
    ensures u.storage.Available? && StorageKey in u.storage.items && u.storage.items[StorageKey] != "" ==>
      r == (u.storage.items[StorageKey], u)
    ensures u.storage.Available? && !(StorageKey in u.storage.items && u.storage.items[StorageKey] != "") ==>
      r.0 == GenerateUsername(picks)
      && r.1 == u.(storage := Available(u.storage.items[StorageKey := GenerateUsername(picks)]))
    ensures u.storage.Unavailable? ==> r.1.storage == Unavailable && r.1.sessionUsername == Some(r.0)
    ensures u.storage.Unavailable? && Truthy(u.sessionUsername) ==> r == (u.sessionUsername.value, u)
  {
    match u.storage
    case Available(items) =>
      if StorageKey in items && items[StorageKey] != "" then (items[StorageKey], u)
      else
        var name := GenerateUsername(picks);
        (name, u.(storage := Available(items[StorageKey := name])))
    case Unavailable =>
      if Truthy(u.sessionUsername) then (u.sessionUsername.value, u)
      else
        var name := GenerateUsername(picks);
        (name, u.(sessionUsername := Some(name)))
  }

  /** The constructor: the username is whatever `getOrCreateUsername` yields. */
  function Create(storage: Storage, picks: seq<nat>): (u: Utils)
    requires ValidPicks(picks)
    ensures u.username == GetOrCreate(Utils(storage, None, ""), picks).0
  {
    var (name, u) := GetOrCreate(Utils(storage, None, ""), picks);
    u.(username := name)
  }

  /** `resetUsername`: drop the stored key and take a fresh name; without storage the
      current name is kept. */
  function Reset(u: Utils, picks: seq<nat>): (r: (string, Utils))
    requires ValidPicks(picks)
    ensures u.storage.Unavailable? ==> r == (u.username, u)
    ensures u.storage.Available? ==>
      r.0 == GenerateUsername(picks) && r.1.username == r.0
      && r.1.storage == Available(u.storage.items[StorageKey := r.0])
  {
    match u.storage
    case Unavailable => (u.username, u)
    case Available(items) =>
      var (name, u') := GetOrCreate(u.(storage := Available(items - {StorageKey})), picks);
      RemoveThenSet(items, StorageKey, name);
      (name, u'.(username := name))
  }

  lemma RemoveThenSet(m: map<string, string>, k: string, v: string)
    ensures (m - {k})[k := v] == m[k := v]
  {
  }

  // ---------------------------------------------------------------------------
  // Properties
  // ---------------------------------------------------------------------------

  /** Every generated name passes the server's registration rule for usernames. */
  lemma GeneratedNamePassesServerCheck(picks: seq<nat>)
    requires ValidPicks(picks)
    ensures UserRoutes.ValidUsername(GenerateUsername(picks))
  {
    var name := GenerateUsername(picks);
    forall i | 0 <= i < |name| ensures IsAlnum(name[i]) {
      AlphabetAlnum(picks[i]);
    }
  }

  lemma AlphabetAlnum(k: nat)
    requires k < |UsernameAlphabet|
    ensures IsUpper(UsernameAlphabet[k]) || IsDigit(UsernameAlphabet[k])
  {
  }

  /** The first call settles the name: a second call returns it and changes nothing. */
  lemma GetOrCreateIsStable(u: Utils, picks: seq<nat>, picks2: seq<nat>)
    requires ValidPicks(picks) && ValidPicks(picks2)
    ensures var (name, u') := GetOrCreate(u, picks);
      GetOrCreate(u', picks2) == (name, u')
  {
    var (name, u') := GetOrCreate(u, picks);
    if name == GenerateUsername(picks) {
      assert |name| == UsernameLength;
    }
  }

  /** A reset behaves as a first call on storage without the key. */
  lemma ResetIsFreshStart(u: Utils, picks: seq<nat>)
    requires ValidPicks(picks) && u.storage.Available?
    ensures Reset(u, picks).0 == GetOrCreate(u.(storage := Available(u.storage.items - {StorageKey})), picks).0
    ensures Reset(u, picks).0 == GenerateUsername(picks)
  {
  }
}

=== FILE: wifi_qr.dfy ===
/** The mobile remote's Wi-Fi sharing screen: the form's validation and the
    "WIFI:" barcode payload it encodes (the ZXing Wi-Fi network convention,
    written here without any escaping), plus a reader of that payload. */
module WifiQr {
  import opened Common

  /** The security types the screen offers; the form starts on WPA. */
  const SecurityTypes := ["WPA", "WEP", "nopass"]
  const DefaultSecurity := "WPA"

  datatype Form = Form(
    selectedSsid: string,
    manualSsid: string,
    password: string,
    security: string,
    qrData: string,
    showQr: bool,
    showManualInput: bool)

  const InitialForm := Form("", "", "", DefaultSecurity, "", false, false)

  datatype Outcome = NoNetwork | NoPassword | Generated(payload: string)

  /** The payload for one network, fields inserted verbatim. */
  function Payload(security: string, ssid: string, password: string): string {
    "WIFI:T:" + security + ";S:" + ssid + ";P:" + password + ";H:false;;"
  }

  /** `generateWifiQR`: both checks come before the payload; the selected network wins over a
      typed one, and the password is checked trimmed but encoded as typed. */
  function Generate(f: Form): (r: (Outcome, Form))
    ensures f.selectedSsid == "" && f.manualSsid == "" <==> r.0 == NoNetwork
    ensures r.0 == NoPassword <==> (f.selectedSsid != "" || f.manualSsid != "") && AllSpace(f.password)
    ensures r.0.Generated? ==>
      && r.0.payload == Payload(f.security, if f.selectedSsid != "" then f.selectedSsid else f.manualSsid, f.password)
      && r.1 == f.(qrData := r.0.payload, showQr := true)
    ensures !r.0.Generated? ==> r.1 == f
  {
    TrimSpec(f.password, IsSpace);
    if f.selectedSsid == "" && f.manualSsid == "" then (NoNetwork, f)
    else if Trim(f.password) == "" then (NoPassword, f)
    else
      var ssid := if f.selectedSsid != "" then f.selectedSsid else f.manualSsid;
      var p := Payload(f.security, ssid, f.password);
      (Generated(p), f.(qrData := p, showQr := true))
  }

  /** `resetForm`: everything typed or chosen is cleared; the security type is kept. */
  function ResetForm(f: Form): (r: Form)
    ensures r.selectedSsid == "" && r.manualSsid == "" && r.password == "" && r.qrData == ""
    ensures !r.showQr && !r.showManualInput && r.security == f.security
    ensures Generate(r).0 == NoNetwork
  {
    f.(selectedSsid := "", manualSsid := "", password := "", qrData := "", showQr := false, showManualInput := false)
  }

  /** Read a payload back: six `;`-separated fields with the fixed prefixes and tail. */
  function Decode(p: string): (r: Option<(string, string, string)>)
    ensures r.Some? ==> Payload(r.value.0, r.value.1, r.value.2) == p
  {
    var parts := Split(p, ';');
    if && |parts| == 6
       && |parts[0]| >= 7 && parts[0][..7] == "WIFI:T:"
       && |parts[1]| >= 2 && parts[1][..2] == "S:"
       && |parts[2]| >= 2 && parts[2][..2] == "P:"
       && parts[3] == "H:false" && parts[4] == "" && parts[5] == ""
    then
      var r := (parts[0][7..], parts[1][2..], parts[2][2..]);
      PayloadIsJoin(r.0, r.1, r.2);
      assert parts[0] == "WIFI:T:" + r.0 && parts[1] == "S:" + r.1 && parts[2] == "P:" + r.2;
      assert parts == ["WIFI:T:" + r.0, "S:" + r.1, "P:" + r.2, "H:false", "", ""];
      Some(r)
    else None
  }

  // ---------------------------------------------------------------------------
  // Properties
  // ---------------------------------------------------------------------------

  /** The payload is the six fields joined by `;`. */
  lemma PayloadIsJoin(security: string, ssid: string, password: string)
    ensures Payload(security, ssid, password)
      == Join(["WIFI:T:" + security, "S:" + ssid, "P:" + password, "H:false", "", ""], ';')
  {
    var p3: seq<string> := ["H:false", "", ""];
    var p2 := ["P:" + password] + p3;
    var p1 := ["S:" + ssid] + p2;
    var p0 := ["WIFI:T:" + security] + p1;
    assert p3[1..] == ["", ""] && ["", ""][1..] == [""];
    assert Join(p3, ';') == "H:false;;";
    assert p2[1..] == p3 && p1[1..] == p2 && p0[1..] == p1;
    assert Join(p2, ';') == "P:" + password + ";H:false;;";
    assert Join(p1, ';') == "S:" + ssid + ";" + Join(p2, ';');
    assert Join(p0, ';') == "WIFI:T:" + security + ";" + Join(p1, ';');
    assert p0 == ["WIFI:T:" + security, "S:" + ssid, "P:" + password, "H:false", "", ""];
  }

  /** Fields without `;` survive the round trip through the payload. */
  lemma DecodePayload(security: string, ssid: string, password: string)
    requires ';' !in security && ';' !in ssid && ';' !in password
    ensures Decode(Payload(security, ssid, password)) == Some((security, ssid, password))
  {
    var parts := ["WIFI:T:" + security, "S:" + ssid, "P:" + password, "H:false", "", ""];
    PayloadIsJoin(security, ssid, password);
    assert ';' !in parts[0] && ';' !in parts[1] && ';' !in parts[2] && ';' !in parts[3];
    SplitJoin(parts, ';');
    assert Split(Payload(security, ssid, password), ';') == parts;
    assert parts[0][..7] == "WIFI:T:" && parts[1][..2] == "S:" && parts[2][..2] == "P:";
    assert parts[0][7..] == security && parts[1][2..] == ssid && parts[2][2..] == password;
  }

  /** With no escaping, a `;` in the network name breaks the payload: it no longer reads back. */
  lemma SemicolonBreaksPayload()
    ensures Decode(Payload("WPA", "a;b", "pw")) == None
  {
    var p := Payload("WPA", "a;b", "pw");
    var parts := ["WIFI:T:WPA", "S:a", "b", "P:pw", "H:false", "", ""];
    assert p == Join(parts, ';');
    SplitJoin(parts, ';');
  }

  /** A blank password is refused whatever the security type, including an open network. */
  lemma BlankPasswordRefusedForOpenNetwork(ssid: string)
    requires ssid != ""
    ensures Generate(Form(ssid, "", "  ", "nopass", "", false, false)).0 == NoPassword
  {
  }
}
